=== FILE: README.md ===
# Simmer automaton scheduler and Solana signer slots, in Dafny

The project models two parts of the simmer-sdk repository.

The first is the survival-aware skill scheduler in `skills/simmer-automaton/automaton.py`. Each cycle it:

- loads or starts its state;
- discovers the managed trading skills installed next to it and reconciles its skills table with what it found;
- on live cycles, refreshes its realized P&L from the venues' trade history;
- derives a survival tier (thriving, normal, conserving, critical or dead) from the budget left and the time elapsed;
- picks skills with an epsilon-greedy bandit whose exploration and concurrency shrink as the tier worsens;
- on live cycles, runs the picked skills, credits each successful run with the change in its source tag's P&L, and decays the exploration rate.

The second is the signer-slot logic of `simmer_sdk/solana_signing.py`. It loads a keypair from the configured secret, finds the key among a transaction's required signers, and writes its signature into that slot while keeping the co-signatures already present.

The model is functional. The state, the skill records and the dictionaries are immutable datatypes, and every operation is a pure function. Everything the program reads from outside arrives as a parameter:

- the clock: a timestamp and the days elapsed;
- the randomness: an `Oracle` of pick and coin draws;
- the venue trade lists and the portfolio exposure;
- the directory listing and file reads;
- the child-process outcome;
- the cryptographic and codec functions of the signer.

Modules, one file each:

- `wrappers.dfy`:
  - `Wrappers` holds `Option` and `Result`.
  - `Seqs` holds sequence facts: distinctness, removal, filtering, first-present and gather folds.
- `text.dfy` (`Text`): the Python `str` operations used, namely `strip`, `strip(c)`, `partition`, `split`, `find`, `startswith`, `in` and ASCII `lower`, with their round-trip facts.
- `dicts.dfy` (`Dicts`): insertion-ordered dictionaries.
- `survival.dfy` (`Survival`): the tier function, the tier effect maps and epsilon decay.
- `ranking.dfy` (`Ranking`): the average-reward order with an unbounded value for unplayed skills, and the stable descending sort.
- `sampling.dfy` (`Sampling`): `random.sample` as draws from an oracle.
- `skills.dfy` (`Skills`): the skill record, the table, `_avg_reward` and the discovery entry.
- `bandit.dfy` (`Bandit`): `select_skills`, `update_bandit` and the crediting pass.
- `registration.dfy` (`Registration`): reconciliation of the table with discovery.
- `discovery.dfy` (`Discovery`): front-matter parsing, the qualification rule, the `TRADE_SOURCE` rule and `discover_skills`.
- `pnl.dfy` (`Pnl`): the per-source P&L fold of `fetch_skill_pnl` and the realized total.
- `executor.dfy` (`Executor`): the command, the environment and the result shaping of `run_skill`.
- `cycle.dfy` (`Cycle`): `init_state` and `run_cycle` as one state transition.
- `signing.dfy` (`Signing`): `has_solana_key`, `_load_keypair`, `get_solana_public_key`, `validate_solana_key` and `sign_solana_transaction`.

Points where the code's behaviour is easy to misread:

- Epsilon decays only on completed live cycles. A dry run returns at automaton.py:619-625, before the decay at automaton.py:669-672.
- `cycle_count` is incremented only at automaton.py:623 (dry run) and automaton.py:675 (completed live cycle). The returns for an empty skills table (automaton.py:572-575) and for a dead tier (automaton.py:601-606) leave it unchanged.
- A rediscovered skill that had been disabled stays disabled. The refresh touches only `source_tag` and `entrypoint`.
- Dead is not terminal in the code. The tier is recomputed from the current figures every cycle, so a rise in realized P&L can lift a budget-dead scheduler back up (`Survival.BudgetDeathIsRecomputed`).
- `spent_usd` is written only by `init_state`. No cycle changes it (`Cycle.SpentNeverChanges`).
- The skill record stores no directory. The run loop takes each skill's directory from the current discovery list, where the last entry for a slug wins.

## Model

| member | source | states |
|---|---|---|
| Survival.ComputeTier | skills/simmer-automaton/automaton.py:324-353 | A non-positive budget is dead. Otherwise each tier holds exactly when its band of the remaining fraction and the horizon test say so: dead iff the fraction is at most 0 or the horizon has passed, critical below 0.10, conserving below 0.30, thriving with positive realized P&L above 0.70, normal otherwise. |
| Survival.TierMonotoneInSpend | skills/simmer-automaton/automaton.py:329-353 | Spending more never gives a better tier. |
| Survival.TierMonotoneInTime | skills/simmer-automaton/automaton.py:338-346 | Later never gives a better tier, and dead past the horizon stays dead. |
| Survival.BudgetDeathIsRecomputed | skills/simmer-automaton/automaton.py:329-353 | A budget-dead state becomes thriving when realized P&L rises: death is recomputed, not stored. |
| Survival.TierScenarios | skills/simmer-automaton/automaton.py:329-353 | The worked scenarios: a full budget is normal, 8% left is critical, +40 on 50 is thriving, and day 31 of 30 is dead whatever the budget. |
| Survival.TierMaxSkills | skills/simmer-automaton/automaton.py:356-362 | Dead gives 0, conserving and critical give 1, thriving and normal give `max_concurrent`. |
| Survival.TierEffectiveEpsilon | skills/simmer-automaton/automaton.py:365-371 | Critical and dead give 0, conserving gives half the rate, thriving and normal give the rate itself. |
| Survival.TierEffectsMonotone | skills/simmer-automaton/automaton.py:356-371 | A better tier never allows fewer skills nor less exploration, and the effective rate stays within [0, epsilon]. |
| Survival.DecayEpsilon | skills/simmer-automaton/automaton.py:669-672 | The decayed rate is never below the floor. It is the floor or rate*decay, and it does not rise when decay <= 1 and the rate is at least the floor. |
| Survival.EpsilonStaysInBand | skills/simmer-automaton/automaton.py:669-672 | Over any number of decays the rate stays in [min_epsilon, epsilon] and never rises. |
| Skills.AvgReward | skills/simmer-automaton/automaton.py:428-433 | The average is unbounded iff the skill was never selected; otherwise average times plays equals total P&L. |
| Skills.EnabledSlugs | skills/simmer-automaton/automaton.py:384-385 | The enabled slugs, each once and in table order (a subsequence of the keys); a slug is listed iff its record is enabled, with a missing flag counting as enabled. |
| Ranking.OrderFacts | skills/simmer-automaton/automaton.py:428-433 | The reward order, with the unbounded value above every average, is a strict total order. |
| Ranking.SortDesc | skills/simmer-automaton/automaton.py:407 | The sorted list is a permutation of the input, in descending order. |
| Ranking.SortDescStable | skills/simmer-automaton/automaton.py:407 | Skills with equal average reward keep their table order, as in Python's stable `sorted(..., reverse=True)`. |
| Ranking.HeadOfRanking | skills/simmer-automaton/automaton.py:407-408 | The first n of a descending ranking are in order and beat every item left out. |
| Sampling.Sample | skills/simmer-automaton/automaton.py:399-402 | A sample of k from a pool has k items, all from the pool, with no repeats when the pool has none. |
| Sampling.SampleReachesEvery | skills/simmer-automaton/automaton.py:399-402 | Every repeat-free k-sequence from the pool is the outcome of some random source: the model rules out no result `random.sample` can give. |
| Sampling.SampleReadsFrom | skills/simmer-automaton/automaton.py:399-402 | A sample depends only on the draws from its own starting index on. |
| Bandit.FirstBest | skills/simmer-automaton/automaton.py:420 | `max` with a key: the chosen item's key is at least every other key, and strictly above every earlier key, so the first maximal item wins. |
| Bandit.Greedy | skills/simmer-automaton/automaton.py:410-423 | The epsilon-greedy loop returns exactly n items of the pool, with no repeats when the pool has none. |
| Bandit.Select | skills/simmer-automaton/automaton.py:378-425 | The selection has exactly min(n, enabled) distinct slugs, all enabled table entries. The unplayed skills come first, and all of them are included when there is room. |
| Bandit.SampleUnplayedFirst | skills/simmer-automaton/automaton.py:397-403 | Unplayed slugs fill the first positions and only they do; every unplayed slug is taken when the sample size allows. |
| Bandit.TopRanked | skills/simmer-automaton/automaton.py:405-408 | The critical branch returns m distinct enabled slugs. |
| Bandit.CriticalTakesTheBest | skills/simmer-automaton/automaton.py:405-408 | In the critical tier with every skill played, the selection is the head of the stable descending sort, and no skill left out has a better average than one taken. |
| Bandit.ExploitPicksBest | skills/simmer-automaton/automaton.py:410-423 | Outside the critical tier, every draw whose coin is at or above the effective rate takes a skill whose average is at least that of every enabled skill not yet taken. |
| Bandit.GreedyExploitsBest | skills/simmer-automaton/automaton.py:410-423 | The same property for the loop itself, for any pool, draw count and starting draw. |
| Bandit.GreedyDrawBest | skills/simmer-automaton/automaton.py:416-423 | Any single draw of the loop whose coin exploits takes a slug whose average is at least that of every slug the earlier draws left. |
| Bandit.Credit | skills/simmer-automaton/automaton.py:497-504 | One credit adds the delta to total P&L, one play, and one reward iff the delta is positive, and sets the last run. Tag, entrypoint and enabled flag are kept. |
| Bandit.UpdateBandit | skills/simmer-automaton/automaton.py:488-504 | An unknown slug leaves the table unchanged. Otherwise only that record changes, credited with its source tag's after-minus-before P&L, where a missing tag counts as 0. Keys and key order are kept. |
| Bandit.CreditKeepsCounts | skills/simmer-automaton/automaton.py:497-502 | Rewarded plays never exceed plays after an update. |
| Bandit.CreditMovesAverage | skills/simmer-automaton/automaton.py:497-500 | A first play sets the average to the delta; a later one moves the average between its old value and the delta. |
| Bandit.CreditRuns | skills/simmer-automaton/automaton.py:660-666 | The crediting pass keeps the table valid, with the same keys in the same order. |
| Bandit.CreditRunsExactly | skills/simmer-automaton/automaton.py:660-666 | With distinct selections, a record is credited once iff its slug was selected and its run succeeded; every other record is unchanged. |
| Bandit.CreditRunsKeepsCounts | skills/simmer-automaton/automaton.py:660-666 | The crediting pass keeps rewarded plays within plays. |
| Registration.LastFor | skills/simmer-automaton/automaton.py:548-564 | The last discovery entry of a slug, present iff some entry has that slug. |
| Registration.Fresh | skills/simmer-automaton/automaton.py:551-560 | A new record carries the entry's tag and entrypoint, zero P&L and plays, no last run, and is enabled. |
| Registration.Sync | skills/simmer-automaton/automaton.py:548-564 | After the sync loop, the old keys come first in order and the key set is the old keys plus the discovered slugs. A known skill takes its last entry's tag and entrypoint and keeps its statistics and flag. A new skill is fresh from its last entry. Undiscovered records are unchanged. |
| Registration.Reconcile | skills/simmer-automaton/automaton.py:548-570 | The whole step: old keys stay first in order and the key set grows by the discovered slugs; a discovered known skill takes its last entry's tag and entrypoint and keeps the rest; an undiscovered one is kept but disabled; a new one is fresh from its last entry. |
| Registration.DisableMissing | skills/simmer-automaton/automaton.py:566-570 | Exactly the undiscovered records get `enabled = false`; nothing else changes. |
| Registration.EnabledOnlyIfDiscovered | skills/simmer-automaton/automaton.py:548-570 | After reconciliation every enabled skill was discovered, and every discovered slug is in the table. |
| Registration.ReconcileKeepsHistory | skills/simmer-automaton/automaton.py:548-570 | Reconciliation keeps every known skill and its statistics, and never re-enables a disabled one. |
| Registration.ReconcileIdempotent | skills/simmer-automaton/automaton.py:548-570 | Reconciling twice with the same discovery list equals reconciling once. |
| Registration.ReconcileKeepsOrder | skills/simmer-automaton/automaton.py:548-570 | Reconciliation deletes no key: the old keys come first, in their order. |
| Text.Partition | skills/simmer-automaton/automaton.py:175 | `partition` splits at the first occurrence of the separator, or gives the whole string and an empty tail. |
| Text.PartitionAt | skills/simmer-automaton/automaton.py:175 | Joining a separator-free head, the separator and a tail partitions back into head and tail. |
| Text.JoinSplit | skills/simmer-automaton/automaton.py:174 | Joining the pieces of a `split` with the separator gives back the text. |
| Text.SplitJoin | skills/simmer-automaton/automaton.py:174 | Separator-free pieces are recovered exactly by splitting their join. |
| Text.UnquoteQuoted | skills/simmer-automaton/automaton.py:185 | `strip('"').strip("'")` unwraps a value with no spaces or quotes at its ends from a pair of double quotes, and from a pair of single quotes, giving the value itself. |
| Discovery.ParseLine | skills/simmer-automaton/automaton.py:174-186 | A colon-free line contributes nothing; otherwise the key is the stripped text before the first colon, and only a `metadata` key holds decoded JSON. |
| Discovery.Reading | skills/simmer-automaton/automaton.py:180-186 | A stripped `metadata` pair gives nothing exactly when its JSON does not decode; any other key always gives an entry, and only `metadata` holds decoded JSON. The decoded entry holds exactly what `json.loads` returned, and any other entry holds the value with `"` and then `'` stripped from both ends. |
| Discovery.QuotedScalar | skills/simmer-automaton/automaton.py:180-186 | For a key other than `metadata`, a value with no spaces or quotes at its ends reads as itself when written in double quotes or in single quotes. |
| Discovery.Collect | skills/simmer-automaton/automaton.py:173-187 | The front-matter dict holds a key iff some line contributes it, with the last such line's entry. |
| Discovery.ParseFrontmatter | skills/simmer-automaton/automaton.py:165-187 | The parse fails iff the text does not open with `---` or has no `---` from index 3. |
| Discovery.FrontmatterRoundTrip | skills/simmer-automaton/automaton.py:165-187 | A document `---`, newline, the block's lines, newline, `---`, then anything, parses as exactly the dictionary the line loop builds from those lines, provided the block is unpadded and holds no `---`. |
| Discovery.ScalarLineRoundTrip | skills/simmer-automaton/automaton.py:174-186 | `key: value` with a clean key and an unquoted value reads back as that pair. |
| Discovery.MetadataLineRoundTrip | skills/simmer-automaton/automaton.py:178-182 | `metadata: <json>` contributes the decoded value iff it decodes, and nothing otherwise. |
| Discovery.AutomatonBlock | skills/simmer-automaton/automaton.py:233-237 | Without a `clawdbot` key the block is the top-level `automaton`; with a `clawdbot` object whose `automaton` is truthy it is that nested one; otherwise it falls back to the top-level `automaton`. |
| Discovery.Qualify | skills/simmer-automaton/automaton.py:232-248 | Metadata that is not an object raises and missing metadata is skipped. A block that is not an object with a truthy `managed` is skipped. A managed verdict comes only from such a block, with its `entrypoint` the non-empty string given; a falsy entrypoint is skipped and a truthy non-string one raises. |
| Discovery.QualifyLayouts | skills/simmer-automaton/automaton.py:232-240 | Both the `clawdbot.automaton` and the top-level `automaton` layouts make a skill managed with its entrypoint. |
| Discovery.UnmanagedSkipped | skills/simmer-automaton/automaton.py:239-241 | A block with a false `managed` is skipped whatever its entrypoint. |
| Discovery.SourceTagOfLine | skills/simmer-automaton/automaton.py:195-200 | A tag is declared only on lines with `TRADE_SOURCE` and `=`, and always starts with `sdk:`. |
| Discovery.SourceTagRoundTrip | skills/simmer-automaton/automaton.py:195-200 | `<name> = "<tag>"` declares exactly `<tag>`. |
| Discovery.FileTag | skills/simmer-automaton/automaton.py:194-201 | A file declares no tag iff none of its lines (`content.split("\n")`) declares one; otherwise its tag is that of the first line declaring one, every earlier line declaring none. |
| Discovery.FileTagRoundTrip | skills/simmer-automaton/automaton.py:194-201 | A file whose lines declare no tag up to a line `<name> = "<tag>"` declares `<tag>`, whatever lines follow. |
| Discovery.FindSourceTag | skills/simmer-automaton/automaton.py:190-204 | The first file, in order, that declares a tag gives it; there is none iff no readable file declares one. |
| Discovery.SourceTag | skills/simmer-automaton/automaton.py:251 | The declared tag, or `sdk:` + the directory name when none is declared; it always starts with `sdk:`. |
| Discovery.DiscoverOne | skills/simmer-automaton/automaton.py:214-257 | A child is found if and only if it is a directory with readable, non-empty front matter, a managed verdict and an existing entrypoint (`Qualifies`). It is then found with its name as slug, its source tag, that entrypoint and its path. The lookups fail exactly on the raising verdict. Every other child is skipped. |
| Discovery.Discover | skills/simmer-automaton/automaton.py:207-257 | Discovery succeeds iff no child raises. Each skill found comes from some child's result, and otherwise the error names the first raising child. |
| Discovery.DiscoverConcat | skills/simmer-automaton/automaton.py:216-257 | Skills are found in the order of the sorted listing: discovering `a + b` gives what `a` gives followed by what `b` gives. |
| Discovery.DiscoverSingle | skills/simmer-automaton/automaton.py:216-257 | One child gives exactly its own entry when it qualifies and nothing otherwise; with `DiscoverConcat` this fixes the whole result list. |
| Discovery.DiscoverFindsAll | skills/simmer-automaton/automaton.py:213-257 | When discovery succeeds, every child that is a directory with readable, non-empty front matter, a managed verdict and an existing entrypoint is in the result, with its name as slug, its source tag, its entrypoint and its path. |
| Discovery.DiscoverSlugsDistinct | skills/simmer-automaton/automaton.py:213-250 | Distinct directory names give distinct slugs. |
| Pnl.Size | skills/simmer-automaton/automaton.py:287 | `cost or amount or 0`: a non-zero cost, else the amount, else 0. |
| Pnl.Signed | skills/simmer-automaton/automaton.py:285-292 | A trade counts iff its lowered side is sell or buy; it adds its size for a sell and subtracts it for a buy. |
| Pnl.PnlBySource | skills/simmer-automaton/automaton.py:284-295 | A tag is present iff some trade counts towards it, and holds that tag's net: sells minus buys. An absent tag nets 0. |
| Pnl.AddTrade | skills/simmer-automaton/automaton.py:285-293 | One pass of the loop: a counted trade sets its tag to the old figure (0 if absent) plus its signed size; every tag it does not count for keeps its presence and figure. |
| Pnl.AllTrades | skills/simmer-automaton/automaton.py:272-282 | Every trade of every answering venue is included, and nothing else; a single response gives its own list, a failed one nothing. |
| Pnl.AllTradesConcat | skills/simmer-automaton/automaton.py:272-282 | Gathering distributes over concatenation of the responses, so every copy of every trade is kept, in venue order. |
| Pnl.FetchSkillPnl | skills/simmer-automaton/automaton.py:267-295 | A tag is listed iff some trade of Polymarket's list followed by Kalshi's counts towards it, and holds the net of all those trades; the figures sum to the signed total of both lists. |
| Pnl.RealizedIsTotal | skills/simmer-automaton/automaton.py:583 | The sum of the per-tag figures is the signed total of every counted trade. |
| Pnl.PnlOrderFree | skills/simmer-automaton/automaton.py:284-295 | Any reordering of the trades gives the same per-tag figures. |
| Pnl.VenueOrderFree | skills/simmer-automaton/automaton.py:273-282 | The order in which the two venues are queried does not change the figures. |
| Pnl.SideConvention | skills/simmer-automaton/automaton.py:285-292 | Upper-case sell adds and mixed-case buy subtracts; another side is ignored; a missing source is booked under `unknown`, and a missing cost falls back to the amount. |
| Executor.Command | skills/simmer-automaton/automaton.py:445-448 | The argv is the interpreter, the entrypoint, `--live` iff live, and `--quiet` last. |
| Executor.ChildEnv | skills/simmer-automaton/automaton.py:450-451 | The child environment is the parent's with `AUTOMATON_MANAGED=1` added; nothing else changes. |
| Executor.Tail | skills/simmer-automaton/automaton.py:464-465 | `s[-n:]` is a suffix of length min(n, len s). |
| Executor.TailDropsFront | skills/simmer-automaton/automaton.py:464-465 | Text in front of a long enough tail cannot affect what is kept. |
| Executor.Shape | skills/simmer-automaton/automaton.py:453-481 | A run succeeds iff the process exited with 0, iff the code is 0. The output and stderr are the last 2000 and 1000 characters. A timeout or launch failure gives -1, empty output, and the timeout message or the error text. |
| Cycle.InitState | skills/simmer-automaton/automaton.py:143-156 | A fresh state: started now, the given budget, horizon and rate, nothing spent or realized, normal tier, count 0, empty history and table. |
| Cycle.Start | skills/simmer-automaton/automaton.py:527-540 | No stored state gives a fresh one. A stored state changes only in the budget and horizon, and each of them only when its override flag is set. |
| Cycle.RunAll | skills/simmer-automaton/automaton.py:630-654 | A selected slug is run iff it is in the table and has a non-empty discovered directory. It is launched live from that directory with its entrypoint and the managed environment, and its result is the shaped outcome. |
| Cycle.Succeeded | skills/simmer-automaton/automaton.py:661 | The slugs whose recorded run succeeded. |
| Cycle.Assess | skills/simmer-automaton/automaton.py:578-595 | Live cycles overwrite realized P&L with the fetched total and unrealized P&L with the exposure. The tier is recomputed, and the history gains a from/to/now entry iff it changed. Nothing else changes. |
| Cycle.Execute | skills/simmer-automaton/automaton.py:627-675 | A completed live cycle keeps the table's keys, decays epsilon, adds one to the count and changes nothing else. |
| Cycle.RunCycle | skills/simmer-automaton/automaton.py:511-680 | The whole cycle keeps the table valid; its behaviour is stated by the Cycle lemmas below. |
| Cycle.CycleCountAdvances | skills/simmer-automaton/automaton.py:572-675 | The count rises by one exactly on dry runs and completed live cycles; a no-skills ending happens iff the reconciled table is empty. |
| Cycle.TierHistoryRecordsChanges | skills/simmer-automaton/automaton.py:586-606 | With skills, the stored tier is the recomputed one, the history grows by one entry iff the tier changed, and the cycle dies iff that tier is dead; with none, the reconciled state is stored. |
| Cycle.LiveRefresh | skills/simmer-automaton/automaton.py:578-583 | A live cycle stores the signed total of all reported trades as realized P&L and the exposure as unrealized. |
| Cycle.OnlyLiveCyclesLearn | skills/simmer-automaton/automaton.py:619-672 | A cycle that does not complete stores the reconciled table and rate. A dry run keeps the P&L figures. A completed cycle decays the rate. |
| Cycle.SpentNeverChanges | skills/simmer-automaton/automaton.py:511-675 | The spent amount after a cycle is the stored one, or 0 for a fresh state. |
| Cycle.SkillsNeverDeleted | skills/simmer-automaton/automaton.py:548-570 | The stored keys stay, first and in order, after every cycle. |
| Cycle.SelectionIsDiscoveredAndEnabled | skills/simmer-automaton/automaton.py:612-614 | A selection is distinct and enabled, has min(tier allowance, enabled count) slugs, and holds only skills this cycle discovered. |
| Cycle.OnlySuccessfulRunsCredited | skills/simmer-automaton/automaton.py:659-666 | A completed cycle credits exactly the selected skills whose run succeeded, once each, with their tag's before-to-after P&L change; every other record keeps its reconciled value. |
| Cycle.ExecuteCredits | skills/simmer-automaton/automaton.py:659-666 | The same property for the live steps on their own. |
| Cycle.CycleKeepsRewardCounts | skills/simmer-automaton/automaton.py:660-666 | If rewarded plays are within plays before a cycle, they still are after it. |
| Cycle.EpsilonStaysBounded | skills/simmer-automaton/automaton.py:669-672 | With floor <= configured rate, decay <= 1 and a stored rate in that band, the rate after a cycle stays in the band. |
| Signing.LoadKeypair | simmer_sdk/solana_signing.py:41-74 | With no key configured the result is the not-set error. An undecodable secret is a format error. 64 bytes go to `from_bytes`, 32 bytes to `from_seed`, any other length is a length error. Every failure is a `ValueError`. |
| Signing.PublicKey | simmer_sdk/solana_signing.py:77-92 | An address is returned iff the keypair loads, and it is that key's public key text. |
| Signing.KeyConfigured | simmer_sdk/solana_signing.py:25-27 | `has_solana_key` holds exactly when loading the key gets past the not-set check. |
| Signing.ValidateKey | simmer_sdk/solana_signing.py:182-195 | Validation holds iff the keypair loads and its address text is non-empty, and only with a key configured. |
| Signing.SignerIndex | simmer_sdk/solana_signing.py:155-165 | The index is the first i < min(num_required, len(account_keys)) holding our key, and there is none iff no such i exists. |
| Signing.Pad | simmer_sdk/solana_signing.py:169-171 | Padding keeps every existing signature and fills up to num_required with the default. |
| Signing.PlaceSignature | simmer_sdk/solana_signing.py:167-172 | The new list has length max(len existing, num_required) and our signature at the signer slot. Every other existing signature is kept and every other new slot holds the default. |
| Signing.PlaceIdempotent | simmer_sdk/solana_signing.py:167-172 | Placing the same signature twice equals placing it once. |
| Signing.CoSignersCommute | simmer_sdk/solana_signing.py:167-172 | Two signers in different slots give the same list in either order, so neither erases the other. |
| Signing.SignTransaction | simmer_sdk/solana_signing.py:95-179 | Key errors propagate and a bad base64 transaction is a `ValueError`. Signing fails with "not a signer" iff the key is not among the required signers, and with a `RuntimeError` iff parsing or `populate` fails. Once the key loads and the base64 decodes, no other error is possible. So when parsing succeeds, the key is a required signer and `populate` succeeds, the result is a success. A success is the base64 encoding of what `populate` returns for the message and the signed list (our signature in our slot, the others kept). |
| Signing.SignedListShape | simmer_sdk/solana_signing.py:147-172 | The signed list is absent iff the key is not a required signer. Otherwise our signature is at the first matching slot, the length is max(old, required), old signatures are kept elsewhere, and new slots hold the default. |
| Signing.NoKeyNoSigning | simmer_sdk/solana_signing.py:25-46 | With no or an empty key there is no key, loading fails with the not-set error, there is no address, validation is false, and signing fails with the same error. |

## Left out

- Input, output and persistence are outside the model: config loading and saving, `load_state`/`save_state`, printing, the display functions and the command-line `main`. The cycle takes the loaded state and returns the state it would save.
- The network is outside the model. The trade requests (venue, limit 200) and the portfolio request arrive as their answers, and a failed request arrives as `None` or as exposure 0. The `get_client` singleton is left out.
- The clock is outside the model. `datetime.now()` arrives as one timestamp and one days-elapsed figure per cycle, so every timestamp a cycle writes is the same `now`.
- The operating system is outside the model:
  - the directory listing arrives already in `sorted()` order, with the reads of each child's files;
  - the entrypoint existence check is a predicate;
  - `json.loads` is an opaque decoder;
  - the child process is an `Outcome`.
- Money is `real`. Python float rounding is not modelled, and neither is the string-to-float conversion `float(cost)` performs on text values.
- A trade whose source or side is JSON `null`, or whose side is not a string, would raise in `.lower()` or group under `None`. The model takes an absent field as the default and a present one as a string.
- `Text.Lower` lowers ASCII letters only. No other character lowers to a letter of `sell` or `buy`, so the side test is unaffected.
- `max_concurrent` is a natural number. With a negative configured value, a thriving or normal cycle would raise in `random.sample` (automaton.py:399) while some enabled skill is unplayed, and would select nothing from the empty `range(n)` (automaton.py:413) once every skill has been played; neither path is modelled.
- Registration.Sync: states that keys already present keep their place, which keys are present and what each holds, but not that new keys follow in the order of the discovery list (they do, since `Put` appends). That order decides ties in the ranking of skills that have never been played, so it is a weaker statement than the code.
- A discovery error (metadata that is not an object, or an entrypoint that is not a string) aborts `discover_skills` and with it the cycle. `Discovery.Discover` reports it, and `Cycle.RunCycle` takes the list of a discovery that succeeded.
- Keypair construction, Ed25519 signing, base58, base64 and `VersionedTransaction` parsing and serialisation are opaque functions of a `Crypto` parameter. A failing library call is `None`. The `ImportError` paths for missing dependencies are left out.
- The log message of `get_solana_public_key` is left out.
- Executor.Shape: the 120-second limit itself is not enforced here; a timeout arrives as the `TimedOut` outcome.
- Cycle.EpsilonStaysBounded: the band holds only for a stored rate that is already in it, since the stored state is not checked on load.

=== FILE: bandit.dfy ===
/**
  The epsilon-greedy bandit: which skills a cycle runs, and how a successful run's P&L delta
  is credited to the skill afterwards.
*/
module Bandit {
  import opened Wrappers
  import opened Seqs
  import opened Dicts
  import opened Survival
  import opened Ranking
  import opened Sampling
  import opened Skills

  /**
    The random source. Draw `j` of a cycle's selection reads `pick(j)` where Python calls
    `random.sample`/`random.choice`, and `coin(j)` where it calls `random.random()`.
  */
  datatype Oracle = Oracle(pick: nat -> nat, coin: nat -> real)

  /** Python's `max(avail, key=key)`: the position of the first item with the greatest key. */
  function FirstBest(avail: seq<Slug>, key: Slug -> Reward): (i: nat)
    requires |avail| > 0
    ensures i < |avail|
    ensures forall j :: 0 <= j < |avail| ==> AtLeast(key(avail[i]), key(avail[j]))
    ensures forall j :: 0 <= j < i ==> Above(key(avail[i]), key(avail[j]))
  {
    if |avail| == 1 then 0
    else
      var front := avail[..|avail| - 1];
      var b := FirstBest(front, key);
      var last := |avail| - 1;
      assert forall j :: 0 <= j < last ==> avail[j] == front[j];
      if Above(key(avail[last]), key(avail[b])) then
        assert forall j :: 0 <= j < last ==> Above(key(avail[last]), key(avail[j])) by {
          forall j | 0 <= j < last
            ensures Above(key(avail[last]), key(avail[j]))
          {
            OrderFacts(key(avail[last]), key(avail[b]), key(avail[j]));
          }
        }
        last
      else
        OrderFacts(key(avail[b]), key(avail[last]), key(avail[b]));
        b
  }

  /**
    The epsilon-greedy loop: each of `n` draws either explores (a uniform choice among the
    items left) when its coin is below `eps`, or exploits (the first best item left).
  */
  function Greedy(avail: seq<Slug>, n: nat, eps: real, key: Slug -> Reward, o: Oracle, step: nat): (r: seq<Slug>)
    requires n <= |avail|
    ensures |r| == n
    ensures forall i :: 0 <= i < |r| ==> r[i] in avail
    ensures Distinct(avail) ==> Distinct(r)
    decreases n
  {
    if n == 0 then []
    else
      var i := Draw(avail, eps, key, o, step);
      var rest := Greedy(RemoveAt(avail, i), n - 1, eps, key, o, step + 1);
      RemoveAtMembers(avail, i);
      [avail[i]] + rest
  }

  /** The position draw `step` takes: a uniform one when the coin explores, else the first best. */
  function Draw(avail: seq<Slug>, eps: real, key: Slug -> Reward, o: Oracle, step: nat): (i: nat)
    requires |avail| > 0
    ensures i < |avail|
    ensures o.coin(step) >= eps ==> i == FirstBest(avail, key)
  {
    if o.coin(step) < eps then o.pick(step) % |avail| else FirstBest(avail, key)
  }

  /** The slugs of `s` that are in the table with no play yet, in order. */
  function UnplayedOf(reg: Registry, s: seq<Slug>): seq<Slug> {
    Keep(s, x => Unplayed(reg, x))
  }

  /**
    `select_skills(state, n)`: at most `n` enabled slugs. Unplayed skills are sampled first;
    once every enabled skill has been played, the critical tier takes the best average rewards
    outright and the other tiers run the epsilon-greedy loop with the tier's exploration rate.
    The selection reads the table and changes nothing in it.
  */
  function Select(reg: Registry, tier: Tier, epsilon: real, n: nat, o: Oracle): (r: seq<Slug>)
    requires Valid(reg)
    ensures |r| == Min(n, |EnabledSlugs(reg)|)
    ensures Distinct(r)
    ensures forall i :: 0 <= i < |r| ==> r[i] in reg.values && IsEnabled(reg.values[r[i]])
    ensures forall i :: 0 <= i < |r| ==> (Unplayed(reg, r[i]) <==> i < |UnplayedOf(reg, EnabledSlugs(reg))|)
    ensures |r| >= |UnplayedOf(reg, EnabledSlugs(reg))| ==>
      forall j :: 0 <= j < |UnplayedOf(reg, EnabledSlugs(reg))| ==> UnplayedOf(reg, EnabledSlugs(reg))[j] in r
  {
    var enabled := EnabledSlugs(reg);
    if |enabled| == 0 then []
    else
      var eps := TierEffectiveEpsilon(tier, epsilon);
      var m := Min(n, |enabled|);
      var unplayed := UnplayedOf(reg, enabled);
      if |unplayed| > 0 then
        SampleUnplayedFirst(reg, enabled, m, o)
      else if tier == Critical then
        TopRanked(reg, enabled, m)
      else
        Greedy(enabled, m, eps, RewardIn(reg), o, 0)
  }

  /** The critical-tier branch: the first `m` of a stable descending sort by average reward. */
  function TopRanked(reg: Registry, enabled: seq<Slug>, m: nat): (r: seq<Slug>)
    requires Distinct(enabled) && m <= |enabled|
    ensures |r| == m
    ensures Distinct(r)
    ensures forall i :: 0 <= i < |r| ==> r[i] in enabled
  {
    var ranked := SortDesc(enabled, RewardIn(reg));
    PermutationFacts(ranked, enabled);
    ranked[..m]
  }

  /** The unplayed-first branch of `select_skills`. */
  function SampleUnplayedFirst(reg: Registry, enabled: seq<Slug>, m: nat, o: Oracle): (r: seq<Slug>)
    requires Distinct(enabled) && m <= |enabled|
    ensures |r| == m
    ensures Distinct(r)
    ensures forall i :: 0 <= i < |r| ==> r[i] in enabled
    ensures forall i :: 0 <= i < |r| ==> (Unplayed(reg, r[i]) <==> i < |UnplayedOf(reg, enabled)|)
    ensures |r| >= |UnplayedOf(reg, enabled)| ==>
      forall j :: 0 <= j < |UnplayedOf(reg, enabled)| ==> UnplayedOf(reg, enabled)[j] in r
  {
    var unplayed := UnplayedOf(reg, enabled);
    var first := Sample(unplayed, Min(m, |unplayed|), o.pick, 0);
    if |first| < m then
      var remaining := Keep(enabled, x => x !in first);
      KeepOutCount(enabled, first);
      Covers(first, unplayed);
      var second := Sample(remaining, m - |first|, o.pick, |first|);
      TopUp(reg, enabled, first, second);
      first + second
    else
      Covers(first, unplayed);
      first
  }

  /** An enabled slug with no play yet is among the unplayed ones. */
  lemma UnplayedListed(reg: Registry, enabled: seq<Slug>, x: Slug)
    requires x in enabled
    ensures Unplayed(reg, x) ==> x in UnplayedOf(reg, enabled)
  {
    var j :| 0 <= j < |enabled| && enabled[j] == x;
  }

  /** All the unplayed slugs, then played ones not among them: the unplayed ones fill exactly the front. */
  lemma TopUp(reg: Registry, enabled: seq<Slug>, first: seq<Slug>, second: seq<Slug>)
    requires Distinct(enabled) && Distinct(first) && Distinct(second)
    requires |first| == |UnplayedOf(reg, enabled)|
    requires forall i :: 0 <= i < |first| ==> first[i] in UnplayedOf(reg, enabled)
    requires forall i :: 0 <= i < |UnplayedOf(reg, enabled)| ==> UnplayedOf(reg, enabled)[i] in first
    requires forall i :: 0 <= i < |second| ==> second[i] in Keep(enabled, x => x !in first)
    ensures Distinct(first + second)
    ensures forall i :: 0 <= i < |first + second| ==> (first + second)[i] in enabled
    ensures forall i :: 0 <= i < |first + second| ==> (Unplayed(reg, (first + second)[i]) <==> i < |UnplayedOf(reg, enabled)|)
    ensures forall j :: 0 <= j < |UnplayedOf(reg, enabled)| ==> UnplayedOf(reg, enabled)[j] in first + second
  {
    var remaining := Keep(enabled, x => x !in first);
    var unplayed := UnplayedOf(reg, enabled);
    var r := first + second;
    forall i | 0 <= i < |second|
      ensures second[i] !in first && second[i] in enabled && !Unplayed(reg, second[i])
    {
      var x := second[i];
      assert x in remaining;
      assert x !in first && x in enabled;
      UnplayedListed(reg, enabled, x);
    }
    forall i | 0 <= i < |first|
      ensures first[i] in enabled && Unplayed(reg, first[i])
    {
      var k :| 0 <= k < |unplayed| && unplayed[k] == first[i];
    }
    forall i | 0 <= i < |r|
      ensures r[i] in enabled && (Unplayed(reg, r[i]) <==> i < |unplayed|)
    {
      if i < |first| { assert r[i] == first[i]; } else { assert r[i] == second[i - |first|]; }
    }
    DistinctJoin(first, second);
  }

  /**
    In the epsilon-greedy branch every exploiting draw (coin not below the tier's rate) takes a
    slug whose average reward is at least that of every enabled slug not yet taken.
  */
  lemma ExploitPicksBest(reg: Registry, tier: Tier, epsilon: real, n: nat, o: Oracle)
    requires Valid(reg)
    requires |UnplayedOf(reg, EnabledSlugs(reg))| == 0 && tier != Critical
    ensures var r := Select(reg, tier, epsilon, n, o);
      forall i, s :: 0 <= i < |r| && o.coin(i) >= TierEffectiveEpsilon(tier, epsilon)
        && s in EnabledSlugs(reg) && s !in r[..i]
        ==> AtLeast(AvgReward(reg.values[r[i]]), AvgReward(reg.values[s]))
  {
    var enabled := EnabledSlugs(reg);
    if |enabled| > 0 {
      var eps := TierEffectiveEpsilon(tier, epsilon);
      var r := Greedy(enabled, Min(n, |enabled|), eps, RewardIn(reg), o, 0);
      assert Select(reg, tier, epsilon, n, o) == r;
      GreedyExploitsBest(enabled, Min(n, |enabled|), eps, RewardIn(reg), o, 0);
      forall i, s | 0 <= i < |r| && o.coin(i) >= eps && s in enabled && s !in r[..i]
        ensures AtLeast(AvgReward(reg.values[r[i]]), AvgReward(reg.values[s]))
      {
        assert o.coin(0 + i) >= eps;
        assert AtLeast(RewardIn(reg)(r[i]), RewardIn(reg)(s));
      }
    }
  }

  /** Every draw of `r` whose coin is not below `eps` took a best slug among those still available. */
  ghost predicate ExploitsBest(r: seq<Slug>, avail: seq<Slug>, eps: real, key: Slug -> Reward, o: Oracle, step: nat) {
    forall i, s :: 0 <= i < |r| && o.coin(step + i) >= eps && s in avail && s !in r[..i]
      ==> AtLeast(key(r[i]), key(s))
  }

  lemma GreedyExploitsBest(avail: seq<Slug>, n: nat, eps: real, key: Slug -> Reward, o: Oracle, step: nat)
    requires n <= |avail|
    ensures ExploitsBest(Greedy(avail, n, eps, key, o, step), avail, eps, key, o, step)
  {
    var r := Greedy(avail, n, eps, key, o, step);
    forall i, s | 0 <= i < |r| && o.coin(step + i) >= eps && s in avail && s !in r[..i]
      ensures AtLeast(key(r[i]), key(s))
    {
      GreedyDrawBest(avail, n, eps, key, o, step, i, s);
    }
  }

  /** Draw `i` of the loop, when its coin exploits, beats every slug the earlier draws left. */
  lemma {:induction false} GreedyDrawBest(avail: seq<Slug>, n: nat, eps: real, key: Slug -> Reward, o: Oracle, step: nat, i: nat, s: Slug)
    requires n <= |avail| && i < n
    requires o.coin(step + i) >= eps && s in avail && s !in Greedy(avail, n, eps, key, o, step)[..i]
    ensures AtLeast(key(Greedy(avail, n, eps, key, o, step)[i]), key(s))
    decreases i
  {
    if i == 0 {
      GreedyFirstDraw(avail, n, eps, key, o, step, s);
    } else {
      GreedyLaterDraw(avail, n, eps, key, o, step, i, s);
      assert step + i == (step + 1) + (i - 1);
      GreedyDrawBest(Rest(avail, eps, key, o, step), n - 1, eps, key, o, step + 1, i - 1, s);
    }
  }

  /** An exploiting first draw beats every slug of the pool. */
  lemma GreedyFirstDraw(avail: seq<Slug>, n: nat, eps: real, key: Slug -> Reward, o: Oracle, step: nat, s: Slug)
    requires 0 < n <= |avail|
    requires o.coin(step) >= eps && s in avail
    ensures AtLeast(key(Greedy(avail, n, eps, key, o, step)[0]), key(s))
  {
    GreedyUnfold(avail, n, eps, key, o, step);
    BestBeatsAll(avail, key, Draw(avail, eps, key, o, step), s);
  }

  /** Draw `i > 0` of the loop is draw `i - 1` of the loop over the pool the first draw left. */
  lemma GreedyLaterDraw(avail: seq<Slug>, n: nat, eps: real, key: Slug -> Reward, o: Oracle, step: nat, i: nat, s: Slug)
    requires n <= |avail| && 0 < i < n
    requires s in avail && s !in Greedy(avail, n, eps, key, o, step)[..i]
    ensures Greedy(avail, n, eps, key, o, step)[i] == Greedy(Rest(avail, eps, key, o, step), n - 1, eps, key, o, step + 1)[i - 1]
    ensures s in Rest(avail, eps, key, o, step)
    ensures s !in Greedy(Rest(avail, eps, key, o, step), n - 1, eps, key, o, step + 1)[..i - 1]
  {
    var k := Draw(avail, eps, key, o, step);
    var rest := Greedy(RemoveAt(avail, k), n - 1, eps, key, o, step + 1);
    GreedyUnfold(avail, n, eps, key, o, step);
    LaterDraw(avail, k, rest, i, s);
  }

  /** What the first draw leaves of the pool. */
  function Rest(avail: seq<Slug>, eps: real, key: Slug -> Reward, o: Oracle, step: nat): (r: seq<Slug>)
    requires |avail| > 0
    ensures |r| == |avail| - 1
  {
    RemoveAt(avail, Draw(avail, eps, key, o, step))
  }

  /** The loop is its first draw followed by the loop over what is left. */
  lemma GreedyUnfold(avail: seq<Slug>, n: nat, eps: real, key: Slug -> Reward, o: Oracle, step: nat)
    requires 0 < n <= |avail|
    ensures var k := Draw(avail, eps, key, o, step);
      Greedy(avail, n, eps, key, o, step) == [avail[k]] + Greedy(RemoveAt(avail, k), n - 1, eps, key, o, step + 1)
  {
  }

  lemma BestBeatsAll(avail: seq<Slug>, key: Slug -> Reward, k: nat, s: Slug)
    requires |avail| > 0 && k == FirstBest(avail, key) && s in avail
    ensures AtLeast(key(avail[k]), key(s))
  {
    var p :| 0 <= p < |avail| && avail[p] == s;
  }

  /** A slug not taken by the first `i > 0` draws is still available to draw `i`. */
  lemma LaterDraw(avail: seq<Slug>, k: nat, rest: seq<Slug>, i: nat, s: Slug)
    requires k < |avail| && 0 < i <= |rest|
    requires s in avail && s !in ([avail[k]] + rest)[..i]
    ensures s in RemoveAt(avail, k) && s !in rest[..i - 1]
  {
    assert ([avail[k]] + rest)[..i] == [avail[k]] + rest[..i - 1];
    var p :| 0 <= p < |avail| && avail[p] == s;
    RemoveAtMembers(avail, k);
  }

  /**
    In the critical tier with every enabled skill played, the selection is the head of the
    stable descending ranking by average reward: nothing left out beats anything taken.
  */
  lemma CriticalTakesTheBest(reg: Registry, epsilon: real, n: nat, o: Oracle)
    requires Valid(reg)
    requires |UnplayedOf(reg, EnabledSlugs(reg))| == 0
    ensures var r := Select(reg, Critical, epsilon, n, o);
      && r == SortDesc(EnabledSlugs(reg), RewardIn(reg))[..|r|]
      && Descending(r, RewardIn(reg))
      && forall i, s :: 0 <= i < |r| && s in EnabledSlugs(reg) && s !in r
           ==> AtLeast(AvgReward(reg.values[r[i]]), AvgReward(reg.values[s]))
  {
    var enabled := EnabledSlugs(reg);
    if |enabled| > 0 {
      var m := Min(n, |enabled|);
      var key := RewardIn(reg);
      var ranked := SortDesc(enabled, key);
      var r := ranked[..m];
      assert Select(reg, Critical, epsilon, n, o) == r;
      HeadOfRanking(ranked, enabled, key, m);
      forall i, s | 0 <= i < |r| && s in enabled && s !in r
        ensures AtLeast(AvgReward(reg.values[r[i]]), AvgReward(reg.values[s]))
      {
        assert AtLeast(key(r[i]), key(s));
        assert r[i] in enabled;
      }
    }
  }

  /** The change in a source tag's realized P&L between two snapshots; a tag missing from a snapshot counts as 0. */
  function Delta(tag: string, before: Dict<real>, after: Dict<real>): real {
    GetOr(after, tag, 0.0) - GetOr(before, tag, 0.0)
  }

  /** One credited run of a skill whose source tag's P&L moved by `delta`, finishing at `now`. */
  function Credit(rec: SkillRecord, delta: real, now: Timestamp): (c: SkillRecord)
    ensures c.totalPnl - rec.totalPnl == delta
    ensures c.timesSelected == rec.timesSelected + 1
    ensures c.timesRewarded - rec.timesRewarded == (if delta > 0.0 then 1 else 0)
    ensures c.lastRun == Some(now)
    ensures c.sourceTag == rec.sourceTag && c.entrypoint == rec.entrypoint && c.enabled == rec.enabled
  {
    rec.(totalPnl := rec.totalPnl + delta,
         timesSelected := rec.timesSelected + 1,
         timesRewarded := if delta > 0.0 then rec.timesRewarded + 1 else rec.timesRewarded,
         lastRun := Some(now))
  }

  /**
    `update_bandit`: credits `slug` with the change in its source tag's P&L between the two
    snapshots. An unknown slug leaves the table as it was; no other record changes.
  */
  function UpdateBandit(reg: Registry, slug: Slug, before: Dict<real>, after: Dict<real>, now: Timestamp): (r: Registry)
    requires Valid(reg)
    ensures Valid(r) && r.keys == reg.keys && r.values.Keys == reg.values.Keys
    ensures slug !in reg.values ==> r == reg
    ensures forall s :: s in reg.values && s != slug ==> r.values[s] == reg.values[s]
    ensures slug in reg.values ==>
      r.values[slug] == Credit(reg.values[slug], Delta(reg.values[slug].sourceTag, before, after), now)
  {
    if slug !in reg.values then reg
    else
      var rec := reg.values[slug];
      Put(reg, slug, Credit(rec, Delta(rec.sourceTag, before, after), now))
  }

  /** A credit keeps the rewarded plays within the plays. */
  lemma CreditKeepsCounts(reg: Registry, slug: Slug, before: Dict<real>, after: Dict<real>, now: Timestamp)
    requires Valid(reg) && RewardCountsConsistent(reg)
    ensures RewardCountsConsistent(UpdateBandit(reg, slug, before, after, now))
  {
  }

  /**
    After a credit the skill's average reward lies between its old average and the new delta:
    one more play moves the average towards what that play earned.
  */
  lemma {:induction false} CreditMovesAverage(rec: SkillRecord, delta: real, now: Timestamp)
    ensures rec.timesSelected == 0 && rec.totalPnl == 0.0 ==> AvgReward(Credit(rec, delta, now)) == Avg(delta)
    ensures rec.timesSelected > 0 ==>
      var a := AvgReward(rec).value;
      var b := AvgReward(Credit(rec, delta, now)).value;
      (a <= delta ==> a <= b <= delta) && (delta <= a ==> delta <= b <= a)
  {
    var c := Credit(rec, delta, now);
    if rec.timesSelected > 0 {
      var t := rec.timesSelected as real;
      var a := AvgReward(rec).value;
      var b := AvgReward(c).value;
      assert a * t == rec.totalPnl;
      assert b * (t + 1.0) == rec.totalPnl + delta;
      assert (b - a) * (t + 1.0) == delta - a;
      assert (delta - b) * (t + 1.0) == (delta - a) * t;
      SignOfProduct(b - a, t + 1.0);
      SignOfProduct(delta - b, t + 1.0);
      SignOfProduct(delta - a, t);
    } else {
      assert c.timesSelected == 1;
    }
  }

  lemma SignOfProduct(x: real, y: real)
    requires y > 0.0
    ensures x * y >= 0.0 <==> x >= 0.0
    ensures x * y <= 0.0 <==> x <= 0.0
  {
  }

  /**
    The crediting pass after the runs: for each selected slug, in order, whose run succeeded
    (`ok`) and which is still in the table, `update_bandit`.
  */
  function CreditRuns(reg: Registry, selected: seq<Slug>, ok: set<Slug>, before: Dict<real>, after: Dict<real>, now: Timestamp): (r: Registry)
    requires Valid(reg)
    ensures Valid(r) && r.keys == reg.keys && r.values.Keys == reg.values.Keys
    decreases |selected|
  {
    if selected == [] then reg
    else
      var reg' := if selected[0] in ok then UpdateBandit(reg, selected[0], before, after, now) else reg;
      CreditRuns(reg', selected[1..], ok, before, after, now)
  }

  /**
    With a selection that names no slug twice, exactly the selected skills whose runs succeeded
    are credited, each once with its own tag's delta; every other record is left as it was.
  */
  lemma {:induction false} CreditRunsExactly(reg: Registry, selected: seq<Slug>, ok: set<Slug>, before: Dict<real>, after: Dict<real>, now: Timestamp)
    requires Valid(reg) && Distinct(selected)
    ensures var r := CreditRuns(reg, selected, ok, before, after, now);
      forall s :: s in reg.values ==>
        r.values[s] == (if s in selected && s in ok
                        then Credit(reg.values[s], Delta(reg.values[s].sourceTag, before, after), now)
                        else reg.values[s])
    decreases |selected|
  {
    if selected != [] {
      var x := selected[0];
      var reg' := if x in ok then UpdateBandit(reg, x, before, after, now) else reg;
      assert Distinct(selected[1..]) by {
        forall i, j | 0 <= i < j < |selected[1..]| ensures selected[1..][i] != selected[1..][j] {
          assert selected[1..][i] == selected[i + 1] && selected[1..][j] == selected[j + 1];
        }
      }
      CreditRunsExactly(reg', selected[1..], ok, before, after, now);
      forall s | s in reg.values
        ensures s in selected <==> s == x || s in selected[1..]
      {
        assert selected == [x] + selected[1..];
      }
    }
  }

  /** The crediting pass keeps the rewarded plays within the plays. */
  lemma {:induction false} CreditRunsKeepsCounts(reg: Registry, selected: seq<Slug>, ok: set<Slug>, before: Dict<real>, after: Dict<real>, now: Timestamp)
    requires Valid(reg) && RewardCountsConsistent(reg)
    ensures RewardCountsConsistent(CreditRuns(reg, selected, ok, before, after, now))
    decreases |selected|
  {
    if selected != [] {
      var reg' := if selected[0] in ok then UpdateBandit(reg, selected[0], before, after, now) else reg;
      if selected[0] in ok {
        CreditKeepsCounts(reg, selected[0], before, after, now);
      }
      CreditRunsKeepsCounts(reg', selected[1..], ok, before, after, now);
    }
  }
}

=== FILE: cycle.dfy ===
/**
  One scheduler cycle as a state transition: load or start the state, reconcile the skills
  table with discovery, refresh the P&L on live cycles, recompute the tier, stop when dead,
  select skills, and on live cycles run them, credit the successful ones and decay epsilon.
  Everything the cycle reads from the outside world arrives in a `World`.
*/
module Cycle {
  import opened Wrappers
  import opened Seqs
  import opened Dicts
  import opened Survival
  import opened Skills
  import opened Bandit
  import opened Registration
  import opened Pnl
  import opened Executor

  /** A recorded tier change. */
  datatype Transition = Transition(from: Tier, to: Tier, at: Timestamp)

  /** The persistent scheduler state. */
  datatype State = State(
    startedAt: Timestamp,
    budget: real,
    horizonDays: int,
    spent: real,
    realized: real,
    unrealized: real,
    tier: Tier,
    epsilon: real,
    cycleCount: nat,
    tierHistory: seq<Transition>,
    skills: Registry)

  /** The settings a cycle runs with; the two flags say whether a budget or horizon was given on the command line. */
  datatype Config = Config(
    budget: real,
    horizonDays: int,
    epsilon: real,
    epsilonDecay: real,
    minEpsilon: real,
    maxConcurrent: nat,
    budgetOverride: bool,
    daysOverride: bool)

  /**
    What the cycle observes: the clock (as a timestamp and as days since the start), the
    venues' trade lists for the refresh, before-run and after-run P&L fetches, the portfolio
    exposure, the random source, and the process launcher with its interpreter and environment.
  */
  datatype World = World(
    now: Timestamp,
    daysElapsed: real,
    refresh: string -> Option<seq<Trade>>,
    unrealized: real,
    before: string -> Option<seq<Trade>>,
    after: string -> Option<seq<Trade>>,
    oracle: Oracle,
    python: string,
    env: map<string, string>,
    launch: (seq<string>, string, map<string, string>) -> Outcome)

  /** How a cycle ended. */
  datatype End =
    | NoSkills
    | Died
    | DryRun(selected: seq<Slug>)
    | Completed(selected: seq<Slug>, results: map<Slug, RunResult>)

  /** `init_state`: a fresh state started at `now`, nothing spent, normal tier, no skills. */
  function InitState(budget: real, horizonDays: int, epsilon: real, now: Timestamp): (s: State)
    ensures s.startedAt == now && s.budget == budget && s.horizonDays == horizonDays && s.epsilon == epsilon
    ensures s.spent == 0.0 && s.realized == 0.0 && s.unrealized == 0.0
    ensures s.tier == Normal && s.cycleCount == 0 && s.tierHistory == []
    ensures Valid(s.skills) && |s.skills.keys| == 0
  {
    State(now, budget, horizonDays, 0.0, 0.0, 0.0, Normal, epsilon, 0, [], Empty())
  }

  /** Step 1: the stored state with the command-line overrides applied, or a fresh one. */
  function Start(prior: Option<State>, cfg: Config, now: Timestamp): (s: State)
    ensures prior.None? ==> s == InitState(cfg.budget, cfg.horizonDays, cfg.epsilon, now)
    ensures prior.Some? ==> s == prior.value.(budget := s.budget, horizonDays := s.horizonDays)
    ensures prior.Some? ==> s.budget == (if cfg.budgetOverride then cfg.budget else prior.value.budget)
    ensures prior.Some? ==> s.horizonDays == (if cfg.daysOverride then cfg.horizonDays else prior.value.horizonDays)
  {
    match prior
    case None => InitState(cfg.budget, cfg.horizonDays, cfg.epsilon, now)
    case Some(p) =>
      p.(budget := if cfg.budgetOverride then cfg.budget else p.budget,
         horizonDays := if cfg.daysOverride then cfg.horizonDays else p.horizonDays)
  }

  /**
    The run loop: each selected slug that is in the table and has a non-empty directory in
    the discovery list is launched live from that directory; the others are passed over.
  */
  function RunAll(reg: Registry, selected: seq<Slug>, ds: seq<Discovered>, w: World): (results: map<Slug, RunResult>)
    ensures forall s :: s in results <==> s in selected && s in reg.values && LastFor(ds, s).Some? && LastFor(ds, s).value.dir != ""
    ensures forall s :: s in results ==>
      results[s] == Shape(s, w.launch(Command(w.python, reg.values[s].entrypoint, true), LastFor(ds, s).value.dir, ChildEnv(w.env)))
    decreases |selected|
  {
    if selected == [] then map[]
    else
      var front := selected[..|selected| - 1];
      var s := selected[|selected| - 1];
      var results := RunAll(reg, front, ds, w);
      assert selected == front + [s];
      if s in reg.values && LastFor(ds, s).Some? && LastFor(ds, s).value.dir != "" then
        var dir := LastFor(ds, s).value.dir;
        results[s := Shape(s, w.launch(Command(w.python, reg.values[s].entrypoint, true), dir, ChildEnv(w.env)))]
      else results
  }

  /** The slugs whose run succeeded. */
  function Succeeded(results: map<Slug, RunResult>): (ok: set<Slug>)
    ensures forall s :: s in ok <==> s in results && results[s].success
  {
    set s | s in results && results[s].success
  }

  /** `run_cycle` on the stored state `prior` (if any) and the discovery list `ds`. */
  function RunCycle(prior: Option<State>, cfg: Config, ds: seq<Discovered>, live: bool, w: World): (res: (State, End))
    requires prior.Some? ==> Valid(prior.value.skills)
    ensures Valid(res.0.skills)
  {
    var r := Reconciled(prior, cfg, ds, w.now);
    if |r.skills.keys| == 0 then (r, NoSkills)
    else
      var a := Assess(r, live, w);
      if a.tier == Dead then (a, Died)
      else
        var selected := Select(a.skills, a.tier, a.epsilon, TierMaxSkills(a.tier, cfg.maxConcurrent), w.oracle);
        if !live then (a.(cycleCount := a.cycleCount + 1), DryRun(selected))
        else Execute(a, selected, cfg, ds, w)
  }

  /**
    Steps 3 and 4: on live cycles the P&L figures are refreshed; then the tier is recomputed,
    and a change of tier is appended to the history.
  */
  function Assess(r: State, live: bool, w: World): (a: State)
    ensures a == r.(realized := a.realized, unrealized := a.unrealized, tier := a.tier, tierHistory := a.tierHistory)
    ensures live ==> a.realized == LiveRealized(w) && a.unrealized == w.unrealized
    ensures !live ==> a.realized == r.realized && a.unrealized == r.unrealized
    ensures a.tier == ComputeTier(r.budget, r.spent, a.realized, w.daysElapsed, r.horizonDays)
    ensures a.tier != r.tier ==> a.tierHistory == r.tierHistory + [Transition(r.tier, a.tier, w.now)]
    ensures a.tier == r.tier ==> a.tierHistory == r.tierHistory
  {
    var s := if live then r.(unrealized := w.unrealized, realized := LiveRealized(w)) else r;
    var t := ComputeTier(s.budget, s.spent, s.realized, w.daysElapsed, s.horizonDays);
    s.(tier := t, tierHistory := if t != s.tier then s.tierHistory + [Transition(s.tier, t, w.now)] else s.tierHistory)
  }

  /**
    Steps 7 to 11 of a live cycle: run the selection, credit the successful runs with their
    P&L change between the two fetches, decay epsilon and count the cycle.
  */
  function Execute(a: State, selected: seq<Slug>, cfg: Config, ds: seq<Discovered>, w: World): (res: (State, End))
    requires Valid(a.skills)
    ensures Valid(res.0.skills)
    ensures res.1.Completed? && res.1.selected == selected
    ensures res.0 == a.(skills := res.0.skills, epsilon := res.0.epsilon, cycleCount := a.cycleCount + 1)
    ensures res.0.skills.keys == a.skills.keys
    ensures res.0.epsilon == DecayEpsilon(a.epsilon, cfg.epsilonDecay, cfg.minEpsilon)
  {
    var results := RunAll(a.skills, selected, ds, w);
    var credited := CreditRuns(a.skills, selected, Succeeded(results), FetchSkillPnl(w.before), FetchSkillPnl(w.after), w.now);
    (a.(skills := credited,
        epsilon := DecayEpsilon(a.epsilon, cfg.epsilonDecay, cfg.minEpsilon),
        cycleCount := a.cycleCount + 1),
     Completed(selected, results))
  }

  /** The state a cycle starts from, after step 1 and reconciliation. */
  function Reconciled(prior: Option<State>, cfg: Config, ds: seq<Discovered>, now: Timestamp): (s: State)
    requires prior.Some? ==> Valid(prior.value.skills)
    ensures Valid(s.skills)
  {
    var s0 := Start(prior, cfg, now);
    s0.(skills := Reconcile(s0.skills, ds))
  }

  /** The realized P&L a live cycle stores: the net of every sell and buy the venues reported. */
  function LiveRealized(w: World): real {
    Realized(FetchSkillPnl(w.refresh))
  }

  /**
    The cycle counter advances by one exactly on the cycles that reach selection (dry runs and
    completed live cycles); a cycle with no skills or a dead tier leaves it as it was.
  */
  lemma CycleCountAdvances(prior: Option<State>, cfg: Config, ds: seq<Discovered>, live: bool, w: World)
    requires prior.Some? ==> Valid(prior.value.skills)
    ensures var res := RunCycle(prior, cfg, ds, live, w);
      var r := Reconciled(prior, cfg, ds, w.now);
      && res.0.cycleCount == r.cycleCount + (if res.1.DryRun? || res.1.Completed? then 1 else 0)
      && (res.1.NoSkills? <==> |r.skills.keys| == 0)
      && (res.1.DryRun? ==> !live)
      && (res.1.Completed? ==> live)
  {
  }

  /**
    Once there are skills the stored tier is recomputed from the (refreshed, on live cycles)
    figures, the history gains one entry exactly when the tier changed, and the cycle stops
    there exactly when the new tier is dead. A cycle with no skills stores the reconciled state.
  */
  lemma TierHistoryRecordsChanges(prior: Option<State>, cfg: Config, ds: seq<Discovered>, live: bool, w: World)
    requires prior.Some? ==> Valid(prior.value.skills)
    ensures var res := RunCycle(prior, cfg, ds, live, w);
      var r := Reconciled(prior, cfg, ds, w.now);
      var s := res.0;
      && (res.1.NoSkills? ==> s == r)
      && (!res.1.NoSkills? ==>
            && s.tier == ComputeTier(r.budget, r.spent, if live then LiveRealized(w) else r.realized, w.daysElapsed, r.horizonDays)
            && (s.tier != r.tier ==> s.tierHistory == r.tierHistory + [Transition(r.tier, s.tier, w.now)])
            && (s.tier == r.tier ==> s.tierHistory == r.tierHistory)
            && (res.1.Died? <==> s.tier == Dead))
  {
  }

  /** The P&L refresh of a live cycle stores the net of all counted trades the venues reported, and the exposure as unrealized P&L. */
  lemma LiveRefresh(prior: Option<State>, cfg: Config, ds: seq<Discovered>, w: World)
    requires prior.Some? ==> Valid(prior.value.skills)
    ensures var res := RunCycle(prior, cfg, ds, true, w);
      !res.1.NoSkills? ==>
        && res.0.realized == Total(AllTrades(Responses(w.refresh)))
        && res.0.unrealized == w.unrealized
  {
    CycleFigures(prior, cfg, ds, true, w);
    RealizedIsTotal(AllTrades(Responses(w.refresh)));
  }

  /** A cycle past the empty-table check stores the P&L figures its assessment produced. */
  lemma CycleFigures(prior: Option<State>, cfg: Config, ds: seq<Discovered>, live: bool, w: World)
    requires prior.Some? ==> Valid(prior.value.skills)
    ensures !RunCycle(prior, cfg, ds, live, w).1.NoSkills? ==>
      && RunCycle(prior, cfg, ds, live, w).0.realized == Assess(Reconciled(prior, cfg, ds, w.now), live, w).realized
      && RunCycle(prior, cfg, ds, live, w).0.unrealized == Assess(Reconciled(prior, cfg, ds, w.now), live, w).unrealized
  {
    var r := Reconciled(prior, cfg, ds, w.now);
    if |r.skills.keys| > 0 {
      var a := Assess(r, live, w);
      if a.tier != Dead && live {
        var sel := Select(a.skills, a.tier, a.epsilon, TierMaxSkills(a.tier, cfg.maxConcurrent), w.oracle);
        assert RunCycle(prior, cfg, ds, live, w) == Execute(a, sel, cfg, ds, w);
      }
    }
  }

  /**
    Only a completed live cycle touches the bandit: a cycle that ends with no skills, dead, or
    as a dry run stores the reconciled table and exploration rate unchanged. A dry run also
    leaves the P&L figures as they were.
  */
  lemma OnlyLiveCyclesLearn(prior: Option<State>, cfg: Config, ds: seq<Discovered>, live: bool, w: World)
    requires prior.Some? ==> Valid(prior.value.skills)
    ensures var res := RunCycle(prior, cfg, ds, live, w);
      var r := Reconciled(prior, cfg, ds, w.now);
      && (!res.1.Completed? ==> res.0.skills == r.skills && res.0.epsilon == r.epsilon)
      && (!live ==> res.0.realized == r.realized && res.0.unrealized == r.unrealized)
      && (res.1.Completed? ==> res.0.epsilon == DecayEpsilon(r.epsilon, cfg.epsilonDecay, cfg.minEpsilon))
  {
  }

  /** Nothing in a cycle changes the spent amount: it is the stored figure, or 0 for a fresh state. */
  lemma SpentNeverChanges(prior: Option<State>, cfg: Config, ds: seq<Discovered>, live: bool, w: World)
    requires prior.Some? ==> Valid(prior.value.skills)
    ensures RunCycle(prior, cfg, ds, live, w).0.spent == if prior.Some? then prior.value.spent else 0.0
  {
  }

  /** No skill record is ever deleted: the stored skills keep their place and new ones follow. */
  lemma SkillsNeverDeleted(prior: Option<State>, cfg: Config, ds: seq<Discovered>, live: bool, w: World)
    requires prior.Some? ==> Valid(prior.value.skills)
    ensures var s := RunCycle(prior, cfg, ds, live, w).0;
      && s.skills.keys == Reconciled(prior, cfg, ds, w.now).skills.keys
      && (prior.Some? ==>
            |prior.value.skills.keys| <= |s.skills.keys| && s.skills.keys[..|prior.value.skills.keys|] == prior.value.skills.keys)
  {
    CycleKeepsKeys(prior, cfg, ds, live, w);
    if prior.Some? {
      ReconcileKeepsOrder(prior.value.skills, ds);
    }
  }

  /** Every ending stores the reconciled table's keys as they are. */
  lemma CycleKeepsKeys(prior: Option<State>, cfg: Config, ds: seq<Discovered>, live: bool, w: World)
    requires prior.Some? ==> Valid(prior.value.skills)
    ensures RunCycle(prior, cfg, ds, live, w).0.skills.keys == Reconciled(prior, cfg, ds, w.now).skills.keys
  {
    var r := Reconciled(prior, cfg, ds, w.now);
    if |r.skills.keys| > 0 {
      var a := Assess(r, live, w);
      if a.tier != Dead && live {
        var sel := Select(a.skills, a.tier, a.epsilon, TierMaxSkills(a.tier, cfg.maxConcurrent), w.oracle);
        assert RunCycle(prior, cfg, ds, live, w) == Execute(a, sel, cfg, ds, w);
      }
    }
  }

  /**
    The selection of a cycle that reaches it: distinct enabled skills, as many as the tier
    allows and the table offers, every one of them found by this cycle's discovery.
  */
  lemma SelectionIsDiscoveredAndEnabled(prior: Option<State>, cfg: Config, ds: seq<Discovered>, live: bool, w: World)
    requires prior.Some? ==> Valid(prior.value.skills)
    ensures var res := RunCycle(prior, cfg, ds, live, w);
      var r := Reconciled(prior, cfg, ds, w.now);
      res.1.DryRun? || res.1.Completed? ==>
        var sel := res.1.selected;
        && Distinct(sel)
        && |sel| == Min(TierMaxSkills(res.0.tier, cfg.maxConcurrent), |EnabledSlugs(r.skills)|)
        && (forall i :: 0 <= i < |sel| ==> sel[i] in r.skills.values && IsEnabled(r.skills.values[sel[i]]))
        && (forall i :: 0 <= i < |sel| ==> LastFor(ds, sel[i]).Some?)
  {
    var res := RunCycle(prior, cfg, ds, live, w);
    var s0 := Start(prior, cfg, w.now);
    EnabledOnlyIfDiscovered(s0.skills, ds);
  }

  /**
    A completed cycle credits exactly the selected skills whose run succeeded, each once, with
    its source tag's P&L change between the before-run and after-run fetches; every other
    record keeps its reconciled value.
  */
  lemma OnlySuccessfulRunsCredited(prior: Option<State>, cfg: Config, ds: seq<Discovered>, live: bool, w: World)
    requires prior.Some? ==> Valid(prior.value.skills)
    ensures var res := RunCycle(prior, cfg, ds, live, w);
      var r := Reconciled(prior, cfg, ds, w.now);
      res.1.Completed? ==>
        forall s :: s in r.skills.values ==>
          res.0.skills.values[s] ==
            if s in res.1.selected && s in res.1.results && res.1.results[s].success
            then Credit(r.skills.values[s], Delta(r.skills.values[s].sourceTag, FetchSkillPnl(w.before), FetchSkillPnl(w.after)), w.now)
            else r.skills.values[s]
  {
    var r := Reconciled(prior, cfg, ds, w.now);
    if |r.skills.keys| > 0 {
      var a := Assess(r, live, w);
      if a.tier != Dead && live {
        var sel := Select(a.skills, a.tier, a.epsilon, TierMaxSkills(a.tier, cfg.maxConcurrent), w.oracle);
        assert RunCycle(prior, cfg, ds, live, w) == Execute(a, sel, cfg, ds, w);
        ExecuteCredits(a, sel, cfg, ds, w);
      }
    }
  }

  /** The live steps credit exactly the selected skills whose run succeeded, once each. */
  lemma ExecuteCredits(a: State, selected: seq<Slug>, cfg: Config, ds: seq<Discovered>, w: World)
    requires Valid(a.skills) && Distinct(selected)
    ensures var res := Execute(a, selected, cfg, ds, w);
      forall s :: s in a.skills.values ==>
        res.0.skills.values[s] ==
          if s in selected && s in res.1.results && res.1.results[s].success
          then Credit(a.skills.values[s], Delta(a.skills.values[s].sourceTag, FetchSkillPnl(w.before), FetchSkillPnl(w.after)), w.now)
          else a.skills.values[s]
  {
    var results := RunAll(a.skills, selected, ds, w);
    CreditRunsExactly(a.skills, selected, Succeeded(results), FetchSkillPnl(w.before), FetchSkillPnl(w.after), w.now);
  }

  /** A cycle keeps the rewarded plays of every skill within its plays. */
  lemma CycleKeepsRewardCounts(prior: Option<State>, cfg: Config, ds: seq<Discovered>, live: bool, w: World)
    requires prior.Some? ==> Valid(prior.value.skills) && RewardCountsConsistent(prior.value.skills)
    ensures RewardCountsConsistent(RunCycle(prior, cfg, ds, live, w).0.skills)
  {
    var r := Reconciled(prior, cfg, ds, w.now);
    var s0 := Start(prior, cfg, w.now);
    ReconcileKeepsHistory(s0.skills, ds);
    assert RewardCountsConsistent(r.skills);
    if |r.skills.keys| > 0 {
      var a := Assess(r, live, w);
      if a.tier != Dead && live {
        var sel := Select(a.skills, a.tier, a.epsilon, TierMaxSkills(a.tier, cfg.maxConcurrent), w.oracle);
        assert RunCycle(prior, cfg, ds, live, w) == Execute(a, sel, cfg, ds, w);
        var results := RunAll(a.skills, sel, ds, w);
        CreditRunsKeepsCounts(a.skills, sel, Succeeded(results), FetchSkillPnl(w.before), FetchSkillPnl(w.after), w.now);
      }
    }
  }

  /**
    With the configured rate at least the floor and a decay of at most 1, a state whose rate
    lies between the floor and the configured rate keeps it there.
  */
  lemma EpsilonStaysBounded(prior: Option<State>, cfg: Config, ds: seq<Discovered>, live: bool, w: World)
    requires prior.Some? ==> Valid(prior.value.skills)
    requires 0.0 <= cfg.minEpsilon <= cfg.epsilon && cfg.epsilonDecay <= 1.0
    requires prior.Some? ==> cfg.minEpsilon <= prior.value.epsilon <= cfg.epsilon
    ensures var e := RunCycle(prior, cfg, ds, live, w).0.epsilon;
      cfg.minEpsilon <= e <= cfg.epsilon
  {
    var r := Reconciled(prior, cfg, ds, w.now);
    assert cfg.minEpsilon <= r.epsilon <= cfg.epsilon;
    OnlyLiveCyclesLearn(prior, cfg, ds, live, w);
  }
}

=== FILE: dicts.dfy ===
/** Python dictionaries with string keys, which remember the order in which keys were first inserted. */
module Dicts {
  import opened Seqs

  /** `keys` lists every key once, in insertion order; `values` holds the entry for each. */
  datatype Dict<V> = Dict(keys: seq<string>, values: map<string, V>)

  /** The representation invariant: the key list and the map agree, and no key is listed twice. */
  predicate Valid<V>(d: Dict<V>) {
    && Distinct(d.keys)
    && (forall k :: k in d.values ==> k in d.keys)
    && (forall i :: 0 <= i < |d.keys| ==> d.keys[i] in d.values)
  }

  /** `{}`. */
  function Empty<V>(): (d: Dict<V>)
    ensures Valid(d) && |d.keys| == 0
  {
    Dict([], map[])
  }

  /** `d[k] = v`: an existing key keeps its position, a new key goes last. */
  function Put<V>(d: Dict<V>, k: string, v: V): (r: Dict<V>)
    requires Valid(d)
    ensures Valid(r)
    ensures r.values == d.values[k := v]
    ensures k in d.values ==> r.keys == d.keys
    ensures k !in d.values ==> r.keys == d.keys + [k]
  {
    if k in d.values then Dict(d.keys, d.values[k := v])
    else Dict(d.keys + [k], d.values[k := v])
  }

  /** `d.get(k, default)`. */
  function GetOr<V>(d: Dict<V>, k: string, default: V): V {
    if k in d.values then d.values[k] else default
  }
}

=== FILE: discovery.dfy ===
/**
  Finding the managed skills: the front matter of each sibling directory's `SKILL.md`, the
  automaton block of its metadata, and the source tag its trades are recorded under.
  Reading the file system is left to the caller: each directory arrives as a `Child` holding
  what the reads returned, in the sorted order of the listing.
*/
module Discovery {
  import opened Wrappers
  import opened Seqs
  import opened Dicts
  import opened Text
  import opened Skills

  /** A decoded JSON value. An object keeps its members in text order. */
  datatype Json =
    | JNull
    | JBool(b: bool)
    | JNum(n: real)
    | JStr(s: string)
    | JArr(items: seq<Json>)
    | JObj(fields: seq<(string, Json)>)

  /** `obj.get(k)`: the last member named `k`, since a later duplicate overwrites an earlier one. */
  function Field(fields: seq<(string, Json)>, k: string): (v: Option<Json>)
    ensures v.Some? ==> (k, v.value) in fields
    ensures v.None? <==> forall i :: 0 <= i < |fields| ==> fields[i].0 != k
    decreases |fields|
  {
    if fields == [] then None
    else if fields[|fields| - 1].0 == k then Some(fields[|fields| - 1].1)
    else
      assert forall i :: 0 <= i < |fields| - 1 ==> fields[..|fields| - 1][i] == fields[i];
      Field(fields[..|fields| - 1], k)
  }

  /** Python truthiness of a decoded value. */
  predicate Truthy(j: Json) {
    match j
    case JNull => false
    case JBool(b) => b
    case JNum(x) => x != 0.0
    case JStr(s) => s != ""
    case JArr(a) => |a| > 0
    case JObj(f) => |f| > 0
  }

  /** An optional value that is present and truthy (`None` is falsy). */
  predicate Given(v: Option<Json>) {
    v.Some? && Truthy(v.value)
  }

  /** A front-matter entry: the decoded `metadata` line, or any other line's text. */
  datatype Entry = Scalar(text: string) | Decoded(json: Json)

  /** The front matter as a dictionary, keys in the order first seen. */
  type Frontmatter = Dict<Entry>

  /**
    What one line of the front-matter block contributes, if anything. A line without a colon
    contributes nothing, and so does a `metadata` line that is not valid JSON (`decode`
    stands for `json.loads`, `None` for its decode error).
  */
  function ParseLine(line: string, decode: string -> Option<Json>): (e: Option<(string, Entry)>)
    ensures ':' !in line ==> e.None?
    ensures e.Some? ==> e.value.0 == Strip(Partition(line, ':').0)
    ensures e.Some? ==> (e.value.0 == "metadata" <==> e.value.1.Decoded?)
  {
    if ':' !in line then None
    else
      var (head, tail) := Partition(line, ':');
      Reading(Strip(head), Strip(tail), decode)
  }

  /** The entry a stripped key and value make: JSON under `metadata`, unquoted text elsewhere. */
  function Reading(key: string, val: string, decode: string -> Option<Json>): (e: Option<(string, Entry)>)
    ensures e.Some? ==> e.value.0 == key
    ensures e.None? <==> key == "metadata" && decode(val).None?
    ensures e.Some? ==> (key == "metadata" <==> e.value.1.Decoded?)
    ensures e.Some? && e.value.1.Decoded? ==> e.value.1.json == decode(val).value
    ensures e.Some? && e.value.1.Scalar? ==> e.value.1.text == StripChar(StripChar(val, '"'), '\'')
  {
    if key == "metadata" then
      match decode(val)
      case Some(j) => Some((key, Decoded(j)))
      case None => None
    else Some((key, Scalar(StripChar(StripChar(val, '"'), '\''))))
  }

  /** A value wrapped in double or single quotes reads as the value inside them. */
  lemma QuotedScalar(key: string, v: string, decode: string -> Option<Json>)
    requires key != "metadata" && Bare(v)
    ensures Reading(key, "\"" + v + "\"", decode) == Some((key, Scalar(v)))
    ensures Reading(key, "'" + v + "'", decode) == Some((key, Scalar(v)))
  {
    UnquoteQuoted(v);
  }

  /** A line with its first colon after `key` reads as the stripped key and the stripped rest. */
  lemma ParseLineAt(key: string, rest: string, decode: string -> Option<Json>)
    requires ':' !in key
    ensures ParseLine(key + [':'] + rest, decode) == Reading(Strip(key), Strip(rest), decode)
  {
    PartitionAt(key, ':', rest);
  }

  /** The entry the last contributing line gives `key`, which is the one the dictionary keeps. */
  function LastEntry(lines: seq<string>, key: string, decode: string -> Option<Json>): Option<Entry>
    decreases |lines|
  {
    if lines == [] then None
    else
      var e := ParseLine(lines[|lines| - 1], decode);
      if e.Some? && e.value.0 == key then Some(e.value.1)
      else LastEntry(lines[..|lines| - 1], key, decode)
  }

  /** The dictionary the line loop builds. */
  function Collect(lines: seq<string>, decode: string -> Option<Json>): (d: Frontmatter)
    ensures Valid(d)
    ensures forall k :: k in d.values <==> LastEntry(lines, k, decode).Some?
    ensures forall k :: k in d.values ==> d.values[k] == LastEntry(lines, k, decode).value
    decreases |lines|
  {
    if lines == [] then Empty()
    else
      var d := Collect(lines[..|lines| - 1], decode);
      match ParseLine(lines[|lines| - 1], decode)
      case None => d
      case Some((k, v)) => Put(d, k, v)
  }

  /**
    `_parse_frontmatter`: the text must open with `---` and hold a second `---` after it; the
    lines between, stripped as a block, are read as `key: value` pairs.
  */
  function ParseFrontmatter(text: string, decode: string -> Option<Json>): (r: Option<Frontmatter>)
    ensures r.None? <==> !StartsWith(text, "---") || Find(text, "---", 3) == -1
    ensures r.Some? ==> Valid(r.value)
  {
    if !StartsWith(text, "---") then None
    else
      var end := Find(text, "---", 3);
      if end == -1 then None
      else Some(Collect(Split(Strip(text[3..end]), '\n'), decode))
  }

  /**
    A document that opens with `---`, then the lines of the block, then `---` on a line of its
    own, parses as the dictionary those lines build, whatever follows the closing marker.
  */
  lemma FrontmatterRoundTrip(lines: seq<string>, rest: string, decode: string -> Option<Json>)
    requires |lines| >= 1
    requires forall i :: 0 <= i < |lines| ==> '\n' !in lines[i]
    requires Unpadded(Join(lines, '\n')) && !Contains(Join(lines, '\n'), "---")
    ensures ParseFrontmatter("---\n" + Join(lines, '\n') + "\n---" + rest, decode) == Some(Collect(lines, decode))
  {
    BlockParses(Join(lines, '\n'), rest, decode);
    SplitJoin(lines, '\n');
  }

  /** Such a document parses as the lines of its block. */
  lemma BlockParses(body: string, rest: string, decode: string -> Option<Json>)
    requires Unpadded(body) && !Contains(body, "---")
    ensures ParseFrontmatter("---\n" + body + "\n---" + rest, decode) == Some(Collect(Split(body, '\n'), decode))
  {
    var text := "---\n" + body + "\n---" + rest;
    BlockDelimited(body, rest, text);
    StripAround("\n", body, "\n");
  }

  /** The closing marker of such a document is the first `---` after the opening one. */
  lemma BlockDelimited(body: string, rest: string, text: string)
    requires !Contains(body, "---")
    requires text == "---\n" + body + "\n---" + rest
    ensures StartsWith(text, "---")
    ensures Find(text, "---", 3) == |body| + 5
    ensures text[3..|body| + 5] == "\n" + body + "\n"
  {
    var e := |body| + 5;
    assert text[..3] == "---";
    assert text[e..e + 3] == "---";
    assert text[3..e] == "\n" + body + "\n";
    forall i | 3 <= i < e
      ensures !OccursAt(text, "---", i)
    {
      NoMarkerBefore(body, rest, i);
    }
    FindIsFirst(text, "---", 3, e);
  }

  /** No `---` starts between the opening marker and the closing one. */
  lemma NoMarkerBefore(body: string, rest: string, i: int)
    requires !Contains(body, "---")
    requires 3 <= i < |body| + 5
    ensures !OccursAt("---\n" + body + "\n---" + rest, "---", i)
  {
    var text := "---\n" + body + "\n---" + rest;
    if i == 3 {
      assert text == "---" + "\n" + (body + "\n---" + rest);
      NoMarkerAt("---", body + "\n---" + rest, i);
    } else if i + 3 <= |body| + 4 {
      NoMarkerInBody(body, rest, i);
    } else {
      assert text == ("---\n" + body) + "\n" + ("---" + rest);
      NoMarkerAt("---\n" + body, "---" + rest, i);
    }
  }

  /** A window of three that covers a newline is not `---`. */
  lemma NoMarkerAt(a: string, b: string, i: int)
    requires |a| - 2 <= i <= |a| && 0 <= i
    ensures !OccursAt(a + "\n" + b, "---", i)
  {
    var t := a + "\n" + b;
    assert t[|a|] == '\n';
    if i + 3 <= |t| {
      assert t[i..i + 3][|a| - i] == '\n';
    }
  }

  /** A window of three inside the block is a window of the block, which holds no `---`. */
  lemma NoMarkerInBody(body: string, rest: string, i: int)
    requires !Contains(body, "---")
    requires 4 <= i && i + 3 <= |body| + 4
    ensures !OccursAt("---\n" + body + "\n---" + rest, "---", i)
  {
    var text := "---\n" + body + "\n---" + rest;
    var tail := body + ("\n---" + rest);
    assert Find(body, "---", 0) == -1;
    assert !OccursAt(body, "---", i - 4);
    assert text == "---\n" + tail;
    assert text[i..i + 3] == tail[i - 4..i - 1];
    assert tail[i - 4..i - 1] == body[i - 4..i - 1];
  }

  /** A position where the pattern occurs, with no earlier occurrence from `start` on, is what `Find` returns. */
  lemma FindIsFirst(s: string, pat: string, start: nat, e: nat)
    requires start <= e && OccursAt(s, pat, e)
    requires forall i :: start <= i < e ==> !OccursAt(s, pat, i)
    ensures Find(s, pat, start) == e
  {
  }

  /** An ordinary line `key: value` reads back as that pair. */
  lemma ScalarLineRoundTrip(key: string, value: string, decode: string -> Option<Json>)
    requires ':' !in key && Bare(key) && key != "metadata"
    requires Bare(value)
    ensures ParseLine(key + ": " + value, decode) == Some((key, Scalar(value)))
  {
    assert key + ": " + value == key + [':'] + (" " + value);
    ParseLineAt(key, " " + value, decode);
    StripUnpadded(key);
    StripBlankFront(value);
    UnquoteBare(value);
  }

  /** A line `metadata: <json>` contributes the decoded JSON exactly when it decodes. */
  lemma MetadataLineRoundTrip(json: string, decode: string -> Option<Json>)
    requires Unpadded(json)
    ensures ParseLine("metadata: " + json, decode)
         == if decode(json).Some? then Some(("metadata", Decoded(decode(json).value))) else None
  {
    MetadataLineSplits(json, decode);
    StripBlankFront(json);
    MetadataKeyStrips();
  }

  /** The line `metadata: <json>` splits at the colon after the key. */
  lemma MetadataLineSplits(json: string, decode: string -> Option<Json>)
    ensures ParseLine("metadata: " + json, decode) == Reading(Strip("metadata"), Strip(" " + json), decode)
  {
    var key := "metadata";
    assert ':' !in key;
    assert "metadata: " + json == key + [':'] + (" " + json);
    ParseLineAt(key, " " + json, decode);
  }

  lemma MetadataKeyStrips()
    ensures Strip("metadata") == "metadata"
  {
    StripUnpadded("metadata");
  }

  /** The verdict on one skill's front matter. */
  datatype Verdict =
    | Skip                       // not managed by the automaton
    | Manage(entrypoint: string) // managed, started through this script
    | Raises                     // the lookups raise: metadata not a dict, or a non-string entrypoint

  /** The metadata entry, or an empty object when the front matter has none (`fm.get("metadata", {})`). */
  function Metadata(fm: Frontmatter): Entry {
    if "metadata" in fm.values then fm.values["metadata"] else Decoded(JObj([]))
  }

  /** The metadata is a JSON object, the only kind whose lookups do not raise. */
  predicate IsObject(e: Entry) {
    e.Decoded? && e.json.JObj?
  }

  /**
    The automaton block of a metadata object: `automaton` under `clawdbot` (the metadata
    itself when there is no `clawdbot` key) when that is present and truthy, else `automaton`
    at the top of the metadata.
  */
  function AutomatonBlock(m: Json): (cfg: Option<Json>)
    requires m.JObj?
    ensures Field(m.fields, "clawdbot").None? ==> cfg == Field(m.fields, "automaton")
    ensures Field(m.fields, "clawdbot").Some? && Field(m.fields, "clawdbot").value.JObj?
            && Given(Field(Field(m.fields, "clawdbot").value.fields, "automaton"))
            ==> cfg == Field(Field(m.fields, "clawdbot").value.fields, "automaton")
    ensures !(Field(m.fields, "clawdbot").Some? && Field(m.fields, "clawdbot").value.JObj?
              && Given(Field(Field(m.fields, "clawdbot").value.fields, "automaton")))
            ==> cfg == Field(m.fields, "automaton")
  {
    var clawdbot := Field(m.fields, "clawdbot").GetOr(m);
    var nested := if clawdbot.JObj? then Field(clawdbot.fields, "automaton") else None;
    if Given(nested) then nested else Field(m.fields, "automaton")
  }

  /** The block is an object with a truthy `managed`. */
  predicate Managed(cfg: Option<Json>) {
    cfg.Some? && cfg.value.JObj? && Given(Field(cfg.value.fields, "managed"))
  }

  /**
    The verdict on the front matter: the metadata must be an object (any other value raises on
    lookup), its automaton block must be an object with a truthy `managed`, and the block's
    `entrypoint` must be truthy; a truthy entrypoint that is not a string raises when it is
    joined to the directory path.
  */
  function Qualify(fm: Frontmatter): (v: Verdict)
    ensures "metadata" !in fm.values ==> v == Skip
    ensures !IsObject(Metadata(fm)) ==> v == Raises
    ensures IsObject(Metadata(fm)) && !Managed(AutomatonBlock(Metadata(fm).json)) ==> v == Skip
    ensures v.Manage? ==>
      && IsObject(Metadata(fm)) && Managed(AutomatonBlock(Metadata(fm).json))
      && Field(AutomatonBlock(Metadata(fm).json).value.fields, "entrypoint") == Some(JStr(v.entrypoint))
      && v.entrypoint != ""
    ensures IsObject(Metadata(fm)) && Managed(AutomatonBlock(Metadata(fm).json)) ==>
      var ep := Field(AutomatonBlock(Metadata(fm).json).value.fields, "entrypoint");
      && (!Given(ep) ==> v == Skip)
      && (Given(ep) && ep.value.JStr? ==> v == Manage(ep.value.s))
      && (Given(ep) && !ep.value.JStr? ==> v == Raises)
  {
    var metadata := Metadata(fm);
    if !IsObject(metadata) then Raises
    else
      var cfg := AutomatonBlock(metadata.json);
      if !Managed(cfg) then Skip
      else
        var ep := Field(cfg.value.fields, "entrypoint");
        if !Given(ep) then Skip
        else if ep.value.JStr? then Manage(ep.value.s)
        else Raises
  }

  /** The `automaton` block `{"managed": true, "entrypoint": e}`. */
  function Block(e: string): Json {
    JObj([("managed", JBool(true)), ("entrypoint", JStr(e))])
  }

  /** The two documented layouts of the metadata both make a skill managed. */
  lemma QualifyLayouts(e: string)
    requires e != ""
    ensures Qualify(Dict(["metadata"], map["metadata" := Decoded(JObj([("automaton", Block(e))]))])) == Manage(e)
    ensures Qualify(Dict(["metadata"], map["metadata" := Decoded(JObj([("clawdbot", JObj([("automaton", Block(e))]))]))])) == Manage(e)
  {
    var b := Block(e);
    assert Field(b.fields, "managed") == Some(JBool(true));
    assert Field(b.fields, "entrypoint") == Some(JStr(e));
    var top := JObj([("automaton", b)]);
    assert Field(top.fields, "clawdbot") == None;
    assert Field(top.fields, "automaton") == Some(b);
    var nested := JObj([("clawdbot", JObj([("automaton", b)]))]);
    assert Field(nested.fields, "clawdbot") == Some(JObj([("automaton", b)]));
  }

  /** A block that is not explicitly managed is skipped, whatever else it says. */
  lemma UnmanagedSkipped(e: Json)
    ensures Qualify(Dict(["metadata"], map["metadata" := Decoded(JObj([("automaton", JObj([("managed", JBool(false)), ("entrypoint", e)]))]))])) == Skip
  {
    var b := JObj([("managed", JBool(false)), ("entrypoint", e)]);
    assert Field(b.fields, "managed") == Some(JBool(false));
    var top := JObj([("automaton", b)]);
    assert Field(top.fields, "clawdbot") == None;
    assert Field(top.fields, "automaton") == Some(b);
  }

  /**
    The source tag a line declares: on a line mentioning both `TRADE_SOURCE` and `=`, the
    text after the first `=`, stripped of blanks and quotes, when it starts with `sdk:`.
  */
  function SourceTagOfLine(line: string): (t: Option<string>)
    ensures t.Some? ==> StartsWith(t.value, "sdk:") && Contains(line, "TRADE_SOURCE") && Contains(line, "=")
  {
    if Contains(line, "TRADE_SOURCE") && Contains(line, "=") then
      var v := StripChar(StripChar(Strip(Partition(line, '=').1), '"'), '\'');
      if StartsWith(v, "sdk:") then Some(v) else None
    else None
  }

  /** An assignment `<name> = "<tag>"`, where the name mentions `TRADE_SOURCE`, declares `<tag>`. */
  lemma SourceTagRoundTrip(name: string, tag: string)
    requires Contains(name, "TRADE_SOURCE") && '=' !in name
    requires StartsWith(tag, "sdk:") && Bare(tag)
    ensures SourceTagOfLine(name + " = \"" + tag + "\"") == Some(tag)
  {
    AssignedValue(name, tag);
  }

  /** The value part of `<name> = "<tag>"`, with blanks and then quotes stripped, is `<tag>`. */
  lemma AssignedValue(name: string, tag: string)
    requires Contains(name, "TRADE_SOURCE") && '=' !in name
    requires Bare(tag)
    ensures Contains(name + " = \"" + tag + "\"", "TRADE_SOURCE") && Contains(name + " = \"" + tag + "\"", "=")
    ensures StripChar(StripChar(Strip(Partition(name + " = \"" + tag + "\"", '=').1), '"'), '\'') == tag
  {
    var quoted := "\"" + tag + "\"";
    assert name + " = \"" + tag + "\"" == name + " = " + quoted;
    AssignmentShape(name, quoted);
    StripBlankFront(quoted);
    UnquoteQuoted(tag);
  }

  /** The line `<name> = <v>` mentions the name's text and `=`, and its value part is ` <v>`. */
  lemma AssignmentShape(name: string, v: string)
    requires Contains(name, "TRADE_SOURCE") && '=' !in name
    ensures Contains(name + " = " + v, "TRADE_SOURCE") && Contains(name + " = " + v, "=")
    ensures Partition(name + " = " + v, '=').1 == " " + v
  {
    var line := name + " = " + v;
    ContainsExtend(name, " = " + v, "TRADE_SOURCE");
    assert name + (" = " + v) == line;
    assert OccursAt(line, "=", |name| + 1);
    ContainsWhenOccurs(line, "=", |name| + 1);
    assert line == (name + " ") + ['='] + (" " + v);
    PartitionAt(name + " ", '=', " " + v);
  }

  /** The lines of a file's text, as `content.split("\n")` gives them. */
  function Lines(content: string): seq<string> {
    Split(content, '\n')
  }

  /** The tag each line declares, line by line. */
  function LineTags(lines: seq<string>): (t: seq<Option<string>>)
    ensures |t| == |lines|
    ensures forall i :: 0 <= i < |t| ==> t[i] == SourceTagOfLine(lines[i])
  {
    seq(|lines|, i requires 0 <= i < |lines| => SourceTagOfLine(lines[i]))
  }

  /** The first tag declared in a file's text, reading its lines in order. */
  function FileTag(content: string): (t: Option<string>)
    ensures t.Some? ==> StartsWith(t.value, "sdk:")
    ensures t.None? <==> forall i :: 0 <= i < |Lines(content)| ==> LineTags(Lines(content))[i].None?
    ensures t.Some? ==>
      exists i :: 0 <= i < |Lines(content)| && LineTags(Lines(content))[i] == t
                && forall j :: 0 <= j < i ==> LineTags(Lines(content))[j].None?
  {
    FirstSome(LineTags(Lines(content)))
  }

  /**
    A file whose lines declare no tag up to an assignment `<name> = "<tag>"` declares `<tag>`,
    whatever lines follow.
  */
  lemma FileTagRoundTrip(before: seq<string>, name: string, tag: string, after: seq<string>)
    requires forall i :: 0 <= i < |before| ==> '\n' !in before[i] && SourceTagOfLine(before[i]).None?
    requires forall i :: 0 <= i < |after| ==> '\n' !in after[i]
    requires Contains(name, "TRADE_SOURCE") && '=' !in name && '\n' !in name
    requires StartsWith(tag, "sdk:") && Bare(tag) && '\n' !in tag
    ensures FileTag(Join(before + [name + " = \"" + tag + "\""] + after, '\n')) == Some(tag)
  {
    var line := name + " = \"" + tag + "\"";
    var ls := before + [line] + after;
    SingleLine(name, tag);
    SplitJoinAround(before, line, after, '\n');
    SourceTagRoundTrip(name, tag);
    TagAfterUntagged(before, line, after);
    FirstSomeAt(LineTags(ls), |before|);
  }

  /** The assignment line holds no line break when its name and tag hold none. */
  lemma SingleLine(name: string, tag: string)
    requires '\n' !in name && '\n' !in tag
    ensures '\n' !in name + " = \"" + tag + "\""
  {
  }

  /** Untagged lines, then a tagged one: the line tags are `None` up to that line's tag. */
  lemma TagAfterUntagged(before: seq<string>, line: string, after: seq<string>)
    requires forall i :: 0 <= i < |before| ==> SourceTagOfLine(before[i]).None?
    ensures LineTags(before + [line] + after)[|before|] == SourceTagOfLine(line)
    ensures forall j :: 0 <= j < |before| ==> LineTags(before + [line] + after)[j].None?
  {
    var ls := before + [line] + after;
    assert ls[|before|] == line;
    forall j | 0 <= j < |before| ensures LineTags(ls)[j].None? {
      assert ls[j] == before[j];
    }
  }

  /** The tag each Python file declares; an unreadable file (`None`) declares none. */
  function FileTags(files: seq<Option<string>>): (t: seq<Option<string>>)
    ensures |t| == |files|
    ensures forall i :: 0 <= i < |t| ==> t[i] == if files[i].Some? then FileTag(files[i].value) else None
  {
    seq(|files|, i requires 0 <= i < |files| => if files[i].Some? then FileTag(files[i].value) else None)
  }

  /**
    `_find_source_tag`: the Python files in glob order, each as its text or `None` when it
    cannot be read; the first declared tag wins.
  */
  function FindSourceTag(files: seq<Option<string>>): (t: Option<string>)
    ensures t.Some? ==> StartsWith(t.value, "sdk:")
    ensures t.None? <==> forall i :: 0 <= i < |files| && files[i].Some? ==> FileTag(files[i].value).None?
    ensures t.Some? ==>
      exists i :: 0 <= i < |files| && files[i].Some? && FileTag(files[i].value) == t
                && (forall j :: 0 <= j < i && files[j].Some? ==> FileTag(files[j].value).None?)
  {
    var tags := FileTags(files);
    FirstSome(tags)
  }

  /** A skill's source tag: the declared one, or `sdk:` followed by the directory name. */
  function SourceTag(name: string, files: seq<Option<string>>): (t: string)
    ensures StartsWith(t, "sdk:")
    ensures FindSourceTag(files).Some? ==> t == FindSourceTag(files).value
    ensures FindSourceTag(files).None? ==> t == "sdk:" + name
  {
    match FindSourceTag(files)
    case Some(t) => t
    case None => "sdk:" + name
  }

  /** What reading `SKILL.md` gave. */
  datatype SkillFile = Absent | Unreadable | Readable(text: string)

  /** One entry of the skills directory, with what the reads of its files returned. */
  datatype Child = Child(name: string, isDir: bool, skillMd: SkillFile, pyFiles: seq<Option<string>>)

  /** The path of a child directory. */
  function DirOf(skillsDir: string, name: string): string {
    skillsDir + "/" + name
  }

  /** Front matter that is present and not empty (an empty dict is falsy too). */
  function FrontmatterOf(c: Child, decode: string -> Option<Json>): Option<Frontmatter> {
    if c.isDir && c.skillMd.Readable? then
      var fm := ParseFrontmatter(c.skillMd.text, decode);
      if fm.Some? && |fm.value.keys| > 0 then fm else None
    else None
  }

  /** The child's front matter makes it managed and its entrypoint exists. */
  predicate Qualifies(skillsDir: string, c: Child, decode: string -> Option<Json>, present: (string, string) -> bool) {
    && FrontmatterOf(c, decode).Some?
    && Qualify(FrontmatterOf(c, decode).value).Manage?
    && present(DirOf(skillsDir, c.name), Qualify(FrontmatterOf(c, decode).value).entrypoint)
  }

  /** The entry recorded for a managed child. */
  function Found(skillsDir: string, c: Child, decode: string -> Option<Json>): Discovered
    requires FrontmatterOf(c, decode).Some? && Qualify(FrontmatterOf(c, decode).value).Manage?
  {
    Discovered(c.name, SourceTag(c.name, c.pyFiles), Qualify(FrontmatterOf(c, decode).value).entrypoint, DirOf(skillsDir, c.name))
  }

  /**
    One child of the skills directory: skipped, found (when its entrypoint exists), or the
    error the lookups raise. `present(dir, entrypoint)` stands for the file-system check.
  */
  function DiscoverOne(skillsDir: string, c: Child, decode: string -> Option<Json>,
                       present: (string, string) -> bool): (r: Result<Option<Discovered>, string>)
    ensures r.Ok? && r.value.Some? ==>
      var d := r.value.value;
      && FrontmatterOf(c, decode).Some?
      && Qualify(FrontmatterOf(c, decode).value) == Manage(d.entrypoint)
      && present(DirOf(skillsDir, c.name), d.entrypoint)
      && d == Discovered(c.name, SourceTag(c.name, c.pyFiles), d.entrypoint, DirOf(skillsDir, c.name))
    ensures r.Err? <==> FrontmatterOf(c, decode).Some? && Qualify(FrontmatterOf(c, decode).value) == Raises
    ensures r.Err? ==> r.error == c.name
    ensures Qualifies(skillsDir, c, decode, present) ==> r == Ok(Some(Found(skillsDir, c, decode)))
    ensures r == Ok(None) <==>
      !Qualifies(skillsDir, c, decode, present) && !(FrontmatterOf(c, decode).Some? && Qualify(FrontmatterOf(c, decode).value) == Raises)
  {
    match FrontmatterOf(c, decode)
    case None => Ok(None)
    case Some(fm) =>
      match Qualify(fm)
      case Skip => Ok(None)
      case Raises => Err(c.name)
      case Manage(e) =>
        var dir := DirOf(skillsDir, c.name);
        if !present(dir, e) then Ok(None)
        else Ok(Some(Discovered(c.name, SourceTag(c.name, c.pyFiles), e, dir)))
  }

  /** What each child of the listing gives, in listing order. */
  function Outcomes(skillsDir: string, children: seq<Child>, decode: string -> Option<Json>,
                    present: (string, string) -> bool): (rs: seq<Result<Option<Discovered>, string>>)
    ensures |rs| == |children|
    ensures forall j :: 0 <= j < |rs| ==> rs[j] == DiscoverOne(skillsDir, children[j], decode, present)
  {
    seq(|children|, j requires 0 <= j < |children| => DiscoverOne(skillsDir, children[j], decode, present))
  }

  /**
    `discover_skills`: the managed children in listing order, or, when the lookups of some
    child raise, the first such child's name (the error ends the scan).
  */
  function Discover(skillsDir: string, children: seq<Child>, decode: string -> Option<Json>,
                    present: (string, string) -> bool): (r: Result<seq<Discovered>, string>)
    ensures r.Ok? <==> forall j :: 0 <= j < |children| ==> DiscoverOne(skillsDir, children[j], decode, present).Ok?
    ensures r.Ok? ==> |r.value| <= |children|
    ensures r.Ok? ==> forall i :: 0 <= i < |r.value| ==>
      exists j :: 0 <= j < |children| && DiscoverOne(skillsDir, children[j], decode, present) == Ok(Some(r.value[i]))
    ensures r.Err? ==>
      exists j :: 0 <= j < |children| && r.error == children[j].name
                && DiscoverOne(skillsDir, children[j], decode, present).Err?
                && (forall k :: 0 <= k < j ==> DiscoverOne(skillsDir, children[k], decode, present).Ok?)
  {
    Gather(Outcomes(skillsDir, children, decode, present))
  }

  /**
    Discovery keeps the listing order: the skills found among `a + b` are those found among
    `a`, then those found among `b`; a single child gives its own entry or nothing.
  */
  lemma DiscoverConcat(skillsDir: string, a: seq<Child>, b: seq<Child>, decode: string -> Option<Json>,
                       present: (string, string) -> bool)
    requires Discover(skillsDir, a, decode, present).Ok? && Discover(skillsDir, b, decode, present).Ok?
    ensures Discover(skillsDir, a + b, decode, present)
         == Ok(Discover(skillsDir, a, decode, present).value + Discover(skillsDir, b, decode, present).value)
  {
    OutcomesConcat(skillsDir, a, b, decode, present);
    GatherConcat(Outcomes(skillsDir, a, decode, present), Outcomes(skillsDir, b, decode, present));
  }

  /** The outcomes of `a + b` are those of `a`, then those of `b`. */
  lemma OutcomesConcat(skillsDir: string, a: seq<Child>, b: seq<Child>, decode: string -> Option<Json>,
                       present: (string, string) -> bool)
    ensures Outcomes(skillsDir, a + b, decode, present)
         == Outcomes(skillsDir, a, decode, present) + Outcomes(skillsDir, b, decode, present)
  {
    var l, r := Outcomes(skillsDir, a, decode, present), Outcomes(skillsDir, b, decode, present);
    var all := Outcomes(skillsDir, a + b, decode, present);
    forall j | 0 <= j < |all| ensures all[j] == (l + r)[j] {
      if j < |a| {
        assert (a + b)[j] == a[j];
      } else {
        var k := j - |a|;
        assert 0 <= k < |b|;
        assert (a + b)[j] == b[k];
      }
    }
  }

  /** A single child is found as `Found` exactly when it qualifies, and is otherwise skipped. */
  lemma DiscoverSingle(skillsDir: string, c: Child, decode: string -> Option<Json>,
                       present: (string, string) -> bool)
    requires DiscoverOne(skillsDir, c, decode, present).Ok?
    ensures Qualifies(skillsDir, c, decode, present) ==>
      Discover(skillsDir, [c], decode, present) == Ok([Found(skillsDir, c, decode)])
    ensures !Qualifies(skillsDir, c, decode, present) ==> Discover(skillsDir, [c], decode, present) == Ok([])
  {
    var x := DiscoverOne(skillsDir, c, decode, present);
    assert Outcomes(skillsDir, [c], decode, present) == [x];
    GatherSingle(x);
  }

  /** Every managed child with an existing entrypoint is found: nothing qualifying is missed. */
  lemma DiscoverFindsAll(skillsDir: string, children: seq<Child>, decode: string -> Option<Json>,
                         present: (string, string) -> bool, j: nat)
    requires j < |children|
    requires Discover(skillsDir, children, decode, present).Ok?
    requires Qualifies(skillsDir, children[j], decode, present)
    ensures Found(skillsDir, children[j], decode) in Discover(skillsDir, children, decode, present).value
  {
    GatherKeeps(Outcomes(skillsDir, children, decode, present), j);
  }

  /** Directory names are unique in a listing, so no slug is found twice. */
  lemma DiscoverSlugsDistinct(skillsDir: string, children: seq<Child>, decode: string -> Option<Json>,
                              present: (string, string) -> bool)
    requires forall i, j :: 0 <= i < j < |children| ==> children[i].name != children[j].name
    requires Discover(skillsDir, children, decode, present).Ok?
    ensures var ds := Discover(skillsDir, children, decode, present).value;
      forall i, k :: 0 <= i < k < |ds| ==> ds[i].slug != ds[k].slug
  {
    var rs := Outcomes(skillsDir, children, decode, present);
    GatherDistinct(rs, (d: Discovered) => d.slug);
  }
}

=== FILE: executor.dfy ===
/**
  Running one skill: the command line and environment it is launched with, and how the
  process outcome is shaped into the result the cycle records. The process itself (launch,
  working directory, 120-second timeout) is outside the model and arrives as an `Outcome`.
*/
module Executor {

  /** Seconds a skill may run before it is abandoned. */
  const TimeoutSeconds: nat := 120
  /** Characters of standard output kept in the result. */
  const OutputTail: nat := 2000
  /** Characters of standard error kept in the result. */
  const StderrTail: nat := 1000

  /** The environment variable that tells a skill it runs under the scheduler, and its value. */
  const ManagedVar: string := "AUTOMATON_MANAGED"
  const ManagedValue: string := "1"

  /** The argument vector: the interpreter, the entrypoint, `--live` on live cycles, and `--quiet`. */
  function Command(python: string, entrypoint: string, live: bool): (argv: seq<string>)
    ensures |argv| == if live then 4 else 3
    ensures argv[0] == python && argv[1] == entrypoint
    ensures argv[|argv| - 1] == "--quiet"
    ensures live <==> argv[2] == "--live"
  {
    [python, entrypoint] + (if live then ["--live"] else []) + ["--quiet"]
  }

  /** The child's environment: the scheduler's own, with the managed marker set. */
  function ChildEnv(env: map<string, string>): (e: map<string, string>)
    ensures e.Keys == env.Keys + {ManagedVar}
    ensures e[ManagedVar] == ManagedValue
    ensures forall k :: k in env && k != ManagedVar ==> e[k] == env[k]
  {
    env[ManagedVar := ManagedValue]
  }

  /** What happened to the process. */
  datatype Outcome =
    | Exited(code: int, stdout: string, stderr: string)
    | TimedOut
    | LaunchFailed(message: string)

  /** The record `run_skill` returns. */
  datatype RunResult = RunResult(success: bool, returnCode: int, output: string, stderr: string)

  /** `t` is a suffix of `s`. */
  predicate EndsWith(s: string, t: string) {
    |t| <= |s| && s[|s| - |t|..] == t
  }

  /** Python's `s[-n:]` for a positive `n`: the last `n` characters, or all of a shorter string. */
  function Tail(s: string, n: nat): (t: string)
    requires n > 0
    ensures |t| == if |s| < n then |s| else n
    ensures EndsWith(s, t)
  {
    if |s| <= n then s else s[|s| - n..]
  }

  /** Taking the tail again keeps it as it is. */
  lemma TailIdempotent(s: string, n: nat)
    requires n > 0
    ensures Tail(Tail(s, n), n) == Tail(s, n)
  {
  }

  /** Only the last `n` characters matter: text in front of a long enough tail is dropped. */
  lemma TailDropsFront(a: string, b: string, n: nat)
    requires n > 0 && |b| >= n
    ensures Tail(a + b, n) == Tail(b, n)
  {
    assert (a + b)[|a + b| - n..] == b[|b| - n..];
  }

  /** The message recorded for a run abandoned at the timeout. */
  function TimeoutMessage(slug: string): string {
    "Timeout: " + slug + " exceeded 120s"
  }

  /**
    The result shaping of `run_skill`: a run succeeds exactly when the process exited with
    code 0; the output keeps the last 2000 characters of standard output and the error text
    the last 1000 of standard error; a timeout or a launch failure reports code -1 and an
    explanation in the error text.
  */
  function Shape(slug: string, o: Outcome): (r: RunResult)
    ensures r.success <==> o.Exited? && o.code == 0
    ensures r.success <==> r.returnCode == 0
    ensures o.Exited? ==> r.returnCode == o.code
    ensures o.Exited? ==> EndsWith(o.stdout, r.output) && |r.output| == if |o.stdout| < OutputTail then |o.stdout| else OutputTail
    ensures o.Exited? ==> EndsWith(o.stderr, r.stderr) && |r.stderr| == if |o.stderr| < StderrTail then |o.stderr| else StderrTail
    ensures !o.Exited? ==> r.returnCode == -1 && r.output == ""
    ensures o.TimedOut? ==> r.stderr == TimeoutMessage(slug)
    ensures o.LaunchFailed? ==> r.stderr == o.message
  {
    match o
    case Exited(code, out, err) => RunResult(code == 0, code, Tail(out, OutputTail), Tail(err, StderrTail))
    case TimedOut => RunResult(false, -1, "", TimeoutMessage(slug))
    case LaunchFailed(message) => RunResult(false, -1, "", message)
  }
}

=== FILE: pnl.dfy ===
/**
  Realized P&L per source tag, from the trade history of the venues: sells add their size,
  buys subtract it. The venue requests are left to the caller; each arrives as the list of
  trades it returned, or `None` when the request failed or returned nothing.
*/
module Pnl {
  import opened Wrappers
  import opened Seqs
  import opened Dicts
  import opened Text

  /** One trade record; a field is `None` when the record lacks it (or holds null/zero where that reads the same). */
  datatype Trade = Trade(source: Option<string>, side: Option<string>, cost: Option<real>, amount: Option<real>)

  /** The venues queried, in order. */
  const Venues: seq<string> := ["polymarket", "kalshi"]

  /** The tag a trade is booked under: its source, or `unknown`. */
  function TagOf(t: Trade): string {
    t.source.GetOr("unknown")
  }

  /** `float(cost or amount or 0)`: the first of cost and amount that is present and non-zero. */
  function Size(t: Trade): (x: real)
    ensures t.cost.Some? && t.cost.value != 0.0 ==> x == t.cost.value
    ensures !(t.cost.Some? && t.cost.value != 0.0) && t.amount.Some? ==> x == t.amount.value
    ensures t.cost.None? && t.amount.None? ==> x == 0.0
  {
    if t.cost.Some? && t.cost.value != 0.0 then t.cost.value
    else if t.amount.Some? && t.amount.value != 0.0 then t.amount.value
    else 0.0
  }

  /**
    What a trade adds to its tag's P&L: `+size` for a sell, `-size` for a buy, whatever the
    case of the side; any other side is not counted at all.
  */
  function Signed(t: Trade): (x: Option<real>)
    ensures x.Some? <==> Lower(t.side.GetOr("")) in {"sell", "buy"}
    ensures x.Some? ==> (x.value == Size(t) <==> Lower(t.side.GetOr("")) == "sell" || Size(t) == 0.0)
    ensures Lower(t.side.GetOr("")) == "sell" ==> x == Some(Size(t))
    ensures Lower(t.side.GetOr("")) == "buy" ==> x == Some(-Size(t))
  {
    var side := Lower(t.side.GetOr(""));
    if side == "sell" then Some(Size(t))
    else if side == "buy" then Some(-Size(t))
    else None
  }

  /** The trade counts towards `tag`. */
  predicate Counts(t: Trade, tag: string) {
    TagOf(t) == tag && Signed(t).Some?
  }

  /** What a trade contributes to `tag`: its signed size if it counts there, else nothing. */
  function Contribution(t: Trade, tag: string): real {
    if Counts(t, tag) then Signed(t).value else 0.0
  }

  /** The net P&L of `tag` over the trades: the sum of their contributions. */
  function Net(trades: seq<Trade>, tag: string): real
    decreases |trades|
  {
    if trades == [] then 0.0
    else Net(trades[..|trades| - 1], tag) + Contribution(trades[|trades| - 1], tag)
  }

  /** The signed sizes of all counted trades, whatever their tags. */
  function Total(trades: seq<Trade>): real
    decreases |trades|
  {
    if trades == [] then 0.0
    else
      var t := trades[|trades| - 1];
      Total(trades[..|trades| - 1]) + (if Signed(t).Some? then Signed(t).value else 0.0)
  }

  /**
    The grouping loop of `fetch_skill_pnl`: a tag appears once some trade counts towards it,
    in the order tags first count, and holds that tag's net P&L.
  */
  function PnlBySource(trades: seq<Trade>): (d: Dict<real>)
    ensures Valid(d)
    ensures forall tag :: tag in d.values <==> Booked(trades, tag)
    ensures forall tag :: tag in d.values ==> d.values[tag] == Net(trades, tag)
    ensures forall tag :: tag !in d.values ==> Net(trades, tag) == 0.0
    decreases |trades|
  {
    if trades == [] then Empty()
    else
      var d := PnlBySource(trades[..|trades| - 1]);
      AddTradeStep(d, trades);
      AddTrade(d, trades[|trades| - 1])
  }

  /** Some trade counts towards `tag`. */
  predicate Booked(trades: seq<Trade>, tag: string) {
    exists i :: 0 <= i < |trades| && Counts(trades[i], tag)
  }

  /** A tag is booked in a history when it is booked before the last trade or by the last trade. */
  lemma BookedSnoc(trades: seq<Trade>, tag: string)
    requires |trades| > 0
    ensures Booked(trades, tag) <==> Booked(trades[..|trades| - 1], tag) || Counts(trades[|trades| - 1], tag)
  {
    var n := |trades| - 1;
    if Booked(trades, tag) && !Counts(trades[n], tag) {
      var i :| 0 <= i < |trades| && Counts(trades[i], tag);
      assert trades[..n][i] == trades[i];
    }
    if Booked(trades[..n], tag) {
      var i :| 0 <= i < n && Counts(trades[..n][i], tag);
      assert trades[..n][i] == trades[i];
    }
  }

  /** One pass of the grouping loop: a counted trade adds its signed size under its tag. */
  function AddTrade(d: Dict<real>, t: Trade): (r: Dict<real>)
    requires Valid(d)
    ensures Valid(r)
    ensures forall tag :: !Counts(t, tag) ==> (tag in r.values <==> tag in d.values)
    ensures forall tag :: !Counts(t, tag) && tag in r.values ==> r.values[tag] == d.values[tag]
    ensures Counts(t, TagOf(t)) ==> r.values == d.values[TagOf(t) := GetOr(d, TagOf(t), 0.0) + Signed(t).value]
  {
    match Signed(t)
    case None => d
    case Some(x) => Put(d, TagOf(t), GetOr(d, TagOf(t), 0.0) + x)
  }

  /** Adding the last trade to the grouping of the ones before it groups them all. */
  lemma AddTradeStep(d: Dict<real>, trades: seq<Trade>)
    requires |trades| > 0
    requires Valid(d)
    requires forall tag :: tag in d.values <==> Booked(trades[..|trades| - 1], tag)
    requires forall tag :: tag in d.values ==> d.values[tag] == Net(trades[..|trades| - 1], tag)
    requires forall tag :: tag !in d.values ==> Net(trades[..|trades| - 1], tag) == 0.0
    ensures forall tag :: tag in AddTrade(d, trades[|trades| - 1]).values <==> Booked(trades, tag)
    ensures forall tag :: tag in AddTrade(d, trades[|trades| - 1]).values ==> AddTrade(d, trades[|trades| - 1]).values[tag] == Net(trades, tag)
    ensures forall tag :: tag !in AddTrade(d, trades[|trades| - 1]).values ==> Net(trades, tag) == 0.0
  {
    var n := |trades| - 1;
    var t := trades[n];
    var r := AddTrade(d, t);
    forall tag
      ensures tag in r.values <==> Booked(trades, tag)
      ensures tag in r.values ==> r.values[tag] == Net(trades, tag)
      ensures tag !in r.values ==> Net(trades, tag) == 0.0
    {
      BookedSnoc(trades, tag);
      var before := Net(trades[..n], tag);
      assert Net(trades, tag) == before + Contribution(t, tag);
      if Counts(t, tag) {
        assert GetOr(d, tag, 0.0) == before;
        assert r.values[tag] == before + Signed(t).value;
      } else {
        assert Contribution(t, tag) == 0.0;
      }
    }
  }

  /** The trades of all venues, in venue order; a failed venue contributes none. */
  function AllTrades(responses: seq<Option<seq<Trade>>>): (all: seq<Trade>)
    ensures forall r, t :: r in responses && r.Some? && t in r.value ==> t in all
    ensures forall t :: t in all ==> exists r :: r in responses && r.Some? && t in r.value
    ensures |responses| == 1 ==> all == responses[0].GetOr([])
    decreases |responses|
  {
    if responses == [] then []
    else
      var rest := AllTrades(responses[1..]);
      assert forall r :: r in responses ==> r == responses[0] || r in responses[1..];
      responses[0].GetOr([]) + rest
  }

  /** Gathering the trades of two lists of responses gives the first list's trades, then the second's: every copy is kept. */
  lemma {:induction false} AllTradesConcat(a: seq<Option<seq<Trade>>>, b: seq<Option<seq<Trade>>>)
    ensures AllTrades(a + b) == AllTrades(a) + AllTrades(b)
    decreases |a|
  {
    if a == [] {
      assert a + b == b;
    } else {
      assert (a + b)[0] == a[0];
      assert (a + b)[1..] == a[1..] + b;
      AllTradesConcat(a[1..], b);
    }
  }

  /** The trades the venues returned, Polymarket's first, then Kalshi's; a failed request gives none. */
  function VenueTrades(respond: string -> Option<seq<Trade>>): seq<Trade> {
    respond("polymarket").GetOr([]) + respond("kalshi").GetOr([])
  }

  /** The responses of the venues, gathered, are the two venues' trade lists one after the other. */
  lemma AllVenueTrades(respond: string -> Option<seq<Trade>>)
    ensures AllTrades(Responses(respond)) == VenueTrades(respond)
  {
    var rs := Responses(respond);
    assert rs == [rs[0]] + [rs[1]];
    AllTradesConcat([rs[0]], [rs[1]]);
  }

  /**
    `fetch_skill_pnl`: `respond(venue)` stands for the trade list the venue returned (the
    request and its failures are outside the model). A tag is listed once some trade of either
    venue counts towards it, and holds the net of every such trade, each copy counted.
  */
  function FetchSkillPnl(respond: string -> Option<seq<Trade>>): (d: Dict<real>)
    ensures Valid(d)
    ensures forall tag :: tag in d.values <==> Booked(VenueTrades(respond), tag)
    ensures forall tag :: tag in d.values ==> d.values[tag] == Net(VenueTrades(respond), tag)
    ensures Realized(d) == Total(VenueTrades(respond))
  {
    AllVenueTrades(respond);
    RealizedIsTotal(VenueTrades(respond));
    PnlBySource(AllTrades(Responses(respond)))
  }

  /** What each venue returned, in venue order. */
  function Responses(respond: string -> Option<seq<Trade>>): (rs: seq<Option<seq<Trade>>>)
    ensures |rs| == |Venues|
    ensures forall i :: 0 <= i < |Venues| ==> rs[i] == respond(Venues[i])
  {
    seq(|Venues|, i requires 0 <= i < |Venues| => respond(Venues[i]))
  }

  /** `sum(pnl_by_source.values())`, in key order. */
  function SumOver(keys: seq<string>, values: map<string, real>): real
    requires forall i :: 0 <= i < |keys| ==> keys[i] in values
    decreases |keys|
  {
    if keys == [] then 0.0 else values[keys[0]] + SumOver(keys[1..], values)
  }

  /** The realized P&L the cycle stores: the sum of the per-tag figures. */
  function Realized(d: Dict<real>): real
    requires Valid(d)
  {
    SumOver(d.keys, d.values)
  }

  /** The sum of the per-tag figures is the net of every counted trade: no trade is lost or counted twice. */
  lemma {:induction false} RealizedIsTotal(trades: seq<Trade>)
    ensures Realized(PnlBySource(trades)) == Total(trades)
    decreases |trades|
  {
    if trades != [] {
      var front := trades[..|trades| - 1];
      var t := trades[|trades| - 1];
      var d := PnlBySource(front);
      RealizedIsTotal(front);
      assert PnlBySource(trades) == AddTrade(d, t);
      RealizedAddTrade(d, t);
    }
  }

  /** Grouping one more trade raises the realized figure by what the trade counts for. */
  lemma RealizedAddTrade(d: Dict<real>, t: Trade)
    requires Valid(d)
    ensures Realized(AddTrade(d, t)) == Realized(d) + (if Signed(t).Some? then Signed(t).value else 0.0)
  {
    if Signed(t).Some? {
      RealizedAdds(d, TagOf(t), Signed(t).value);
    }
  }

  /** Booking `x` more under `tag` raises the realized figure by `x`. */
  lemma RealizedAdds(d: Dict<real>, tag: string, x: real)
    requires Valid(d)
    ensures Realized(Put(d, tag, GetOr(d, tag, 0.0) + x)) == Realized(d) + x
  {
    var v := GetOr(d, tag, 0.0) + x;
    if tag in d.values {
      SumOverUpdate(d.keys, d.values, tag, v);
    } else {
      SumOverAppend(d.keys, d.values, tag, v);
    }
  }

  /** Changing the value of a listed key changes the sum by the difference. */
  lemma {:induction false} SumOverUpdate(keys: seq<string>, values: map<string, real>, k: string, v: real)
    requires Distinct(keys) && k in keys
    requires forall i :: 0 <= i < |keys| ==> keys[i] in values
    ensures SumOver(keys, values[k := v]) == SumOver(keys, values) + v - values[k]
    decreases |keys|
  {
    if keys[0] == k {
      SumOverSkip(keys[1..], values, k, v);
    } else {
      assert k in keys[1..];
      SumOverUpdate(keys[1..], values, k, v);
    }
  }

  /** Changing the value of a key that is not listed leaves the sum alone. */
  lemma {:induction false} SumOverSkip(keys: seq<string>, values: map<string, real>, k: string, v: real)
    requires k !in keys
    requires forall i :: 0 <= i < |keys| ==> keys[i] in values
    ensures SumOver(keys, values[k := v]) == SumOver(keys, values)
    decreases |keys|
  {
    if keys != [] {
      SumOverSkip(keys[1..], values, k, v);
    }
  }

  /** Appending a new key adds its value to the sum. */
  lemma {:induction false} SumOverAppend(keys: seq<string>, values: map<string, real>, k: string, v: real)
    requires k !in keys
    requires forall i :: 0 <= i < |keys| ==> keys[i] in values
    ensures SumOver(keys + [k], values[k := v]) == SumOver(keys, values) + v
    decreases |keys|
  {
    if keys == [] {
      assert [] + [k] == [k];
    } else {
      assert (keys + [k])[1..] == keys[1..] + [k];
      SumOverAppend(keys[1..], values, k, v);
    }
  }

  /** Taking one trade out of the history takes out exactly its contribution. */
  lemma {:induction false} NetRemove(trades: seq<Trade>, i: nat, tag: string)
    requires i < |trades|
    ensures Net(trades, tag) == Net(RemoveAt(trades, i), tag) + Contribution(trades[i], tag)
    decreases |trades|
  {
    var n := |trades| - 1;
    if i < n {
      var front := trades[..n];
      NetRemove(front, i, tag);
      var r := RemoveAt(trades, i);
      assert r[..|r| - 1] == RemoveAt(front, i);
      assert r[|r| - 1] == trades[n];
    } else {
      assert RemoveAt(trades, i) == trades[..n];
    }
  }

  /** Removing one element takes it out of the multiset. */
  lemma RemoveAtMultiset<T>(s: seq<T>, i: nat)
    requires i < |s|
    ensures multiset(RemoveAt(s, i)) == multiset(s) - multiset{s[i]}
  {
    assert s == s[..i] + [s[i]] + s[i + 1..];
    assert RemoveAt(s, i) == s[..i] + s[i + 1..];
  }

  /** The net P&L of a tag does not depend on the order in which the trades arrive. */
  lemma {:induction false} NetOrderFree(a: seq<Trade>, b: seq<Trade>, tag: string)
    requires multiset(a) == multiset(b)
    ensures Net(a, tag) == Net(b, tag)
    decreases |a|
  {
    if a == [] {
      assert |b| == |multiset(b)| == 0;
    } else {
      var n := |a| - 1;
      var x := a[n];
      assert a == a[..n] + [x];
      assert x in multiset(b);
      var i :| 0 <= i < |b| && b[i] == x;
      RemoveAtMultiset(b, i);
      assert multiset(a[..n]) == multiset(a) - multiset{x};
      NetOrderFree(a[..n], RemoveAt(b, i), tag);
      NetRemove(b, i, tag);
    }
  }

  /** Neither the order of the venues nor the order of the trades changes the per-tag figures. */
  lemma PnlOrderFree(a: seq<Trade>, b: seq<Trade>)
    requires multiset(a) == multiset(b)
    ensures PnlBySource(a).values == PnlBySource(b).values
  {
    var da, db := PnlBySource(a), PnlBySource(b);
    forall tag
      ensures tag in da.values <==> tag in db.values
    {
      BookedOrderFree(a, b, tag);
      BookedOrderFree(b, a, tag);
    }
    forall tag | tag in da.values
      ensures da.values[tag] == db.values[tag]
    {
      NetOrderFree(a, b, tag);
    }
  }

  /** A tag booked in one arrangement of the trades is booked in any other. */
  lemma BookedOrderFree(a: seq<Trade>, b: seq<Trade>, tag: string)
    requires multiset(a) == multiset(b)
    ensures Booked(a, tag) ==> Booked(b, tag)
  {
    if Booked(a, tag) {
      var i :| 0 <= i < |a| && Counts(a[i], tag);
      assert a[i] in multiset(b);
      var j :| 0 <= j < |b| && b[j] == a[i];
    }
  }

  /** A sell adds its size and a buy subtracts it, whatever the case of the side. */
  lemma SideConvention(tag: string, c: real)
    requires c != 0.0
    ensures PnlBySource([Trade(Some(tag), Some("SELL"), Some(c), None)]).values == map[tag := c]
    ensures PnlBySource([Trade(Some(tag), Some("Buy"), Some(c), None)]).values == map[tag := -c]
    ensures PnlBySource([Trade(Some(tag), Some("transfer"), Some(c), None)]).values == map[]
    ensures PnlBySource([Trade(None, Some("sell"), None, Some(c))]).values == map["unknown" := c]
  {
    SellSide(tag, c);
    BuySide(tag, c);
    OtherSide(tag, c);
    UntaggedSide(c);
  }

  lemma SellSide(tag: string, c: real)
    requires c != 0.0
    ensures PnlBySource([Trade(Some(tag), Some("SELL"), Some(c), None)]).values == map[tag := c]
  {
    assert Lower("SELL") == "sell";
    SingleTrade(Trade(Some(tag), Some("SELL"), Some(c), None));
  }

  lemma BuySide(tag: string, c: real)
    requires c != 0.0
    ensures PnlBySource([Trade(Some(tag), Some("Buy"), Some(c), None)]).values == map[tag := -c]
  {
    assert Lower("Buy") == "buy";
    SingleTrade(Trade(Some(tag), Some("Buy"), Some(c), None));
  }

  lemma OtherSide(tag: string, c: real)
    ensures PnlBySource([Trade(Some(tag), Some("transfer"), Some(c), None)]).values == map[]
  {
    assert Lower("transfer") == "transfer";
    SingleTrade(Trade(Some(tag), Some("transfer"), Some(c), None));
  }

  lemma UntaggedSide(c: real)
    requires c != 0.0
    ensures PnlBySource([Trade(None, Some("sell"), None, Some(c))]).values == map["unknown" := c]
  {
    assert Lower("sell") == "sell";
    SingleTrade(Trade(None, Some("sell"), None, Some(c)));
  }

  /** A history of one trade books that trade's signed size under its tag, if it counts at all. */
  lemma SingleTrade(t: Trade)
    ensures PnlBySource([t]).values == if Signed(t).Some? then map[TagOf(t) := Signed(t).value] else map[]
  {
    assert [t][..0] == [];
    assert PnlBySource([t]) == AddTrade(Empty(), t);
  }

  /** Which venue is asked first makes no difference to the per-tag figures. */
  lemma VenueOrderFree(a: Option<seq<Trade>>, b: Option<seq<Trade>>)
    ensures PnlBySource(AllTrades([a, b])).values == PnlBySource(AllTrades([b, a])).values
  {
    assert [a, b][1..] == [b] && [b, a][1..] == [a];
    assert [b][1..] == [] && [a][1..] == [];
    assert AllTrades([a]) == a.GetOr([]) + [];
    assert AllTrades([b]) == b.GetOr([]) + [];
    assert a.GetOr([]) + [] == a.GetOr([]) && b.GetOr([]) + [] == b.GetOr([]);
    assert AllTrades([a, b]) == a.GetOr([]) + b.GetOr([]);
    assert AllTrades([b, a]) == b.GetOr([]) + a.GetOr([]);
    PnlOrderFree(AllTrades([a, b]), AllTrades([b, a]));
  }
}

=== FILE: ranking.dfy ===
/**
  Average rewards and their order, and the stable descending sort the bandit ranks skills with
  (Python's `sorted(xs, key=..., reverse=True)`, which keeps equal-keyed items in their original order).
*/
module Ranking {

  /** An average reward: `Unbounded` is the `float("inf")` given to a skill never played. */
  datatype Reward = Unbounded | Avg(value: real)

  /** Python's `a > b` on these values. */
  predicate Above(a: Reward, b: Reward) {
    match a
    case Unbounded => b.Avg?
    case Avg(x) => b.Avg? && x > b.value
  }

  /** Python's `a >= b`. */
  predicate AtLeast(a: Reward, b: Reward) {
    !Above(b, a)
  }

  /** `Above` is a strict total order, so `AtLeast` is a total order. */
  lemma OrderFacts(a: Reward, b: Reward, c: Reward)
    ensures !Above(a, a)
    ensures Above(a, b) ==> a != b && !Above(b, a)
    ensures AtLeast(a, b) || AtLeast(b, a)
    ensures AtLeast(a, b) && AtLeast(b, c) ==> AtLeast(a, c)
    ensures AtLeast(a, b) && AtLeast(b, a) ==> a == b
  {
  }

  /** Every element's key is at least that of every later element. */
  predicate Descending<T>(s: seq<T>, key: T -> Reward) {
    forall i, j :: 0 <= i < j < |s| ==> AtLeast(key(s[i]), key(s[j]))
  }

  /** The elements of `s` whose key is `k`, in the order of `s`. */
  function WithKey<T>(s: seq<T>, key: T -> Reward, k: Reward): seq<T> {
    if s == [] then []
    else (if key(s[0]) == k then [s[0]] else []) + WithKey(s[1..], key, k)
  }

  /** Places `x` in front of the first element whose key is not above `x`'s. */
  function Insert<T>(x: T, s: seq<T>, key: T -> Reward): seq<T> {
    if s == [] then [x]
    else if Above(key(s[0]), key(x)) then [s[0]] + Insert(x, s[1..], key)
    else [x] + s
  }

  /** Insertion adds `x` and nothing else. */
  lemma {:induction false} InsertCounts<T>(x: T, s: seq<T>, key: T -> Reward)
    ensures multiset(Insert(x, s, key)) == multiset(s) + multiset{x}
  {
    if s != [] && Above(key(s[0]), key(x)) {
      InsertCounts(x, s[1..], key);
      assert s == [s[0]] + s[1..];
    }
  }

  /** A descending sequence stays descending under a front element at least as large as all of it. */
  lemma ConsDescending<T>(a: T, t: seq<T>, key: T -> Reward)
    requires Descending(t, key)
    requires forall j :: 0 <= j < |t| ==> AtLeast(key(a), key(t[j]))
    ensures Descending([a] + t, key)
  {
    var r := [a] + t;
    forall i, j | 0 <= i < j < |r|
      ensures AtLeast(key(r[i]), key(r[j]))
    {
      assert r[j] == t[j - 1];
      if i > 0 {
        assert r[i] == t[i - 1];
      }
    }
  }

  lemma {:induction false} InsertKeepsOrder<T>(x: T, s: seq<T>, key: T -> Reward)
    requires Descending(s, key)
    ensures multiset(Insert(x, s, key)) == multiset(s) + multiset{x}
    ensures Descending(Insert(x, s, key), key)
  {
    InsertCounts(x, s, key);
    if s == [] {
    } else if Above(key(s[0]), key(x)) {
      var t := Insert(x, s[1..], key);
      InsertKeepsOrder(x, s[1..], key);
      forall j | 0 <= j < |t|
        ensures AtLeast(key(s[0]), key(t[j]))
      {
        assert t[j] in multiset(s[1..]) + multiset{x};
        if t[j] != x {
          var m :| 0 <= m < |s[1..]| && s[1..][m] == t[j];
          assert s[m + 1] == t[j];
        }
      }
      ConsDescending(s[0], t, key);
    } else {
      forall j | 0 <= j < |s|
        ensures AtLeast(key(x), key(s[j]))
      {
        OrderFacts(key(x), key(s[0]), key(s[j]));
      }
      ConsDescending(x, s, key);
    }
  }

  /** `WithKey` looks at the front element and then at the rest. */
  lemma WithKeyCons<T>(a: T, t: seq<T>, key: T -> Reward, k: Reward)
    ensures WithKey([a] + t, key, k) == (if key(a) == k then [a] else []) + WithKey(t, key, k)
  {
    assert ([a] + t)[0] == a;
    assert ([a] + t)[1..] == t;
  }

  lemma {:induction false} InsertWithKey<T>(x: T, s: seq<T>, key: T -> Reward, k: Reward)
    ensures WithKey(Insert(x, s, key), key, k)
         == (if key(x) == k then [x] else []) + WithKey(s, key, k)
  {
    if s == [] {
      WithKeyCons(x, [], key, k);
      assert [x] + [] == [x];
    } else if Above(key(s[0]), key(x)) {
      var t := Insert(x, s[1..], key);
      InsertWithKey(x, s[1..], key, k);
      WithKeyCons(s[0], t, key, k);
      WithKeyCons(s[0], s[1..], key, k);
      assert [s[0]] + s[1..] == s;
      if key(x) == k {
        assert key(s[0]) != k;
      }
    } else {
      WithKeyCons(x, s, key, k);
    }
  }

  /** The stable descending sort. */
  function SortDesc<T>(s: seq<T>, key: T -> Reward): (r: seq<T>)
    ensures |r| == |s|
    ensures multiset(r) == multiset(s)
    ensures Descending(r, key)
  {
    if s == [] then []
    else
      var rest := SortDesc(s[1..], key);
      InsertKeepsOrder(s[0], rest, key);
      assert s == [s[0]] + s[1..];
      assert |multiset(Insert(s[0], rest, key))| == |Insert(s[0], rest, key)|;
      Insert(s[0], rest, key)
  }

  /** Stability: the items that share a key keep their relative order. */
  lemma {:induction false} SortDescStable<T>(s: seq<T>, key: T -> Reward, k: Reward)
    ensures WithKey(SortDesc(s, key), key, k) == WithKey(s, key, k)
  {
    if s != [] {
      SortDescStable(s[1..], key, k);
      InsertWithKey(s[0], SortDesc(s[1..], key), key, k);
    }
  }

  /** The first `m` of a descending arrangement of `pool` are in order and beat every item left out. */
  lemma HeadOfRanking<T>(ranked: seq<T>, pool: seq<T>, key: T -> Reward, m: nat)
    requires Descending(ranked, key) && multiset(ranked) == multiset(pool) && m <= |ranked|
    ensures Descending(ranked[..m], key)
    ensures forall i, s :: 0 <= i < m && s in pool && s !in ranked[..m] ==> AtLeast(key(ranked[i]), key(s))
  {
    forall i, s | 0 <= i < m && s in pool && s !in ranked[..m]
      ensures AtLeast(key(ranked[i]), key(s))
    {
      assert s in multiset(pool);
      var q :| 0 <= q < |ranked| && ranked[q] == s;
    }
  }
}

=== FILE: registration.dfy ===
/**
  Bringing the skills table in line with what discovery found: new skills get a fresh record,
  known ones take the latest source tag and entrypoint, and skills no longer found are disabled.
*/
module Registration {
  import opened Wrappers
  import opened Seqs
  import opened Dicts
  import opened Skills

  /** The last discovery entry for `slug`, if any (the one whose values win). */
  function LastFor(ds: seq<Discovered>, slug: Slug): (d: Option<Discovered>)
    ensures d.Some? ==> d.value in ds && d.value.slug == slug
    ensures d.None? <==> forall i :: 0 <= i < |ds| ==> ds[i].slug != slug
  {
    if ds == [] then None
    else if ds[|ds| - 1].slug == slug then Some(ds[|ds| - 1])
    else
      var d := LastFor(ds[..|ds| - 1], slug);
      assert forall i :: 0 <= i < |ds| - 1 ==> ds[..|ds| - 1][i] == ds[i];
      d
  }

  /** The record a newly discovered skill starts with: no plays, no P&L, enabled. */
  function Fresh(d: Discovered): (r: SkillRecord)
    ensures r.sourceTag == d.sourceTag && r.entrypoint == d.entrypoint
    ensures r.totalPnl == 0.0 && r.timesSelected == 0 && r.timesRewarded == 0
    ensures r.lastRun == None && r.enabled == Some(true)
  {
    SkillRecord(d.sourceTag, d.entrypoint, 0.0, 0, 0, None, Some(true))
  }

  /** What one discovery entry does to the table. */
  function SyncOne(reg: Registry, d: Discovered): (r: Registry)
    requires Valid(reg)
    ensures Valid(r)
  {
    if d.slug !in reg.values then Put(reg, d.slug, Fresh(d))
    else Put(reg, d.slug, reg.values[d.slug].(sourceTag := d.sourceTag, entrypoint := d.entrypoint))
  }

  /**
    `r` is `reg` after the sync loop over `ds`: keys already present keep their place and new
    ones follow; a known slug takes its last entry's source tag and entrypoint and keeps its
    statistics and its enabled flag; a new slug starts fresh from its last entry.
  */
  ghost predicate Synced(reg: Registry, ds: seq<Discovered>, r: Registry)
    requires Valid(reg)
  {
    && Valid(r)
    && |reg.keys| <= |r.keys| && r.keys[..|reg.keys|] == reg.keys
    && (forall s :: s in r.values <==> s in reg.values || LastFor(ds, s).Some?)
    && (forall s :: s in reg.values && LastFor(ds, s).None? ==> r.values[s] == reg.values[s])
    && (forall s :: s in reg.values && LastFor(ds, s).Some? ==>
          r.values[s] == reg.values[s].(sourceTag := LastFor(ds, s).value.sourceTag, entrypoint := LastFor(ds, s).value.entrypoint))
    && (forall s :: s !in reg.values && LastFor(ds, s).Some? ==> r.values[s] == Fresh(LastFor(ds, s).value))
  }

  /** The sync loop over the discovery list, in order. */
  function Sync(reg: Registry, ds: seq<Discovered>): (r: Registry)
    requires Valid(reg)
    ensures Synced(reg, ds, r)
    decreases |ds|
  {
    if ds == [] then reg
    else
      var front := Sync(reg, ds[..|ds| - 1]);
      SyncStep(reg, ds, front);
      SyncOne(front, ds[|ds| - 1])
  }

  /** One more entry of the loop keeps the sync relation. */
  lemma SyncStep(reg: Registry, ds: seq<Discovered>, front: Registry)
    requires Valid(reg) && |ds| > 0
    requires Synced(reg, ds[..|ds| - 1], front)
    ensures Synced(reg, ds, SyncOne(front, ds[|ds| - 1]))
  {
    var d := ds[|ds| - 1];
    var r := SyncOne(front, d);
    SyncOneKeys(reg, front, d);
    forall s
      ensures s in r.values <==> s in reg.values || LastFor(ds, s).Some?
      ensures s in reg.values && LastFor(ds, s).None? ==> r.values[s] == reg.values[s]
      ensures s in reg.values && LastFor(ds, s).Some? ==>
        r.values[s] == reg.values[s].(sourceTag := LastFor(ds, s).value.sourceTag, entrypoint := LastFor(ds, s).value.entrypoint)
      ensures s !in reg.values && LastFor(ds, s).Some? ==> r.values[s] == Fresh(LastFor(ds, s).value)
    {
      SyncStepAt(reg, ds, front, r, s);
    }
  }

  /** The sync relation after one more entry, for one slug. */
  lemma SyncStepAt(reg: Registry, ds: seq<Discovered>, front: Registry, r: Registry, s: Slug)
    requires Valid(reg) && |ds| > 0
    requires Synced(reg, ds[..|ds| - 1], front)
    requires r == SyncOne(front, ds[|ds| - 1])
    ensures s in r.values <==> s in reg.values || LastFor(ds, s).Some?
    ensures s in reg.values && LastFor(ds, s).None? ==> r.values[s] == reg.values[s]
    ensures s in reg.values && LastFor(ds, s).Some? ==>
      r.values[s] == reg.values[s].(sourceTag := LastFor(ds, s).value.sourceTag, entrypoint := LastFor(ds, s).value.entrypoint)
    ensures s !in reg.values && LastFor(ds, s).Some? ==> r.values[s] == Fresh(LastFor(ds, s).value)
  {
    LastForStep(ds, s);
    SyncOneAt(front, ds[|ds| - 1], s);
  }

  /** The entry's slug keeps its place or joins at the end; nothing before it moves. */
  lemma SyncOneKeys(reg: Registry, front: Registry, d: Discovered)
    requires Valid(front) && |reg.keys| <= |front.keys| && front.keys[..|reg.keys|] == reg.keys
    ensures |reg.keys| <= |SyncOne(front, d).keys| && SyncOne(front, d).keys[..|reg.keys|] == reg.keys
  {
    var r := SyncOne(front, d);
    assert r.keys[..|front.keys|] == front.keys;
    assert r.keys[..|reg.keys|] == front.keys[..|reg.keys|];
  }

  /** What one discovery entry does to one slug of the table. */
  lemma SyncOneAt(reg: Registry, d: Discovered, s: Slug)
    requires Valid(reg)
    ensures s in SyncOne(reg, d).values <==> s in reg.values || s == d.slug
    ensures s != d.slug && s in reg.values ==> SyncOne(reg, d).values[s] == reg.values[s]
    ensures s == d.slug && s in reg.values ==>
      SyncOne(reg, d).values[s] == reg.values[s].(sourceTag := d.sourceTag, entrypoint := d.entrypoint)
    ensures s == d.slug && s !in reg.values ==> SyncOne(reg, d).values[s] == Fresh(d)
  {
  }

  /** Unfolds `LastFor` at the end of the list. */
  lemma LastForStep(ds: seq<Discovered>, s: Slug)
    requires |ds| > 0
    ensures LastFor(ds, s) == if ds[|ds| - 1].slug == s then Some(ds[|ds| - 1]) else LastFor(ds[..|ds| - 1], s)
  {
  }

  /** Every skill that discovery did not find is marked disabled; nothing else changes. */
  function DisableMissing(reg: Registry, ds: seq<Discovered>): (r: Registry)
    requires Valid(reg)
    ensures Valid(r) && r.keys == reg.keys && r.values.Keys == reg.values.Keys
    ensures forall s :: s in reg.values && LastFor(ds, s).Some? ==> r.values[s] == reg.values[s]
    ensures forall s :: s in reg.values && LastFor(ds, s).None? ==> r.values[s] == reg.values[s].(enabled := Some(false))
  {
    Dict(reg.keys, map s | s in reg.values ::
      if LastFor(ds, s).Some? then reg.values[s] else reg.values[s].(enabled := Some(false)))
  }

  /** The whole reconciliation step of a cycle. */
  function Reconcile(reg: Registry, ds: seq<Discovered>): (r: Registry)
    requires Valid(reg)
    ensures Valid(r)
    ensures |reg.keys| <= |r.keys| && r.keys[..|reg.keys|] == reg.keys
    ensures forall s :: s in r.values <==> s in reg.values || LastFor(ds, s).Some?
    ensures forall s :: s in reg.values && LastFor(ds, s).None? ==> r.values[s] == reg.values[s].(enabled := Some(false))
    ensures forall s :: s in reg.values && LastFor(ds, s).Some? ==>
      r.values[s] == reg.values[s].(sourceTag := LastFor(ds, s).value.sourceTag, entrypoint := LastFor(ds, s).value.entrypoint)
    ensures forall s :: s !in reg.values && LastFor(ds, s).Some? ==> r.values[s] == Fresh(LastFor(ds, s).value)
  {
    DisableMissing(Sync(reg, ds), ds)
  }

  /** Only a discovered skill can be enabled after reconciliation, and every discovered skill is in the table. */
  lemma EnabledOnlyIfDiscovered(reg: Registry, ds: seq<Discovered>)
    requires Valid(reg)
    ensures var r := Reconcile(reg, ds);
      && (forall s :: s in r.values && IsEnabled(r.values[s]) ==> LastFor(ds, s).Some?)
      && (forall i :: 0 <= i < |ds| ==> ds[i].slug in r.values)
  {
    var r := Reconcile(reg, ds);
    forall i | 0 <= i < |ds|
      ensures ds[i].slug in r.values
    {
      assert LastFor(ds, ds[i].slug).Some?;
    }
  }

  /**
    Reconciliation keeps every known skill's statistics, and never re-enables a skill that was
    disabled: a rediscovered disabled skill stays disabled.
  */
  lemma ReconcileKeepsHistory(reg: Registry, ds: seq<Discovered>)
    requires Valid(reg)
    ensures var r := Reconcile(reg, ds);
      forall s :: s in reg.values ==>
        && s in r.values
        && r.values[s].totalPnl == reg.values[s].totalPnl
        && r.values[s].timesSelected == reg.values[s].timesSelected
        && r.values[s].timesRewarded == reg.values[s].timesRewarded
        && r.values[s].lastRun == reg.values[s].lastRun
        && (reg.values[s].enabled == Some(false) ==> r.values[s].enabled == Some(false))
  {
  }

  /** Reconciliation deletes nothing: the table's keys keep their place and new ones follow. */
  lemma ReconcileKeepsOrder(reg: Registry, ds: seq<Discovered>)
    requires Valid(reg)
    ensures |reg.keys| <= |Reconcile(reg, ds).keys|
    ensures Reconcile(reg, ds).keys[..|reg.keys|] == reg.keys
  {
    assert Synced(reg, ds, Sync(reg, ds));
  }

  /** Reconciling twice against the same discovery list changes nothing more. */
  lemma ReconcileIdempotent(reg: Registry, ds: seq<Discovered>)
    requires Valid(reg)
    ensures Reconcile(Reconcile(reg, ds), ds) == Reconcile(reg, ds)
  {
    var r := Reconcile(reg, ds);
    SyncSettled(r, ds);
    DisableSettled(r, ds);
  }

  /** Syncing a table that already holds every discovered slug with its latest values changes nothing. */
  lemma SyncSettled(r: Registry, ds: seq<Discovered>)
    requires Valid(r)
    requires forall s :: LastFor(ds, s).Some? ==>
      (s in r.values
       && r.values[s].sourceTag == LastFor(ds, s).value.sourceTag
       && r.values[s].entrypoint == LastFor(ds, s).value.entrypoint)
    ensures Sync(r, ds) == r
  {
    var t := Sync(r, ds);
    SettledValues(r, ds, t);
    SettledKeys(r, t);
  }

  /** The sync of a settled table keeps every value. */
  lemma SettledValues(r: Registry, ds: seq<Discovered>, t: Registry)
    requires Valid(r) && Synced(r, ds, t)
    requires forall s :: LastFor(ds, s).Some? ==>
      (s in r.values
       && r.values[s].sourceTag == LastFor(ds, s).value.sourceTag
       && r.values[s].entrypoint == LastFor(ds, s).value.entrypoint)
    ensures t.values == r.values
  {
    forall s
      ensures s in t.values <==> s in r.values
      ensures s in r.values ==> t.values[s] == r.values[s]
    {
      SettledAt(r, ds, t, s);
    }
  }

  /** A valid extension of a table's keys that holds no new key is the table's key list. */
  lemma SettledKeys(r: Registry, t: Registry)
    requires Valid(r) && Valid(t) && t.values == r.values
    requires |r.keys| <= |t.keys| && t.keys[..|r.keys|] == r.keys
    ensures t == r
  {
    forall i | 0 <= i < |t.keys|
      ensures t.keys[i] in r.keys
    {
      assert t.keys[i] in r.values;
    }
    SameKeysExtend(r.keys, t.keys);
  }

  /** A slug whose latest entry the table already holds comes out of the sync as it went in. */
  lemma SettledAt(r: Registry, ds: seq<Discovered>, t: Registry, s: Slug)
    requires Valid(r) && Synced(r, ds, t)
    requires LastFor(ds, s).Some? ==>
      (s in r.values
       && r.values[s].sourceTag == LastFor(ds, s).value.sourceTag
       && r.values[s].entrypoint == LastFor(ds, s).value.entrypoint)
    ensures s in t.values <==> s in r.values
    ensures s in r.values ==> t.values[s] == r.values[s]
  {
    if s in r.values && LastFor(ds, s).Some? {
      var d := LastFor(ds, s).value;
      assert r.values[s].(sourceTag := d.sourceTag, entrypoint := d.entrypoint) == r.values[s];
    }
  }

  /** Disabling the undiscovered skills of a table where they are already disabled changes nothing. */
  lemma DisableSettled(r: Registry, ds: seq<Discovered>)
    requires Valid(r)
    requires forall s :: s in r.values && LastFor(ds, s).None? ==> r.values[s].enabled == Some(false)
    ensures DisableMissing(r, ds) == r
  {
    assert DisableMissing(r, ds).values == r.values;
  }

  /** A duplicate-free extension of `a` that adds no new element is `a` itself. */
  lemma SameKeysExtend(a: seq<string>, b: seq<string>)
    requires Distinct(b) && |a| <= |b| && b[..|a|] == a
    requires forall i :: 0 <= i < |b| ==> b[i] in a
    ensures b == a
  {
    DistinctCard(b);
    DistinctCard(a);
    assert Elems(b) <= Elems(a);
    assert Elems(a) == Elems(b) + (Elems(a) - Elems(b));
    assert |Elems(b)| <= |Elems(a)|;
    assert |b| == |a|;
    assert b == b[..|a|];
  }
}

=== FILE: sampling.dfy ===
/**
  Python's `random.sample(pool, k)` with the random source made explicit: the `j`-th draw
  reads `pick(j)` and takes the remaining item at that position (modulo the number left).
*/
module Sampling {
  import opened Seqs

  /** `k` items drawn from `pool` without replacement, the draws numbered from `at`. */
  function Sample<T(==)>(pool: seq<T>, k: nat, pick: nat -> nat, at: nat): (r: seq<T>)
    requires k <= |pool|
    ensures |r| == k
    ensures forall i :: 0 <= i < |r| ==> r[i] in pool
    ensures Distinct(pool) ==> Distinct(r)
    decreases k
  {
    if k == 0 then []
    else
      var i := pick(at) % |pool|;
      var rest := Sample(RemoveAt(pool, i), k - 1, pick, at + 1);
      RemoveAtMembers(pool, i);
      [pool[i]] + rest
  }

  /** A sample depends on the random source only from draw `at` onwards. */
  lemma {:induction false} SampleReadsFrom<T>(pool: seq<T>, k: nat, p: nat -> nat, q: nat -> nat, at: nat)
    requires k <= |pool|
    requires forall j :: j >= at ==> p(j) == q(j)
    ensures Sample(pool, k, p, at) == Sample(pool, k, q, at)
    decreases k
  {
    if k > 0 {
      var i := p(at) % |pool|;
      SampleReadsFrom(RemoveAt(pool, i), k - 1, p, q, at + 1);
    }
  }

  /** A first draw of `t[0]` followed by draws of the rest of `t` draws `t`. */
  lemma Compose<T>(pool: seq<T>, t: seq<T>, pick: nat -> nat, at: nat, i: nat)
    requires 0 < |t| <= |pool| && i < |pool| && pool[i] == t[0] && pick(at) == i
    requires Sample(RemoveAt(pool, i), |t| - 1, pick, at + 1) == t[1..]
    ensures Sample(pool, |t|, pick, at) == t
  {
    FirstDraw(pool, |t|, pick, at, i);
    assert t == [t[0]] + t[1..];
  }

  /** Unfolds one draw of a sample. */
  lemma FirstDraw<T>(pool: seq<T>, k: nat, pick: nat -> nat, at: nat, i: nat)
    requires 0 < k <= |pool| && i < |pool| && pick(at) == i
    ensures Sample(pool, k, pick, at) == [pool[i]] + Sample(RemoveAt(pool, i), k - 1, pick, at + 1)
  {
    assert pick(at) % |pool| == i;
  }

  lemma RestStillInPool<T>(pool: seq<T>, t: seq<T>, i: nat)
    requires Distinct(pool) && Distinct(t) && |t| > 0
    requires forall m :: 0 <= m < |t| ==> t[m] in pool
    requires i < |pool| && pool[i] == t[0]
    ensures Distinct(t[1..])
    ensures forall m :: 0 <= m < |t| - 1 ==> t[1..][m] in RemoveAt(pool, i)
  {
    RemoveAtMembers(pool, i);
    forall m | 0 <= m < |t| - 1
      ensures t[1..][m] in RemoveAt(pool, i)
    {
      var y := t[m + 1];
      assert y != t[0];
      var n :| 0 <= n < |pool| && pool[n] == y;
      assert n != i;
    }
  }

  /** A random source that draws exactly `t` from `pool`, draws numbered from `at`. */
  ghost function SourceFor<T>(pool: seq<T>, t: seq<T>, at: nat): nat -> nat
    requires Distinct(pool) && Distinct(t)
    requires forall i :: 0 <= i < |t| ==> t[i] in pool
    decreases |t|
  {
    if t == [] then j => 0
    else
      var i := IndexOf(pool, t[0]);
      RestStillInPool(pool, t, i);
      RemoveAtMembers(pool, i);
      var rest := SourceFor(RemoveAt(pool, i), t[1..], at + 1);
      j => if j == at then i else rest(j)
  }

  /**
    No outcome is ruled out: every sequence of distinct members of a duplicate-free pool
    is what some random source draws.
  */
  lemma {:induction false} SampleReachesEvery<T>(pool: seq<T>, t: seq<T>, at: nat)
    requires Distinct(pool) && Distinct(t) && |t| <= |pool|
    requires forall i :: 0 <= i < |t| ==> t[i] in pool
    ensures Sample(pool, |t|, SourceFor(pool, t, at), at) == t
    decreases |t|
  {
    if t != [] {
      var i := IndexOf(pool, t[0]);
      var pool' := RemoveAt(pool, i);
      RestStillInPool(pool, t, i);
      RemoveAtMembers(pool, i);
      SampleReachesEvery(pool', t[1..], at + 1);
      var rest := SourceFor(pool', t[1..], at + 1);
      var pick := SourceFor(pool, t, at);
      assert forall j :: j >= at + 1 ==> pick(j) == rest(j);
      SampleReadsFrom(pool', |t| - 1, pick, rest, at + 1);
      Compose(pool, t, pick, at, i);
    }
  }
}

=== FILE: signing.dfy ===
/**
  Local signing of Solana transactions: loading the keypair from the configured secret,
  finding the key's signer slot, and placing its signature there while keeping every other
  signature of the transaction. Keys, public keys, signatures and transaction messages are
  opaque; the base58 and base64 codecs, the keypair constructors, Ed25519 signing and
  transaction (de)serialisation are given as a `Crypto` bundle of functions.
*/
module Signing {
  import opened Wrappers
  import opened Seqs
  import opened Text

  type Byte = bv8

  /**
    The foreign functions. A codec or constructor returns `None` where the library raises.
    `sign` signs the versioned encoding of a message; `populate` assembles and serialises a
    transaction from a message and its signature list.
  */
  datatype Crypto<!Key, !Pub, !Sig, !Msg> = Crypto(
    b58decode: string -> Option<seq<Byte>>,
    fromBytes: seq<Byte> -> Option<Key>,
    fromSeed: seq<Byte> -> Option<Key>,
    pubkey: Key -> Pub,
    pubkeyText: Pub -> string,
    b64decode: string -> Option<seq<Byte>>,
    b64encode: seq<Byte> -> string,
    parse: seq<Byte> -> Option<Transaction<Msg, Sig>>,
    sign: (Key, Msg) -> Sig,
    accountKeys: Msg -> seq<Pub>,
    numRequired: Msg -> nat,
    defaultSig: Sig,
    populate: (Msg, seq<Sig>) -> Option<seq<Byte>>)

  /** A decoded transaction: its message and the signatures it carries. */
  datatype Transaction<Msg, Sig> = Transaction(message: Msg, signatures: seq<Sig>)

  /** Why signing failed; the first five are raised as `ValueError`, the last two as `RuntimeError`. */
  datatype Error =
    | KeyNotSet
    | KeyNotBase58
    | KeyLength(n: nat)
    | KeypairRejected
    | TxNotBase64
    | NotASigner
    | SigningFailed

  predicate IsValueError(e: Error) {
    !(e.NotASigner? || e.SigningFailed?)
  }

  /** Bytes in a full secret key (seed followed by public key), and in a bare seed. */
  const SecretKeyLength: nat := 64
  const SeedLength: nat := 32

  /** `has_solana_key`: the variable is set to a non-empty value. */
  predicate HasKey(raw: Option<string>) {
    raw.Some? && raw.value != ""
  }

  /**
    `_load_keypair`: the stripped secret is base58-decoded; 64 bytes are a full secret key,
    32 bytes a seed, and any other length is rejected.
  */
  function LoadKeypair<Key, Pub, Sig, Msg>(raw: Option<string>, c: Crypto<Key, Pub, Sig, Msg>): (r: Result<Key, Error>)
    ensures !HasKey(raw) ==> r == Err(KeyNotSet)
    ensures r.Err? ==> IsValueError(r.error)
    ensures HasKey(raw) && c.b58decode(Strip(raw.value)).None? ==> r == Err(KeyNotBase58)
    ensures HasKey(raw) && c.b58decode(Strip(raw.value)).Some? ==>
      var b := c.b58decode(Strip(raw.value)).value;
      && (|b| == SecretKeyLength ==> r == (if c.fromBytes(b).Some? then Ok(c.fromBytes(b).value) else Err(KeypairRejected)))
      && (|b| == SeedLength ==> r == (if c.fromSeed(b).Some? then Ok(c.fromSeed(b).value) else Err(KeypairRejected)))
      && (|b| != SecretKeyLength && |b| != SeedLength ==> r == Err(KeyLength(|b|)))
  {
    if !HasKey(raw) then Err(KeyNotSet)
    else
      match c.b58decode(Strip(raw.value))
      case None => Err(KeyNotBase58)
      case Some(b) =>
        var k := if |b| == SecretKeyLength then c.fromBytes(b)
                 else if |b| == SeedLength then c.fromSeed(b)
                 else None;
        if |b| != SecretKeyLength && |b| != SeedLength then Err(KeyLength(|b|))
        else if k.None? then Err(KeypairRejected)
        else Ok(k.value)
  }

  /** `get_solana_public_key`: the address of the configured key, or nothing when there is none or it does not load. */
  function PublicKey<Key, Pub, Sig, Msg>(raw: Option<string>, c: Crypto<Key, Pub, Sig, Msg>): (p: Option<string>)
    ensures p.Some? <==> LoadKeypair(raw, c).Ok?
    ensures p.Some? ==> p.value == c.pubkeyText(c.pubkey(LoadKeypair(raw, c).value))
  {
    if !HasKey(raw) then None
    else
      match LoadKeypair(raw, c)
      case Ok(k) => Some(c.pubkeyText(c.pubkey(k)))
      case Err(_) => None
  }

  /** A key counts as configured exactly when loading it gets past the not-set check. */
  lemma KeyConfigured<Key, Pub, Sig, Msg>(raw: Option<string>, c: Crypto<Key, Pub, Sig, Msg>)
    ensures HasKey(raw) <==> LoadKeypair(raw, c) != Err(KeyNotSet)
  {
  }

  /** `validate_solana_key`: a key is configured and yields a non-empty address. */
  function ValidateKey<Key, Pub, Sig, Msg>(raw: Option<string>, c: Crypto<Key, Pub, Sig, Msg>): (ok: bool)
    ensures ok <==> LoadKeypair(raw, c).Ok? && |c.pubkeyText(c.pubkey(LoadKeypair(raw, c).value))| > 0
    ensures ok ==> HasKey(raw)
  {
    HasKey(raw) && PublicKey(raw, c).Some? && |PublicKey(raw, c).value| > 0
  }

  /** The first position below `bound`, from `i` on, holding `pk`. */
  function FindFrom<Pub(==)>(keys: seq<Pub>, bound: nat, pk: Pub, i: nat): (r: Option<nat>)
    requires bound <= |keys| && i <= bound
    ensures r.Some? ==> i <= r.value < bound && keys[r.value] == pk
    ensures r.Some? ==> forall j :: i <= j < r.value ==> keys[j] != pk
    ensures r.None? ==> forall j :: i <= j < bound ==> keys[j] != pk
    decreases bound - i
  {
    if i == bound then None
    else if keys[i] == pk then Some(i)
    else FindFrom(keys, bound, pk, i + 1)
  }

  /** The signer search: the first of the required signer positions that holds the public key. */
  function SignerIndex<Pub(==)>(keys: seq<Pub>, numRequired: nat, pk: Pub): (r: Option<nat>)
    ensures r.Some? ==> r.value < Min(numRequired, |keys|) && keys[r.value] == pk
    ensures r.Some? ==> forall j :: 0 <= j < r.value ==> keys[j] != pk
    ensures r.None? <==> forall j :: 0 <= j < Min(numRequired, |keys|) ==> keys[j] != pk
  {
    FindFrom(keys, Min(numRequired, |keys|), pk, 0)
  }

  /** The signature list padded with the default signature up to the number of required signers. */
  function Pad<Sig>(existing: seq<Sig>, n: nat, default: Sig): (r: seq<Sig>)
    ensures |r| == Max(|existing|, n)
    ensures forall i :: 0 <= i < |existing| ==> r[i] == existing[i]
    ensures forall i :: |existing| <= i < |r| ==> r[i] == default
    decreases n - |existing|
  {
    if |existing| >= n then existing else Pad(existing + [default], n, default)
  }

  /** Padding, then our signature in slot `idx`; every other slot keeps what it held. */
  function PlaceSignature<Sig>(existing: seq<Sig>, n: nat, idx: nat, sig: Sig, default: Sig): (r: seq<Sig>)
    requires idx < n
    ensures |r| == Max(|existing|, n)
    ensures r[idx] == sig
    ensures forall i :: 0 <= i < |existing| && i != idx ==> r[i] == existing[i]
    ensures forall i :: |existing| <= i < |r| && i != idx ==> r[i] == default
  {
    Pad(existing, n, default)[idx := sig]
  }

  /** Placing the same signature again changes nothing. */
  lemma PlaceIdempotent<Sig>(existing: seq<Sig>, n: nat, idx: nat, sig: Sig, default: Sig)
    requires idx < n
    ensures PlaceSignature(PlaceSignature(existing, n, idx, sig, default), n, idx, sig, default)
         == PlaceSignature(existing, n, idx, sig, default)
  {
    var once := PlaceSignature(existing, n, idx, sig, default);
    var twice := PlaceSignature(once, n, idx, sig, default);
    assert |twice| == |once|;
    forall i | 0 <= i < |once|
      ensures twice[i] == once[i]
    {
    }
  }

  /** Two signers filling different slots end with the same list in either order: neither overwrites the other. */
  lemma CoSignersCommute<Sig>(existing: seq<Sig>, n: nat, a: nat, sa: Sig, b: nat, sb: Sig, default: Sig)
    requires a < n && b < n && a != b
    ensures PlaceSignature(PlaceSignature(existing, n, a, sa, default), n, b, sb, default)
         == PlaceSignature(PlaceSignature(existing, n, b, sb, default), n, a, sa, default)
  {
    var ab := PlaceSignature(PlaceSignature(existing, n, a, sa, default), n, b, sb, default);
    var ba := PlaceSignature(PlaceSignature(existing, n, b, sb, default), n, a, sa, default);
    assert |ab| == |ba|;
    forall i | 0 <= i < |ab|
      ensures ab[i] == ba[i]
    {
    }
  }

  /**
    `sign_solana_transaction`: load the key, decode and parse the transaction, sign its
    message, find the key among the required signers and put the signature in that slot,
    then serialise and encode the result.
  */
  function SignTransaction<Key, Pub(==), Sig, Msg>(unsigned: string, raw: Option<string>, c: Crypto<Key, Pub, Sig, Msg>): (r: Result<string, Error>)
    ensures LoadKeypair(raw, c).Err? ==> r == Err(LoadKeypair(raw, c).error)
    ensures LoadKeypair(raw, c).Ok? && c.b64decode(unsigned).None? ==> r == Err(TxNotBase64)
    ensures r.Ok? ==>
      && LoadKeypair(raw, c).Ok?
      && c.b64decode(unsigned).Some?
      && c.parse(c.b64decode(unsigned).value).Some?
      && var tx := c.parse(c.b64decode(unsigned).value).value;
         var pk := c.pubkey(LoadKeypair(raw, c).value);
         var bound := Min(c.numRequired(tx.message), |c.accountKeys(tx.message)|);
         exists i :: 0 <= i < bound && c.accountKeys(tx.message)[i] == pk
    ensures r == Err(NotASigner) <==>
      && LoadKeypair(raw, c).Ok?
      && c.b64decode(unsigned).Some?
      && c.parse(c.b64decode(unsigned).value).Some?
      && var tx := c.parse(c.b64decode(unsigned).value).value;
         var pk := c.pubkey(LoadKeypair(raw, c).value);
         forall i :: 0 <= i < Min(c.numRequired(tx.message), |c.accountKeys(tx.message)|) ==> c.accountKeys(tx.message)[i] != pk
    ensures r.Ok? ==>
      && LoadKeypair(raw, c).Ok?
      && c.b64decode(unsigned).Some?
      && c.parse(c.b64decode(unsigned).value).Some?
      && var tx := c.parse(c.b64decode(unsigned).value).value;
         var key := LoadKeypair(raw, c).value;
         && SignedList(tx, key, c).Some?
         && c.populate(tx.message, SignedList(tx, key, c).value).Some?
         && r.value == c.b64encode(c.populate(tx.message, SignedList(tx, key, c).value).value)
    ensures r == Err(SigningFailed) <==>
      && LoadKeypair(raw, c).Ok?
      && c.b64decode(unsigned).Some?
      && (c.parse(c.b64decode(unsigned).value).None? ||
          var tx := c.parse(c.b64decode(unsigned).value).value;
          var key := LoadKeypair(raw, c).value;
          SignedList(tx, key, c).Some? && c.populate(tx.message, SignedList(tx, key, c).value).None?)
    ensures r.Err? && LoadKeypair(raw, c).Ok? && c.b64decode(unsigned).Some? ==> r.error == NotASigner || r.error == SigningFailed
  {
    match LoadKeypair(raw, c)
    case Err(e) => Err(e)
    case Ok(key) =>
      match c.b64decode(unsigned)
      case None => Err(TxNotBase64)
      case Some(bytes) =>
        match c.parse(bytes)
        case None => Err(SigningFailed)
        case Some(tx) =>
          match SignedList(tx, key, c)
          case None => Err(NotASigner)
          case Some(sigs) =>
            match c.populate(tx.message, sigs)
            case None => Err(SigningFailed)
            case Some(out) => Ok(c.b64encode(out))
  }

  /** The signature list a successful signing hands to `populate`. */
  function SignedList<Key, Pub(==), Sig, Msg>(tx: Transaction<Msg, Sig>, key: Key, c: Crypto<Key, Pub, Sig, Msg>): Option<seq<Sig>> {
    var n := c.numRequired(tx.message);
    match SignerIndex(c.accountKeys(tx.message), n, c.pubkey(key))
    case None => None
    case Some(idx) => Some(PlaceSignature(tx.signatures, n, idx, c.sign(key, tx.message), c.defaultSig))
  }

  /**
    The signature list of a signed transaction: as long as the longer of the old list and the
    required signer count, our signature in the first required slot holding our key, every
    other old signature kept, and the default in every new slot.
  */
  lemma SignedListShape<Key, Pub, Sig, Msg>(tx: Transaction<Msg, Sig>, key: Key, c: Crypto<Key, Pub, Sig, Msg>)
    ensures var keys := c.accountKeys(tx.message);
      var n := c.numRequired(tx.message);
      var pk := c.pubkey(key);
      var l := SignedList(tx, key, c);
      && (l.None? <==> forall j :: 0 <= j < Min(n, |keys|) ==> keys[j] != pk)
      && (l.Some? ==>
            && |l.value| == Max(|tx.signatures|, n)
            && exists idx ::
                 && 0 <= idx < Min(n, |keys|) && keys[idx] == pk
                 && (forall j :: 0 <= j < idx ==> keys[j] != pk)
                 && l.value[idx] == c.sign(key, tx.message)
                 && (forall i :: 0 <= i < |tx.signatures| && i != idx ==> l.value[i] == tx.signatures[i])
                 && (forall i :: |tx.signatures| <= i < |l.value| && i != idx ==> l.value[i] == c.defaultSig))
  {
    var keys := c.accountKeys(tx.message);
    var n := c.numRequired(tx.message);
    var s := SignerIndex(keys, n, c.pubkey(key));
    if s.Some? {
      var idx := s.value;
      assert idx < n;
      var l := PlaceSignature(tx.signatures, n, idx, c.sign(key, tx.message), c.defaultSig);
      assert SignedList(tx, key, c) == Some(l);
    }
  }

  /** With no key configured nothing can be signed: no address, no valid key, and a `ValueError` from loading and signing. */
  lemma NoKeyNoSigning<Key, Pub, Sig, Msg>(unsigned: string, raw: Option<string>, c: Crypto<Key, Pub, Sig, Msg>)
    requires raw.None? || raw.value == ""
    ensures !HasKey(raw)
    ensures LoadKeypair(raw, c) == Err(KeyNotSet) && IsValueError(KeyNotSet)
    ensures PublicKey(raw, c).None?
    ensures !ValidateKey(raw, c)
    ensures SignTransaction(unsigned, raw, c) == Err(KeyNotSet)
  {
  }
}

=== FILE: skills.dfy ===
/** The persistent per-skill record and the table of them, keyed by slug. */
module Skills {
  import opened Wrappers
  import opened Seqs
  import opened Dicts
  import opened Ranking

  /** A skill's stable identity: the name of the directory it was discovered in. */
  type Slug = string

  /** A clock reading, kept as the ISO-8601 text the state file stores. */
  type Timestamp = string

  /**
    One skill's bandit statistics. `enabled` is `None` when the stored record lacks the
    field, which reads as enabled.
  */
  datatype SkillRecord = SkillRecord(
    sourceTag: string,
    entrypoint: string,
    totalPnl: real,
    timesSelected: nat,
    timesRewarded: nat,
    lastRun: Option<Timestamp>,
    enabled: Option<bool>)

  /** `v.get("enabled", True)`. */
  predicate IsEnabled(r: SkillRecord) {
    r.enabled.GetOr(true)
  }

  /** The skills table, in insertion order. */
  type Registry = Dict<SkillRecord>

  /** `_avg_reward`: total reward over plays, or unbounded for a skill never played. */
  function AvgReward(r: SkillRecord): (a: Reward)
    ensures a.Unbounded? <==> r.timesSelected == 0
    ensures a.Avg? ==> a.value * r.timesSelected as real == r.totalPnl
  {
    if r.timesSelected == 0 then Unbounded
    else Avg(r.totalPnl / r.timesSelected as real)
  }

  /** The ranking key of a slug in `reg`. */
  function RewardIn(reg: Registry): Slug -> Reward {
    s => if s in reg.values then AvgReward(reg.values[s]) else Unbounded
  }

  /** The enabled slugs, in table order. */
  function EnabledSlugs(reg: Registry): (e: seq<Slug>)
    requires Valid(reg)
    ensures Distinct(e)
    ensures forall i :: 0 <= i < |e| ==> e[i] in reg.values && IsEnabled(reg.values[e[i]])
    ensures forall s :: s in reg.values && IsEnabled(reg.values[s]) ==> s in e
    ensures Subsequence(e, reg.keys)
  {
    Keep(reg.keys, s => s in reg.values && IsEnabled(reg.values[s]))
  }

  /** The slug is in the table and has never been rewarded a play. */
  predicate Unplayed(reg: Registry, s: Slug) {
    s in reg.values && reg.values[s].timesSelected == 0
  }

  /** The number of rewarded plays never exceeds the number of plays. */
  predicate RewardCountsConsistent(reg: Registry) {
    forall s :: s in reg.values ==> reg.values[s].timesRewarded <= reg.values[s].timesSelected
  }

  /** One managed skill found on disk: its directory name, source tag, entrypoint and directory path. */
  datatype Discovered = Discovered(slug: Slug, sourceTag: string, entrypoint: string, dir: string)
}

=== FILE: survival.dfy ===
/**
  The survival model: the operating tier derived from budget and elapsed time, and
  what each tier allows (how many skills per cycle, how much exploration).
*/
module Survival {

  /** The five survival postures, best first. */
  datatype Tier = Thriving | Normal | Conserving | Critical | Dead

  /** Below this fraction of the budget left the tier is critical. */
  const CriticalBelow: real := 0.10
  /** Below this fraction of the budget left the tier is conserving. */
  const ConservingBelow: real := 0.30
  /** Above this fraction, with a positive realized P&L, the tier is thriving. */
  const ThrivingAbove: real := 0.70

  /** Orders tiers from dead (0) to thriving (4). */
  function Rank(t: Tier): nat {
    match t
    case Dead => 0
    case Critical => 1
    case Conserving => 2
    case Normal => 3
    case Thriving => 4
  }

  /** The share of the budget still available: `(budget - spent + realized) / budget`. */
  function RemainingFraction(budget: real, spent: real, realized: real): real
    requires budget > 0.0
  {
    (budget - spent + realized) / budget
  }

  /**
    `compute_tier`: the clock reading is passed in as `daysElapsed`.
    A non-positive budget is dead outright; otherwise the ordered threshold rule decides.
  */
  function ComputeTier(budget: real, spent: real, realized: real, daysElapsed: real, horizonDays: int): (t: Tier)
    ensures budget <= 0.0 ==> t == Dead
    ensures budget > 0.0 ==>
      var f := RemainingFraction(budget, spent, realized);
      && (t == Dead <==> f <= 0.0 || daysElapsed >= horizonDays as real)
      && (t == Critical <==> 0.0 < f < CriticalBelow && daysElapsed < horizonDays as real)
      && (t == Conserving <==> CriticalBelow <= f < ConservingBelow && daysElapsed < horizonDays as real)
      && (t == Thriving <==> realized > 0.0 && f > ThrivingAbove && daysElapsed < horizonDays as real)
      && (t == Normal <==> ConservingBelow <= f && !(realized > 0.0 && f > ThrivingAbove) && daysElapsed < horizonDays as real)
  {
    if budget <= 0.0 then Dead
    else
      var f := RemainingFraction(budget, spent, realized);
      if f <= 0.0 || daysElapsed >= horizonDays as real then Dead
      else if f < CriticalBelow then Critical
      else if f < ConservingBelow then Conserving
      else if realized > 0.0 && f > ThrivingAbove then Thriving
      else Normal
  }

  lemma DivideMonotone(a: real, b: real, c: real)
    requires a <= b && c > 0.0
    ensures a / c <= b / c
  {
    var qa, qb := a / c, b / c;
    assert qa * c == a && qb * c == b;
    assert (qb - qa) * c == b - a;
  }

  /** Spending more never improves the tier. */
  lemma TierMonotoneInSpend(budget: real, spent: real, spent': real, realized: real, days: real, horizon: int)
    requires spent <= spent'
    ensures Rank(ComputeTier(budget, spent', realized, days, horizon)) <= Rank(ComputeTier(budget, spent, realized, days, horizon))
  {
    if budget > 0.0 {
      DivideMonotone(budget - spent' + realized, budget - spent + realized, budget);
    }
  }

  /** The passing of time never improves the tier, and once the horizon is reached the tier is dead for good. */
  lemma TierMonotoneInTime(budget: real, spent: real, realized: real, days: real, days': real, horizon: int)
    requires days <= days'
    ensures Rank(ComputeTier(budget, spent, realized, days', horizon)) <= Rank(ComputeTier(budget, spent, realized, days, horizon))
    ensures ComputeTier(budget, spent, realized, days, horizon) == Dead && days >= horizon as real
      ==> ComputeTier(budget, spent, realized, days', horizon) == Dead
  {
  }

  /**
    Death through the budget is not sticky in the computation: the tier is recomputed from the
    current figures every cycle, so a later rise in realized P&L lifts a dead scheduler back up.
  */
  lemma BudgetDeathIsRecomputed()
    ensures ComputeTier(50.0, 60.0, 0.0, 1.0, 30) == Dead
    ensures ComputeTier(50.0, 60.0, 50.0, 1.0, 30) == Thriving
  {
  }

  /** Worked scenarios: a full budget is normal, 8% left is critical, a large gain thrives, an expired horizon is dead. */
  lemma TierScenarios(budget: real)
    ensures ComputeTier(50.0, 0.0, 0.0, 0.0, 30) == Normal
    ensures ComputeTier(50.0, 0.0, -46.0, 0.0, 30) == Critical
    ensures ComputeTier(50.0, 0.0, 40.0, 0.0, 30) == Thriving
    ensures ComputeTier(budget, 0.0, 0.0, 31.0, 30) == Dead
  {
  }

  /** `tier_max_skills`: how many skills a cycle may select. */
  function TierMaxSkills(t: Tier, maxConcurrent: nat): (n: nat)
    ensures t == Dead ==> n == 0
    ensures t in {Conserving, Critical} ==> n == 1
    ensures t in {Thriving, Normal} ==> n == maxConcurrent
  {
    match t
    case Thriving | Normal => maxConcurrent
    case Conserving | Critical => 1
    case Dead => 0
  }

  /** `tier_effective_epsilon`: the exploration rate the bandit uses in this tier. */
  function TierEffectiveEpsilon(t: Tier, epsilon: real): (e: real)
    ensures t in {Critical, Dead} ==> e == 0.0
    ensures t == Conserving ==> e * 2.0 == epsilon
    ensures t in {Thriving, Normal} ==> e == epsilon
  {
    match t
    case Thriving | Normal => epsilon
    case Conserving => epsilon * 0.5
    case Critical | Dead => 0.0
  }

  /** A better tier never allows fewer skills, nor less exploration. */
  lemma {:induction false} TierEffectsMonotone(t: Tier, u: Tier, maxConcurrent: nat, epsilon: real)
    requires Rank(t) <= Rank(u)
    requires maxConcurrent >= 1 && epsilon >= 0.0
    ensures TierMaxSkills(t, maxConcurrent) <= TierMaxSkills(u, maxConcurrent)
    ensures TierEffectiveEpsilon(t, epsilon) <= TierEffectiveEpsilon(u, epsilon)
    ensures 0.0 <= TierEffectiveEpsilon(t, epsilon) <= epsilon
  {
  }

  /** The end-of-cycle decay `max(min_epsilon, epsilon * epsilon_decay)`. */
  function DecayEpsilon(epsilon: real, decay: real, minEpsilon: real): (e: real)
    ensures e >= minEpsilon
    ensures e == minEpsilon || e == epsilon * decay
    ensures decay <= 1.0 && 0.0 <= epsilon && minEpsilon <= epsilon ==> e <= epsilon
  {
    if epsilon * decay >= minEpsilon then epsilon * decay else minEpsilon
  }

  /** The exploration rate after `k` live cycles. */
  function EpsilonAfter(epsilon: real, decay: real, minEpsilon: real, k: nat): real {
    if k == 0 then epsilon else DecayEpsilon(EpsilonAfter(epsilon, decay, minEpsilon, k - 1), decay, minEpsilon)
  }

  /** Over any number of cycles the rate never rises and never leaves `[minEpsilon, epsilon]`. */
  lemma {:induction false} EpsilonStaysInBand(epsilon: real, decay: real, minEpsilon: real, k: nat)
    requires 0.0 <= minEpsilon <= epsilon
    requires decay <= 1.0
    ensures minEpsilon <= EpsilonAfter(epsilon, decay, minEpsilon, k) <= epsilon
    ensures EpsilonAfter(epsilon, decay, minEpsilon, k + 1) <= EpsilonAfter(epsilon, decay, minEpsilon, k)
  {
    if k > 0 {
      EpsilonStaysInBand(epsilon, decay, minEpsilon, k - 1);
    }
  }
}

=== FILE: text.dfy ===
/** The handful of Python `str` operations the scheduler relies on, on `seq<char>`. */
module Text {
  import opened Seqs

  /** The characters for which Python's `str.isspace()` holds: what `str.strip()` with no argument removes. */
  predicate IsSpace(c: char) {
    || c == ' ' || c == '\t' || c == '\n' || c == '\r' || c == '\U{0B}' || c == '\U{0C}'
    || ('\U{1C}' <= c <= '\U{1F}') || c == '\U{85}' || c == '\U{A0}' || c == '\U{1680}'
    || ('\U{2000}' <= c <= '\U{200A}') || c == '\U{2028}' || c == '\U{2029}'
    || c == '\U{202F}' || c == '\U{205F}' || c == '\U{3000}'
  }

  /** `s` with every leading character satisfying `drop` removed. */
  function TrimStart(s: string, drop: char -> bool): (r: string)
    ensures |r| <= |s| && r == s[|s| - |r|..]
    ensures forall i :: 0 <= i < |s| - |r| ==> drop(s[i])
    ensures |r| == 0 || !drop(r[0])
    ensures |s| == 0 || !drop(s[0]) ==> r == s
  {
    if |s| > 0 && drop(s[0]) then
      var r := TrimStart(s[1..], drop);
      assert r == s[|s| - |r|..] by {
        assert s[1..][|s| - 1 - |r|..] == s[|s| - |r|..];
      }
      assert forall i :: 0 <= i < |s| - |r| ==> drop(s[i]) by {
        forall i | 0 <= i < |s| - |r| ensures drop(s[i]) {
          if i > 0 {
            var k := i - 1;
            assert 0 <= k < |s[1..]| - |r|;
            assert drop(s[1..][k]);
            assert s[i] == s[1..][k];
          }
        }
      }
      r
    else s
  }

  /** `s` with every trailing character satisfying `drop` removed. */
  function TrimEnd(s: string, drop: char -> bool): (r: string)
    ensures |r| <= |s| && r == s[..|r|]
    ensures forall i :: |r| <= i < |s| ==> drop(s[i])
    ensures |r| == 0 || !drop(r[|r| - 1])
    ensures |s| == 0 || !drop(s[|s| - 1]) ==> r == s
  {
    if |s| > 0 && drop(s[|s| - 1]) then TrimEnd(s[..|s| - 1], drop) else s
  }

  /** Both ends trimmed. */
  function Trim(s: string, drop: char -> bool): (r: string)
    ensures |r| == 0 || (!drop(r[0]) && !drop(r[|r| - 1]))
    ensures |s| == 0 || (!drop(s[0]) && !drop(s[|s| - 1])) ==> r == s
  {
    var t := TrimStart(s, drop);
    assert |t| > 0 ==> t[|t| - 1] == s[|s| - 1];
    TrimEnd(t, drop)
  }

  /** Python's `s.strip()`. */
  function Strip(s: string): string {
    Trim(s, IsSpace)
  }

  /** Python's `s.strip(c)` for a one-character argument. */
  function StripChar(s: string, c: char): string {
    Trim(s, x => x == c)
  }

  /** Stripping twice removes nothing more than stripping once. */
  lemma StripIdempotent(s: string)
    ensures Strip(Strip(s)) == Strip(s)
  {
  }

  /** Python's `s.startswith(p)`. */
  predicate StartsWith(s: string, p: string) {
    |p| <= |s| && s[..|p|] == p
  }

  /** `pat` occurs in `s` at position `i`. */
  predicate OccursAt(s: string, pat: string, i: int) {
    0 <= i && i + |pat| <= |s| && s[i..i + |pat|] == pat
  }

  /** Python's `s.find(pat, start)`: the first position at or after `start` where `pat` occurs, or -1. */
  function Find(s: string, pat: string, start: nat): (r: int)
    ensures r == -1 || (start <= r && OccursAt(s, pat, r))
    ensures forall i :: start <= i && (r == -1 || i < r) ==> !OccursAt(s, pat, i)
    decreases |s| - start
  {
    if start + |pat| > |s| then -1
    else if s[start..start + |pat|] == pat then start
    else Find(s, pat, start + 1)
  }

  /** Python's `pat in s` for strings. */
  predicate Contains(s: string, pat: string) {
    Find(s, pat, 0) >= 0
  }

  lemma ContainsWhenOccurs(s: string, pat: string, i: int)
    requires OccursAt(s, pat, i)
    ensures Contains(s, pat)
  {
  }

  /** Python's `head, _, tail = s.partition(c)` for a one-character separator. */
  function Partition(s: string, c: char): (r: (string, string))
    ensures c in s ==> s == r.0 + [c] + r.1 && c !in r.0
    ensures c !in s ==> r.0 == s && r.1 == ""
  {
    if c in s then
      var i := IndexOf(s, c);
      assert s == s[..i] + [c] + s[i + 1..];
      (s[..i], s[i + 1..])
    else (s, "")
  }

  /** The first separator after a separator-free `a` is where the partition cuts. */
  lemma PartitionAt(a: string, c: char, b: string)
    requires c !in a
    ensures Partition(a + [c] + b, c) == (a, b)
  {
    var s := a + [c] + b;
    assert s[|a|] == c;
    assert forall j :: 0 <= j < |a| ==> s[j] == a[j];
    assert IndexOf(s, c) == |a|;
    assert s[..|a|] == a && s[|a| + 1..] == b;
  }

  /** Text that contains `pat` still does once more text follows it. */
  lemma ContainsExtend(a: string, b: string, pat: string)
    requires Contains(a, pat)
    ensures Contains(a + b, pat)
  {
    var p := Find(a, pat, 0);
    assert (a + b)[p..p + |pat|] == a[p..p + |pat|];
    ContainsWhenOccurs(a + b, pat, p);
  }

  /** Python's `s.split(sep)` for a one-character separator. */
  function Split(s: string, sep: char): (parts: seq<string>)
    ensures |parts| >= 1
    ensures forall i :: 0 <= i < |parts| ==> sep !in parts[i]
    decreases |s|
  {
    if sep in s then
      var i := IndexOf(s, sep);
      [s[..i]] + Split(s[i + 1..], sep)
    else [s]
  }

  /** Python's `sep.join(parts)`. */
  function Join(parts: seq<string>, sep: char): string {
    if |parts| == 0 then ""
    else if |parts| == 1 then parts[0]
    else parts[0] + [sep] + Join(parts[1..], sep)
  }

  /** Splitting loses nothing: joining the pieces back gives the original text. */
  lemma {:induction false} JoinSplit(s: string, sep: char)
    ensures Join(Split(s, sep), sep) == s
    decreases |s|
  {
    if sep in s {
      var i := IndexOf(s, sep);
      var rest := Split(s[i + 1..], sep);
      assert Split(s, sep) == [s[..i]] + rest;
      JoinSplit(s[i + 1..], sep);
      JoinCons(s[..i], rest, sep);
      assert s == s[..i] + [sep] + s[i + 1..];
    }
  }

  /** Joining a piece in front of at least one more piece puts one separator between. */
  lemma JoinCons(a: string, rest: seq<string>, sep: char)
    requires |rest| >= 1
    ensures Join([a] + rest, sep) == a + [sep] + Join(rest, sep)
  {
    assert ([a] + rest)[1..] == rest;
  }

  /** Splitting text whose first separator follows `a` peels `a` off. */
  lemma SplitAtFirst(a: string, sep: char, b: string)
    requires sep !in a
    ensures Split(a + [sep] + b, sep) == [a] + Split(b, sep)
  {
    var s := a + [sep] + b;
    assert s[|a|] == sep;
    assert s[..|a|] == a;
    assert s[|a| + 1..] == b;
    var i := IndexOf(s, sep);
    assert forall j :: 0 <= j < |a| ==> s[j] == a[j];
    assert i == |a|;
  }

  /** Conversely, pieces free of the separator are recovered by splitting their join. */
  lemma {:induction false} SplitJoin(parts: seq<string>, sep: char)
    requires |parts| >= 1
    requires forall i :: 0 <= i < |parts| ==> sep !in parts[i]
    ensures Split(Join(parts, sep), sep) == parts
  {
    if |parts| > 1 {
      SplitJoin(parts[1..], sep);
      SplitAtFirst(parts[0], sep, Join(parts[1..], sep));
      assert parts == [parts[0]] + parts[1..];
    }
  }

  /** Separator-free pieces around one more such piece are recovered by splitting their join. */
  lemma SplitJoinAround(before: seq<string>, piece: string, after: seq<string>, sep: char)
    requires forall i :: 0 <= i < |before| ==> sep !in before[i]
    requires forall i :: 0 <= i < |after| ==> sep !in after[i]
    requires sep !in piece
    ensures Split(Join(before + [piece] + after, sep), sep) == before + [piece] + after
  {
    SeparatorFreeAppend(before, [piece], sep);
    SeparatorFreeAppend(before + [piece], after, sep);
    SplitJoin(before + [piece] + after, sep);
  }

  /** Appending two lists of separator-free pieces gives separator-free pieces. */
  lemma SeparatorFreeAppend(a: seq<string>, b: seq<string>, sep: char)
    requires forall i :: 0 <= i < |a| ==> sep !in a[i]
    requires forall i :: 0 <= i < |b| ==> sep !in b[i]
    ensures forall i :: 0 <= i < |a + b| ==> sep !in (a + b)[i]
  {
    forall i | 0 <= i < |a + b| ensures sep !in (a + b)[i] {
      if i < |a| {
        assert (a + b)[i] == a[i];
      } else {
        var j := i - |a|;
        assert 0 <= j < |b|;
        assert (a + b)[i] == b[j];
      }
    }
  }

  /** ASCII lower-casing of one character. */
  function LowerChar(c: char): char {
    if 'A' <= c <= 'Z' then (c as int + 32) as char else c
  }

  /** Python's `s.lower()`, restricted to the ASCII letters. */
  function Lower(s: string): (r: string)
    ensures |r| == |s|
    ensures forall i :: 0 <= i < |s| ==> r[i] == LowerChar(s[i])
  {
    seq(|s|, i requires 0 <= i < |s| => LowerChar(s[i]))
  }

  /** Trimming the front of `a + b`, where all of `a` is dropped and `b` does not start with a dropped character, leaves `b`. */
  lemma {:induction false} TrimStartOf(a: string, b: string, drop: char -> bool)
    requires forall i :: 0 <= i < |a| ==> drop(a[i])
    requires |b| == 0 || !drop(b[0])
    ensures TrimStart(a + b, drop) == b
    decreases |a|
  {
    if |a| > 0 {
      assert (a + b)[1..] == a[1..] + b;
      TrimStartOf(a[1..], b, drop);
    } else {
      assert a + b == b;
    }
  }

  /** Trimming the back of `a + b`, where all of `b` is dropped and `a` does not end with a dropped character, leaves `a`. */
  lemma {:induction false} TrimEndOf(a: string, b: string, drop: char -> bool)
    requires forall i :: 0 <= i < |b| ==> drop(b[i])
    requires |a| == 0 || !drop(a[|a| - 1])
    ensures TrimEnd(a + b, drop) == a
    decreases |b|
  {
    if |b| > 0 {
      assert (a + b)[..|a + b| - 1] == a + b[..|b| - 1];
      TrimEndOf(a, b[..|b| - 1], drop);
    } else {
      assert a + b == a;
    }
  }

  /** Text with no blank at either end. */
  predicate Unpadded(v: string) {
    |v| == 0 || (!IsSpace(v[0]) && !IsSpace(v[|v| - 1]))
  }

  /** Text with no blank or quote character at either end: stripping blanks and quotes leaves it alone. */
  predicate Bare(v: string) {
    && Unpadded(v)
    && (|v| == 0 || (v[0] != '"' && v[|v| - 1] != '"' && v[0] != '\'' && v[|v| - 1] != '\''))
  }

  /** Blanks around an unpadded `v` are what `strip()` removes. */
  lemma StripAround(pre: string, v: string, post: string)
    requires forall i :: 0 <= i < |pre| ==> IsSpace(pre[i])
    requires forall i :: 0 <= i < |post| ==> IsSpace(post[i])
    requires Unpadded(v)
    ensures Strip(pre + v + post) == v
  {
    var s := pre + v + post;
    if |v| == 0 {
      assert forall i :: 0 <= i < |s| ==> IsSpace(s[i]) by {
        forall i | 0 <= i < |s| ensures IsSpace(s[i]) {
          if i >= |pre| { assert s[i] == post[i - |pre|]; }
        }
      }
      TrimStartOf(s, "", IsSpace);
      assert s + "" == s;
    } else {
      TrimStartOf(pre, v + post, IsSpace);
      assert s == pre + (v + post);
      TrimEndOf(v, post, IsSpace);
    }
  }

  /** One blank in front of an unpadded `v` is stripped off. */
  lemma StripBlankFront(v: string)
    requires Unpadded(v)
    ensures Strip(" " + v) == v
  {
    StripAround(" ", v, "");
    assert " " + v + "" == " " + v;
  }

  /** Stripping an unpadded `v` changes nothing. */
  lemma StripUnpadded(v: string)
    requires Unpadded(v)
    ensures Strip(v) == v
  {
    StripAround("", v, "");
    assert "" + v + "" == v;
  }

  /** Stripping quote character `q` off a bare `v` wrapped in that quote gives `v` back. */
  lemma StripQuoted(v: string, q: char)
    requires Bare(v) && (q == '"' || q == '\'')
    ensures StripChar([q] + v + [q], q) == v
  {
    var drop := x => x == q;
    if |v| == 0 {
      assert [q] + v + [q] == [q, q] + "";
      TrimStartOf([q, q], "", drop);
    } else {
      assert [q] + v + [q] == [q] + (v + [q]);
      TrimStartOf([q], v + [q], drop);
      TrimEndOf(v, [q], drop);
    }
  }

  /** Python's `val.strip('"').strip("'")` unwraps a bare `v` from either kind of quote. */
  lemma UnquoteQuoted(v: string)
    requires Bare(v)
    ensures StripChar(StripChar("\"" + v + "\"", '"'), '\'') == v
    ensures StripChar(StripChar("'" + v + "'", '"'), '\'') == v
  {
    StripQuoted(v, '"');
    assert "\"" + v + "\"" == ['"'] + v + ['"'];
    StripQuoted(v, '\'');
    var w := "'" + v + "'";
    assert w == ['\''] + v + ['\''];
    assert w[0] == '\'' && w[|w| - 1] == '\'';
    assert StripChar(w, '"') == w;
  }

  /** Stripping quotes off a bare `v` changes nothing. */
  lemma UnquoteBare(v: string)
    requires Bare(v)
    ensures StripChar(StripChar(v, '"'), '\'') == v
  {
  }
}

=== FILE: wrappers.dfy ===
/** Failure-carrying values shared by every module of the model. */
module Wrappers {

  /** A value that may be absent: Python's `None` or a missing dictionary key. */
  datatype Option<+T> = None | Some(value: T) {

    /** The carried value, or `default` when absent (Python's `d.get(k, default)`). */
    function GetOr(default: T): T {
      match this
      case Some(v) => v
      case None => default
    }
  }

  /** The outcome of an operation that may raise: `Ok` carries the return value, `Err` the exception. */
  datatype Result<+T, +E> = Ok(value: T) | Err(error: E)
}

/** Facts about sequences used across the model. */
module Seqs {
  import opened Wrappers

  /** No element occurs twice. */
  predicate Distinct<T(==)>(s: seq<T>) {
    forall i, j :: 0 <= i < j < |s| ==> s[i] != s[j]
  }

  /** `s` without its element at position `i` (Python's `del s[i]`). */
  function RemoveAt<T>(s: seq<T>, i: nat): (r: seq<T>)
    requires i < |s|
    ensures |r| == |s| - 1
    ensures forall j :: 0 <= j < i ==> r[j] == s[j]
    ensures forall j :: i <= j < |r| ==> r[j] == s[j + 1]
  {
    s[..i] + s[i + 1..]
  }

  lemma RemoveAtMembers<T>(s: seq<T>, i: nat)
    requires i < |s|
    ensures forall j :: 0 <= j < |s| - 1 ==> RemoveAt(s, i)[j] in s
    ensures Distinct(s) ==> Distinct(RemoveAt(s, i)) && s[i] !in RemoveAt(s, i)
    ensures forall k :: 0 <= k < |s| && k != i ==> s[k] in RemoveAt(s, i)
  {
    var r := RemoveAt(s, i);
    forall k | 0 <= k < |s| && k != i
      ensures s[k] in r
    {
      if k < i { assert r[k] == s[k]; } else { assert r[k - 1] == s[k]; }
    }
  }

  /** Position of the first occurrence of `x` in `s`. */
  function IndexOf<T(==)>(s: seq<T>, x: T): (i: nat)
    requires x in s
    ensures i < |s| && s[i] == x
    ensures forall j :: 0 <= j < i ==> s[j] != x
  {
    if s[0] == x then 0 else 1 + IndexOf(s[1..], x)
  }

  /** `r` is `s` with some elements left out: what remains keeps the order it had in `s`. */
  ghost predicate Subsequence<T>(r: seq<T>, s: seq<T>)
    decreases |s|
  {
    if r == [] then true
    else if s == [] then false
    else if r[0] == s[0] then Subsequence(r[1..], s[1..])
    else Subsequence(r, s[1..])
  }

  /** `r` lists the elements of `s` that satisfy `p`, in the order of `s`. */
  function Keep<T>(s: seq<T>, p: T -> bool): (r: seq<T>)
    ensures |r| <= |s|
    ensures forall i :: 0 <= i < |r| ==> r[i] in s && p(r[i])
    ensures forall i :: 0 <= i < |s| && p(s[i]) ==> s[i] in r
    ensures Distinct(s) ==> Distinct(r)
    ensures Subsequence(r, s)
  {
    if s == [] then []
    else if p(s[0]) then [s[0]] + Keep(s[1..], p)
    else Keep(s[1..], p)
  }

  /** The elements of `s`. */
  function Elems<T>(s: seq<T>): set<T> {
    set x | x in s
  }

  lemma {:induction false} DistinctCard<T>(s: seq<T>)
    requires Distinct(s)
    ensures |Elems(s)| == |s|
  {
    if s != [] {
      DistinctCard(s[1..]);
      assert Elems(s) == {s[0]} + Elems(s[1..]);
      assert s[0] !in Elems(s[1..]);
    }
  }

  /** Removing the members of `f` from `e` (both duplicate-free, `f` drawn from `e`) leaves `|e| - |f|` items. */
  lemma KeepOutCount<T>(e: seq<T>, f: seq<T>)
    requires Distinct(e) && Distinct(f)
    requires forall i :: 0 <= i < |f| ==> f[i] in e
    ensures |Keep(e, x => x !in f)| == |e| - |f|
  {
    var r := Keep(e, x => x !in f);
    DistinctCard(e);
    DistinctCard(f);
    DistinctCard(r);
    assert Elems(r) == Elems(e) - Elems(f);
    assert Elems(f) <= Elems(e);
  }

  /** A duplicate-free sequence as long as a duplicate-free `b`, and drawn from `b`, holds all of `b`. */
  lemma Covers<T>(a: seq<T>, b: seq<T>)
    requires Distinct(a) && Distinct(b)
    requires forall i :: 0 <= i < |a| ==> a[i] in b
    ensures |a| == |b| ==> forall i :: 0 <= i < |b| ==> b[i] in a
  {
    if |a| != |b| { return; }
    DistinctCard(a);
    DistinctCard(b);
    assert Elems(a) <= Elems(b);
    assert |Elems(b) - Elems(a)| == |Elems(b)| - |Elems(a)| == 0;
    assert Elems(a) == Elems(b);
    forall i | 0 <= i < |b|
      ensures b[i] in a
    {
      assert b[i] in Elems(b);
    }
  }

  /** A rearrangement of a duplicate-free sequence is duplicate-free and has the same members. */
  lemma PermutationFacts<T>(a: seq<T>, b: seq<T>)
    requires multiset(a) == multiset(b) && Distinct(b)
    ensures Distinct(a)
    ensures forall i :: 0 <= i < |a| ==> a[i] in b
  {
    forall i | 0 <= i < |a|
      ensures a[i] in b
    {
      assert a[i] in multiset(a);
    }
    forall i, j | 0 <= i < j < |a|
      ensures a[i] != a[j]
    {
      if a[i] == a[j] {
        var x := a[i];
        assert multiset(a)[x] >= 2 by {
          assert a == a[..i] + [x] + a[i + 1..j] + [x] + a[j + 1..];
        }
        DistinctCount(b, x);
        assert false;
      }
    }
  }

  /** In a duplicate-free sequence every item occurs at most once. */
  lemma {:induction false} DistinctCount<T>(b: seq<T>, x: T)
    requires Distinct(b)
    ensures multiset(b)[x] <= 1
  {
    if b != [] {
      DistinctCount(b[1..], x);
      assert b == [b[0]] + b[1..];
      if b[0] == x {
        assert x !in b[1..];
      }
    }
  }

  lemma DistinctJoin<T>(a: seq<T>, b: seq<T>)
    requires Distinct(a) && Distinct(b)
    requires forall i :: 0 <= i < |b| ==> b[i] !in a
    ensures Distinct(a + b)
  {
    var c := a + b;
    forall i, j | 0 <= i < j < |c|
      ensures c[i] != c[j]
    {
      if i < |a| && j >= |a| {
        assert c[j] == b[j - |a|];
      }
    }
  }

  function Min(a: int, b: int): int {
    if a <= b then a else b
  }

  function Max(a: int, b: int): int {
    if a >= b then a else b
  }

  /** The first present value of `s`, if any. */
  function FirstSome<T(==)>(s: seq<Option<T>>): (r: Option<T>)
    ensures r.None? <==> forall i :: 0 <= i < |s| ==> s[i].None?
    ensures r.Some? ==> exists i :: 0 <= i < |s| && s[i] == r && forall j :: 0 <= j < i ==> s[j].None?
  {
    if s == [] then None
    else if s[0].Some? then
      assert s[0] == s[0];
      s[0]
    else
      var r := FirstSome(s[1..]);
      assert forall i :: 0 < i < |s| ==> s[i] == s[1..][i - 1];
      if r.Some? then
        var i :| 0 <= i < |s[1..]| && s[1..][i] == r && forall j :: 0 <= j < i ==> s[1..][j].None?;
        assert s[i + 1] == r;
        r
      else r
  }

  /** A present value preceded only by absent ones is the first present value. */
  lemma FirstSomeAt<T>(s: seq<Option<T>>, k: nat)
    requires k < |s| && s[k].Some?
    requires forall j :: 0 <= j < k ==> s[j].None?
    ensures FirstSome(s) == s[k]
  {
    assert FirstSome(s).Some?;
    var i :| 0 <= i < |s| && s[i] == FirstSome(s) && forall j :: 0 <= j < i ==> s[j].None?;
    assert s[i].Some? && s[k].Some?;
    assert i == k;
  }

  /** The present values of `rs` in order, or the first error among them. */
  function Gather<T(==), E(==)>(rs: seq<Result<Option<T>, E>>): (r: Result<seq<T>, E>)
    ensures r.Ok? <==> forall i :: 0 <= i < |rs| ==> rs[i].Ok?
    ensures r.Ok? ==> |r.value| <= |rs|
    ensures r.Ok? ==> forall i :: 0 <= i < |r.value| ==> exists j :: 0 <= j < |rs| && rs[j] == Ok(Some(r.value[i]))
    ensures r.Err? ==> exists j :: 0 <= j < |rs| && rs[j] == Err(r.error) && forall k :: 0 <= k < j ==> rs[k].Ok?
  {
    if rs == [] then Ok([])
    else
      var rest := Gather(rs[1..]);
      assert forall j :: 0 < j < |rs| ==> rs[j] == rs[1..][j - 1];
      match rs[0]
      case Err(e) =>
        assert rs[0] == Err(e);
        Err(e)
      case Ok(found) =>
        match rest
        case Err(e) =>
          var j :| 0 <= j < |rs[1..]| && rs[1..][j] == Err(e) && forall k :: 0 <= k < j ==> rs[1..][k].Ok?;
          assert rs[j + 1] == Err(e);
          Err(e)
        case Ok(xs) =>
          if found.Some? then
            assert rs[0] == Ok(Some(found.value));
            Ok([found.value] + xs)
          else Ok(xs)
  }

  /** Every present value is gathered. */
  lemma {:induction false} GatherKeeps<T, E>(rs: seq<Result<Option<T>, E>>, j: nat)
    requires j < |rs| && Gather(rs).Ok? && rs[j].Ok? && rs[j].value.Some?
    ensures rs[j].value.value in Gather(rs).value
  {
    if j > 0 {
      assert rs[j] == rs[1..][j - 1];
      GatherKeeps(rs[1..], j - 1);
    }
  }

  /** Gathering a concatenation gathers each part and keeps them in order. */
  lemma {:induction false} GatherConcat<T, E>(a: seq<Result<Option<T>, E>>, b: seq<Result<Option<T>, E>>)
    requires Gather(a).Ok? && Gather(b).Ok?
    ensures Gather(a + b) == Ok(Gather(a).value + Gather(b).value)
  {
    if a == [] {
      assert a + b == b;
      assert Gather(a) == Ok([]);
      assert Gather(a).value + Gather(b).value == Gather(b).value;
    } else {
      var x, tail := a[0], a[1..];
      assert a == [x] + tail;
      assert a + b == [x] + (tail + b);
      GatherCons(x, tail);
      GatherConcat(tail, b);
      GatherCons(x, tail + b);
      AppendAssoc(if x.value.Some? then [x.value.value] else [], Gather(tail).value, Gather(b).value);
    }
  }

  /** Concatenation is associative. */
  lemma AppendAssoc<T>(u: seq<T>, v: seq<T>, w: seq<T>)
    ensures u + (v + w) == (u + v) + w
  {
  }

  /** Gathering one more outcome in front puts its value, if any, in front. */
  lemma GatherCons<T, E>(x: Result<Option<T>, E>, rest: seq<Result<Option<T>, E>>)
    requires Gather([x] + rest).Ok? || (x.Ok? && Gather(rest).Ok?)
    ensures x.Ok? && Gather(rest).Ok? && Gather([x] + rest).Ok?
    ensures Gather([x] + rest).value == (if x.value.Some? then [x.value.value] else []) + Gather(rest).value
  {
    var rs := [x] + rest;
    assert rs[0] == x && rs[1..] == rest;
  }

  /** Gathering one outcome gives its value, if any. */
  lemma GatherSingle<T, E>(x: Result<Option<T>, E>)
    requires x.Ok?
    ensures x.value.Some? ==> Gather([x]) == Ok([x.value.value])
    ensures x.value.None? ==> Gather([x]) == Ok([])
  {
    var none: seq<Result<Option<T>, E>> := [];
    GatherCons(x, none);
    assert [x] + none == [x];
    assert Gather(none) == Ok([]);
    var v := if x.value.Some? then [x.value.value] else [];
    assert v + [] == v;
  }

  /** Values drawn from different positions with different keys are gathered with different keys. */
  lemma {:induction false} GatherDistinct<T, E, K>(rs: seq<Result<Option<T>, E>>, key: T -> K)
    requires Gather(rs).Ok?
    requires forall a, b, i, j :: 0 <= i < j < |rs| && rs[i] == Ok(Some(a)) && rs[j] == Ok(Some(b)) ==> key(a) != key(b)
    ensures forall i, k :: 0 <= i < k < |Gather(rs).value| ==> key(Gather(rs).value[i]) != key(Gather(rs).value[k])
  {
    if rs != [] {
      GatherDistinct(rs[1..], key);
      var xs := Gather(rs[1..]).value;
      if rs[0].value.Some? {
        var a := rs[0].value.value;
        forall k | 0 <= k < |xs|
          ensures key(a) != key(xs[k])
        {
          var j :| 0 <= j < |rs[1..]| && rs[1..][j] == Ok(Some(xs[k]));
          assert rs[j + 1] == Ok(Some(xs[k]));
        }
      }
    }
  }
}
